=== FILE: README.md ===
# Sorted short-string ordinal index and its building blocks, in Dafny

This project models the allocation-free collection core of a small C# utility
library. Each model is a pure functional transcription of one source type:

- `InlinedTrashBin` is a free-slot bitmap. A `uint Count` is followed by 32-bit
  words of deletion marks, and `TryRestore` hands back a freed slot.
- `PascalString` is a 256-byte length-prefixed record. It is compared as 32
  little-endian 64-bit words, after the length byte.
- `PascalOrdinalMap` is the sorted index from short names to stable slot
  numbers ("indexes"):
  - an array of ordinals keeps the key slots in record order;
  - a binary search (`OrdinalOf`) finds a record;
  - freed slots are recycled through the trash bin;
  - the block doubles when it is full.
- `Uuid` is a 16-byte identifier:
  - a 64-bit `Lo`/`Hi` pair;
  - a byte-wise (vector) order and a `Lo`-then-`Hi` (scalar) order;
  - binary search over an array of 64-bit halves;
  - hexadecimal formatting.
- `Adjacency` and `AdjacencyStore` are intrusive singly and doubly linked lists
  of ordinals, plus a growable element pool with alive and dead lists.
- `UnmanagedMap` models the buffer layout arithmetic and the lifecycle of the
  off-heap map.
- `TinyList` and `OptionalList` are small lists with an inline part or a lazily
  allocated array.
- `Cancer` is a right-to-left text builder. It prepends characters and decimal
  integers.

Common ground lives in `Outcomes` and `LittleEndian`:

- `Outcomes` holds the `Result` type and `Complement`, which is the `~x`
  encoding of an insertion point.
- `LittleEndian` holds the value of a byte string read little-endian, and its
  inverse.

An exception thrown by the source becomes an `Err` carrying the exception kind
(`Argument`, `ArgumentOutOfRange`, `IndexOutOfRange`, `Overflow`). Where the
source changes state before it throws, the model returns the new state paired
with the `Result`.

A map `m` is `Valid(m)` when all of the following hold:

- its live positions `0..count` name distinct key slots below `keyCount`;
- the records in those slots are strictly increasing in the word order;
- every slot below `keyCount` that no position names is marked in the trash
  bin, and only those slots are;
- `count` plus the trash count equals `keyCount`.

`OrdinalOf` is a `method` that carries the source's loop. Its midpoint is
`hi + (lo >> 1)`. While `lo` is 0 the probe is `hi`, and `lo` leaves 0 only on
the step that ends the loop, so the loop scans downward and stops at the first
record not above the query. It is therefore a downward scan rather than a
halving, but it still returns the position of the record or the complement of
its insertion point (`PascalOrdinalMap.Lookup`).

Where the behaviour documented for these types and the code differ, the model
follows the code:

- `TryRestore` returns the highest marked bit of the lowest non-zero word, not
  the lowest free slot (`InlinedTrashBin.TryRestore`).
- The map enumerates in sorted position order, not in slot order
  (`PascalOrdinalMap.Enumerate`).
- Records are ordered by 64-bit little-endian words. Within a word the later
  byte is more significant, so "bob" sorts before "ann"
  (`PascalString.LaterBytesDecide`).
- The vector and scalar `Uuid` comparisons are different orders
  (`Uuid.PathsOrderDifferently`).

## Model

| member | source | states |
|---|---|---|
| InlinedTrashBin.Get | src/Collections/InlinedTrashBin.cs:11 | a mark reads bit `index & 31` of word `1 + (index >>> 5)`, and it is set exactly when `index` is in the free set |
| InlinedTrashBin.Set | src/Collections/InlinedTrashBin.cs:12-29 | setting a mark adds `index` to the free set or removes it; a write of the current value changes nothing; otherwise `Count` moves by one and still equals the popcount |
| InlinedTrashBin.Restore | src/Collections/InlinedTrashBin.cs:53-61 | the result says whether the mark was set; the mark is cleared and `Count` drops by one only when it was set |
| InlinedTrashBin.LeadingZeroCount | src/Collections/InlinedTrashBin.cs:45 | the count covers exactly the run of clear high bits, and the bit below that run is set |
| InlinedTrashBin.ScanWords | src/Collections/InlinedTrashBin.cs:43-45 | the scan stops at a set bit; every word before it is empty, and no higher bit of its own word is set |
| InlinedTrashBin.TryRestore | src/Collections/InlinedTrashBin.cs:34-46 | it fails exactly when the free set is empty; on success it clears the highest bit of the lowest non-zero word, removes that slot from the free set and decrements `Count` |
| InlinedTrashBin.IntsFor | src/Collections/InlinedTrashBin.cs:65 | two ints per word: one for the count and one per started 32-slot word |
| InlinedTrashBin.BytesFor | src/Collections/InlinedTrashBin.cs:68 | the byte length covers the count word plus enough words to give every slot of the capacity a bit |
| InlinedTrashBin.BinBits | src/Collections/InlinedTrashBin.cs:68 | the mark area is the capacity rounded up to whole 32-bit words |
| InlinedTrashBin.Clear | src/Collections/InlinedTrashBin.cs:32 | zeroing `byteLength` bytes clears the count and exactly the marks stored in those bytes |
| InlinedTrashBin.Empty | src/Collections/InlinedTrashBin.cs:32 | a cleared bin of a capacity is valid, has count zero and an empty free set |
| InlinedTrashBin.ClearBytesFor | src/Collections/InlinedTrashBin.cs:32 | clearing `BytesFor(capacity)` bytes empties the whole bin |
| InlinedTrashBin.PopCountUpdate | src/Collections/InlinedTrashBin.cs:20 | writing one mark changes the popcount by the difference of the old and new mark |
| InlinedTrashBin.PopCountZero | src/Collections/InlinedTrashBin.cs:36 | a zero popcount means that no mark is set, and conversely |
| InlinedTrashBin.PopCountIsCardinality | src/Collections/InlinedTrashBin.cs:7 | `Count` (the popcount) is the size of the free set |
| PascalString.Length | src/PascalString.cs:15 | the length byte is at most 255 |
| PascalString.Span | src/PascalString.cs:24 | the content is the `Length` bytes after the length byte |
| PascalString.At | src/PascalString.cs:25 | an index inside 0..255 reads that byte; index 0 and any multiple of 256 read the length |
| PascalString.AtWraps | src/PascalString.cs:25 | the indexer wraps modulo 256, including for negative indexes |
| PascalString.FromBytes | src/PascalString.cs:17-22 | the record keeps the first 255 bytes of its argument, with zero padding after them |
| PascalString.FromBytesSpan | src/PascalString.cs:17-22 | building a record from the content of a zero-padded record gives that record back |
| PascalString.Word | src/PascalString.cs:31 | each of the 32 words is a 64-bit value |
| PascalString.CompareWords | src/PascalString.cs:40-45 | the word comparison yields -1, 0 or 1 |
| PascalString.CompareTo | src/PascalString.cs:35-46 | different lengths compare by their difference; equal lengths give -1, 0 or 1; the result is zero exactly for equal records |
| PascalString.CompareToAntisymmetric | src/PascalString.cs:35-46 | swapping the operands negates the result |
| PascalString.CompareToTransitive | src/PascalString.cs:35-46 | "less than" is transitive |
| PascalString.CompareToFirstWord | src/PascalString.cs:40-45 | with equal lengths, the first differing word decides the sign |
| PascalString.CompareWordsEqual | src/PascalString.cs:40-45 | all 32 words equal exactly when the records are equal |
| PascalString.WordsDetermineBytes | src/PascalString.cs:31 | the word view loses nothing: equal words mean equal bytes |
| PascalString.PrecedesTotal | src/Collections/PascalOrdinalMap.cs:202-213 | the word order used by the map is irreflexive, asymmetric and total on distinct records |
| PascalString.PrecedesTransitive | src/Collections/PascalOrdinalMap.cs:202-213 | the word order is transitive |
| PascalString.PrefixDecides | src/Collections/PascalOrdinalMap.cs:202 | for zero-padded records, comparing only the words that cover the query's bytes gives the same answer as comparing all 32 |
| PascalString.PrecedesByByte | src/Collections/PascalOrdinalMap.cs:203 | within the first word, the highest differing byte decides the order |
| PascalString.LaterBytesDecide | src/Collections/PascalOrdinalMap.cs:203 | the word order puts "bob" before "ann" |
| PascalString.FromStringAsWritten | src/PascalString.cs:51-61 | the conversion as written: it fails for over 511 bytes; the length is the byte count mod 256, and the content is copied from one byte too early |
| PascalString.FromString | src/PascalString.cs:51-61 | the corrected conversion has the same failure and length, and its content is the leading bytes of the argument |
| PascalString.FromStringAsWrittenLosesFirstByte | src/PascalString.cs:56-59 | converting "A" as written gives content [0]; the corrected conversion gives [65] |
| PascalString.FromStringRoundTrip | src/PascalString.cs:51-61 | for at most 255 bytes, the corrected conversion returns exactly those bytes |
| LittleEndian.BytesValue | src/PascalString.cs:31 | the value of the little-endian bytes of `v` is `v` |
| LittleEndian.ValueBytes | src/PascalString.cs:31 | taking the bytes of a value gives back the original byte string |
| LittleEndian.ValueInjective | src/Uuid.cs:19-21 | byte strings of equal length with the same value are equal |
| LittleEndian.ValueByTopByte | src/PascalString.cs:31 | the highest differing byte decides which value is smaller |
| PascalOrdinalMap.RoundUp8 | src/Collections/PascalOrdinalMap.cs:33-34 | the key byte count is rounded up to the next multiple of 8 |
| PascalOrdinalMap.EncodeKey | src/Collections/PascalOrdinalMap.cs:89-97 | the corrected encoding: an empty name is an `Argument` error; 256 or more UTF-16 units or over 255 UTF-8 bytes is `ArgumentOutOfRange`; otherwise the key holds the bytes and compares whole words |
| PascalOrdinalMap.EncodeKeyAsWritten | src/Collections/PascalOrdinalMap.cs:91-92 | the encoding as written agrees with the corrected one while the UTF-8 form takes at most `2n` bytes (the `span[1..]` after the length byte), and throws otherwise |
| PascalOrdinalMap.EncodeKeyAsWrittenRejectsEuro | src/Collections/PascalOrdinalMap.cs:32-33 | "€" (one unit, three bytes) is rejected as written and accepted by the corrected encoding |
| PascalOrdinalMap.InsertionPoint | src/Collections/PascalOrdinalMap.cs:218 | the insertion point has every record before it preceding the query, and the record at it not preceding the query |
| PascalOrdinalMap.LookupSpec | src/Collections/PascalOrdinalMap.cs:188-218 | a non-negative lookup is exactly the position of the record; a negative one is the complement of the sorted insertion point |
| PascalOrdinalMap.OrdinalOf | src/Collections/PascalOrdinalMap.cs:188-218 | the source's loop returns the lookup result, and -1 on an empty map |
| PascalOrdinalMap.Bisect | src/Collections/PascalOrdinalMap.cs:198-216 | the loop stops either on an equal record or at a position bracketed by a smaller and a larger neighbour |
| PascalOrdinalMap.CompareAt | src/Collections/PascalOrdinalMap.cs:202-213 | comparing the query's words with a live record tells whether the query is above it, below it or equal to it |
| PascalOrdinalMap.Probe | src/Collections/PascalOrdinalMap.cs:202-213 | the prefix word comparison agrees with the full word order |
| PascalOrdinalMap.FoundAt | src/Collections/PascalOrdinalMap.cs:214 | a position holding the query is what the lookup returns |
| PascalOrdinalMap.AbsentAt | src/Collections/PascalOrdinalMap.cs:210 | a gap between a smaller and a larger neighbour gives the complement of that gap |
| PascalOrdinalMap.Shift | src/Collections/PascalOrdinalMap.cs:171-175 | the live ordinals become the old ones with the new slot inserted at the position |
| PascalOrdinalMap.SortedInsert | src/Collections/PascalOrdinalMap.cs:171-175 | inserting at the insertion point keeps the records sorted |
| PascalOrdinalMap.InsertPreserves | src/Collections/PascalOrdinalMap.cs:171-175 | an insert that places the key at a slot no position names keeps the map well formed and sorted, and inserts the key into the live records |
| PascalOrdinalMap.Add | src/Collections/PascalOrdinalMap.cs:142-176 | adding keeps the map valid and inserts the key at its position; the block doubles only when the trash is empty and every slot is used |
| PascalOrdinalMap.AddSlot | src/Collections/PascalOrdinalMap.cs:146-148 | the new slot is the restored trash slot, or else the next unused slot |
| PascalOrdinalMap.AddFromTrash | src/Collections/PascalOrdinalMap.cs:146 | reusing a trash slot keeps the map valid |
| PascalOrdinalMap.AddFresh | src/Collections/PascalOrdinalMap.cs:148 | taking the next unused slot keeps the map valid |
| PascalOrdinalMap.AddGrown | src/Collections/PascalOrdinalMap.cs:149-167 | doubling the block keeps every ordinal and key, and gives an empty trash bin |
| PascalOrdinalMap.RemoveWithOrdinal | src/Collections/PascalOrdinalMap.cs:178-186 | removal drops that position's record and slot; the last slot shrinks `keyCount`, and any other slot is marked in the trash |
| PascalOrdinalMap.RemovePreserves | src/Collections/PascalOrdinalMap.cs:178-186 | removal keeps the map valid and removes exactly the one record |
| PascalOrdinalMap.KeySetRemove | src/Collections/PascalOrdinalMap.cs:178-186 | the set of keys loses exactly the removed key |
| PascalOrdinalMap.TryGetIndex | src/Collections/PascalOrdinalMap.cs:29-49 | with the corrected encoding, it succeeds exactly for an encodable name whose key is present, and returns that key's slot; a failure returns `uint.MaxValue` |
| PascalOrdinalMap.Contains | src/Collections/PascalOrdinalMap.cs:52-64 | with the corrected encoding, it holds exactly when the name is encodable and its key is present |
| PascalOrdinalMap.Get | src/Collections/PascalOrdinalMap.cs:85-105 | with the corrected encoding, encoding errors propagate; a success leaves a valid map |
| PascalOrdinalMap.GetSpec | src/Collections/PascalOrdinalMap.cs:99-103 | the indexer returns the slot that holds the name afterwards; it adds the key when it is absent and leaves the map unchanged otherwise |
| PascalOrdinalMap.GetAbsent | src/Collections/PascalOrdinalMap.cs:102 | adding at the complement of a failed lookup inserts the key where the next lookup finds it |
| PascalOrdinalMap.AddFinds | src/Collections/PascalOrdinalMap.cs:142-176 | after an insert the lookup finds the key at its position, and the key set gains exactly that key |
| PascalOrdinalMap.GetThenTryGetIndex | src/Collections/PascalOrdinalMap.cs:85-105 | after the indexer, `TryGetIndex` and `Contains` see the name with the slot the indexer returned |
| PascalOrdinalMap.RemoveWithKey | src/Collections/PascalOrdinalMap.cs:124-140 | with the corrected encoding, it succeeds exactly for a present key and removes just that key; otherwise the map is unchanged |
| PascalOrdinalMap.RemoveThenContains | src/Collections/PascalOrdinalMap.cs:124-140 | after a removal the name is no longer contained |
| PascalOrdinalMap.FindPosition | src/Collections/PascalOrdinalMap.cs:73-78 | the scan finds the first position holding the slot, or reports that none does |
| PascalOrdinalMap.AcquireOrdinalAsWritten | src/Collections/PascalOrdinalMap.cs:67-83 | as written, the scan covers `keyCount` positions, including stale ones past `count` |
| PascalOrdinalMap.AcquireOrdinal | src/Collections/PascalOrdinalMap.cs:67-83 | the corrected scan finds a slot exactly when a live position names it |
| PascalOrdinalMap.RemoveWithIndex | src/Collections/PascalOrdinalMap.cs:114-122 | with the corrected scan, it succeeds exactly for a live slot, and removes that slot's key |
| PascalOrdinalMap.RemoveWithIndexAsWritten | src/Collections/PascalOrdinalMap.cs:114-122 | as written, it reports success exactly when the slot is below `keyCount` at any of the first `keyCount` positions; a live slot is removed as the corrected member removes it; a slot found only at a stale position `p >= count` gives `RemoveWithOrdinal` a `uint` move count `last - p` of at least `2^32 - keyCount` |
| PascalOrdinalMap.AcquireOrdinalAsWrittenFindsStale | src/Collections/PascalOrdinalMap.cs:69-73 | a map with a freed slot left in a stale position: the scan as written finds it there, and the corrected scan does not; `RemoveWithIndex` as written then reports success and its move count wraps to `uint.MaxValue`, while the corrected one reports failure |
| PascalOrdinalMap.Clear | src/Collections/PascalOrdinalMap.cs:107-111 | clearing empties the key set and the trash bin |
| PascalOrdinalMap.ClearedTrash | src/Collections/PascalOrdinalMap.cs:109 | skipping the clear of an already empty trash gives the same bin as clearing it |
| PascalOrdinalMap.New | src/Collections/PascalOrdinalMap.cs:16-24 | a capacity outside 1..0x3FFFFFFF is `ArgumentOutOfRange`; otherwise the map is valid, empty, with that many slots and an empty trash |
| PascalOrdinalMap.Enumerate | src/Collections/PascalOrdinalMap.cs:243-260 | one pair per live position, in sorted order: the key bytes and their slot, with distinct slots |
| PascalOrdinalMap.YieldedAsWrittenPositions | src/Collections/PascalOrdinalMap.cs:269-282 | as written, repeating `Next` then `Select` from cursor `c` until `Next` fails reads positions `c+1..count`, because `Next` tests the old cursor and `Select` reads the incremented one |
| PascalOrdinalMap.YieldedPositions | src/Collections/PascalOrdinalMap.cs:269-282 | with `Select` reading the cursor `Next` tested, the same loop reads positions `c..count-1` |
| PascalOrdinalMap.IteratorAsWrittenSkipsFirst | src/Collections/PascalOrdinalMap.cs:262-282 | from a fresh iterator, as written, position 0 is never read and the last read is position `count`, which holds no live ordinal; corrected, the slots read are exactly those `Enumerate` yields |
| PascalOrdinalMap.GrowthAllocationAsWrittenWraps | src/Collections/PascalOrdinalMap.cs:151-152 | growing a full block of 2^24 slots, a capacity the constructor accepts, computes a 32-bit block size of 138412036 bytes, below the start of the new free-map |
| PascalOrdinalMap.TrashByteStart | src/Collections/PascalOrdinalMap.cs:20 | the trash starts after 4 bytes of ordinal and 256 bytes of key per slot |
| PascalOrdinalMap.Allocation | src/Collections/PascalOrdinalMap.cs:20 | the block holds the ordinals, the keys and a full trash bin |
| PascalOrdinalMap.AllocationAsWrittenNoWrap | src/Collections/PascalOrdinalMap.cs:20 | when the size fits in 32 bits, the size computed as written is the true size |
| PascalOrdinalMap.AllocationAsWrittenWraps | src/Collections/PascalOrdinalMap.cs:18-20 | at the largest accepted capacity, the 32-bit size wraps to 134217472, below the start of the trash bin |
| Uuid.FromHalves | src/Uuid.cs:19-21 | the identifier built from two halves has those halves |
| Uuid.HalvesRoundTrip | src/Uuid.cs:19-21 | rebuilding from `Lo` and `Hi` gives the identifier back |
| Uuid.HalvesInjective | src/Uuid.cs:159 | two identifiers are equal exactly when both halves are |
| Uuid.IsEmpty | src/Uuid.cs:30 | empty means all 16 bytes are zero |
| Uuid.At | src/Uuid.cs:35 | the indexer reads byte `index & 0xF` |
| Uuid.AtWraps | src/Uuid.cs:35 | the indexer wraps modulo 16 |
| Uuid.FirstDifference | src/Uuid.cs:44 | the first differing byte: all bytes before it agree |
| Uuid.FirstDifferenceEqual | src/Uuid.cs:42-43 | no differing byte exactly when the identifiers are equal |
| Uuid.Equals | src/Uuid.cs:51 | both paths decide equality of the identifiers |
| Uuid.NotEquals | src/Uuid.cs:99 | `!=` is the negation of equality |
| Uuid.CompareU64 | src/Uuid.cs:48 | a three-way comparison of 64-bit values |
| Uuid.CompareTo | src/Uuid.cs:38-49 | zero exactly for equal identifiers; the vector path returns the difference at the first differing byte; the scalar path orders by `Lo`, then `Hi` |
| Uuid.Less | src/Uuid.cs:101-112 | `<` holds exactly when `CompareTo` is negative |
| Uuid.Greater | src/Uuid.cs:114-125 | `>` holds exactly when `CompareTo` is positive |
| Uuid.CompareToAntisymmetric | src/Uuid.cs:38-49 | swapping the operands flips "less" into "greater", on both paths |
| Uuid.LessTransitive | src/Uuid.cs:101-112 | `<` is transitive on both paths |
| Uuid.PathsOrderDifferently | src/Uuid.cs:40-48 | the identifiers with `Lo` 1 and 256 compare one way on the vector path and the other way on the scalar path |
| Uuid.Pairs | src/Uuid.cs:127-141 | an array of halves read with stride 2 gives identifiers of consecutive pairs |
| Uuid.OverlappingPairs | src/Uuid.cs:146-149 | an array read with stride 1 gives identifiers of overlapping pairs |
| Uuid.RankOrder | src/Uuid.cs:127-141 | the rank used by the search orders by `Hi` first and then `Lo`, and identifies equal identifiers |
| Uuid.Halving | src/Uuid.cs:130-140 | the halving either finds the value or returns the complement of a position with smaller ranks before it and larger ranks after it |
| Uuid.BinarySearch | src/Uuid.cs:127-141 | on a sorted array, the result is non-negative exactly when the value is present, and it is then its index |
| Uuid.AbsentWhenBetween | src/Uuid.cs:140 | a value strictly between two neighbours is absent |
| Uuid.UnsafeBinarySearchAsWritten | src/Uuid.cs:143-157 | as written, with `T = ulong`, the pointer search treats overlapping pairs as the elements and searches the first half of them |
| Uuid.UnsafeBinarySearchAsWrittenMisses | src/Uuid.cs:146-149 | on [5,1,7,2], the corrected search finds (7,2) at 1 and the search as written returns -2 |
| Uuid.UnsafeBinarySearchOfUuids | src/Uuid.cs:143-157 | with `T = Uuid` the elements are read at the right stride, but a hit is always in the first half and a miss points into the first half |
| Uuid.UnsafeBinarySearchOfUuidsMisses | src/Uuid.cs:146 | over the two sorted identifiers (5,1) and (7,2), the search with `T = Uuid` misses (7,2), which the corrected search finds at 1 |
| Uuid.HexDigit | src/Uuid.cs:59-72 | the hex digit character has the value of its argument |
| Uuid.HexDescendingValue | src/Uuid.cs:59-72 | the digits, most significant first, spell the little-endian value of the bytes |
| Uuid.Framed | src/Uuid.cs:59-72 | the text frames `Lo` and `Hi` as 16 uppercase hex digits each, whose values are `Lo` and `Hi` |
| Uuid.ToString | src/Uuid.cs:59-72 | the C# form is `(0x<Lo>UL, 0x<Hi>UL)` with `Lo` and `Hi` as 16 uppercase hex digits; the simple form drops the parentheses |
| Uuid.ToJavaScriptString | src/Uuid.cs:73-86 | the JavaScript form is `(0x<Lo>n, 0x<Hi>n)` with `Lo` and `Hi` as 16 uppercase hex digits; the simple form drops the parentheses |
| Adjacency.Increment | src/Collections/Generic/AdjacencyExtensions.cs:10 | a `uint` increment that wraps at 2^32 |
| Adjacency.Resize | src/Collections/Generic/AdjacencyExtensions.cs:9 | resizing keeps the prefix and zero-fills the rest |
| Adjacency.Append | src/Collections/Generic/AdjacencyExtensions.cs:7-12 | it hands out the cursor and always bumps it; a full array doubles to twice the cursor with its contents kept; a doubling past `int.MaxValue` throws `ArgumentOutOfRange` with the cursor already bumped and the array unchanged |
| Adjacency.SinglyLink | src/Collections/Generic/AdjacencyExtensions.cs:18-25 | the new ordinal becomes last; the first one becomes first too, and otherwise the old last links to it |
| Adjacency.SinglyLinkAppends | src/Collections/Generic/AdjacencyExtensions.cs:18-25 | linking appends the ordinal to the thread that the list follows |
| Adjacency.DoublyLink | src/Collections/Generic/AdjacencyExtensions.cs:27-35 | the new ordinal is linked after the old last in both directions; the links of other ordinals are untouched |
| Adjacency.DoublyLinkAppends | src/Collections/Generic/AdjacencyExtensions.cs:27-35 | linking appends the ordinal to the doubly linked thread |
| Adjacency.DoublyUnlink | src/Collections/Generic/AdjacencyExtensions.cs:37-57 | an empty list throws `IndexOutOfRange`; otherwise the count drops by one |
| Adjacency.DoublyUnlinkRemoves | src/Collections/Generic/AdjacencyExtensions.cs:37-57 | unlinking a member removes exactly that ordinal from the thread, and leaves non-members' links alone |
| Adjacency.UnlinkHead | src/Collections/Generic/AdjacencyExtensions.cs:46 | unlinking the head advances `first` |
| Adjacency.UnlinkTail | src/Collections/Generic/AdjacencyExtensions.cs:47 | unlinking the tail moves `last` back |
| Adjacency.UnlinkMiddle | src/Collections/Generic/AdjacencyExtensions.cs:48-53 | unlinking an inner ordinal joins its neighbours |
| Adjacency.DoublyPop | src/Collections/Generic/AdjacencyExtensions.cs:59-74 | popping returns the last ordinal and steps `last` back; an empty list returns `uint.MaxValue` |
| Adjacency.DoublyPopRemovesLast | src/Collections/Generic/AdjacencyExtensions.cs:59-74 | popping removes the last ordinal of the thread |
| AdjacencyStore.Create | src/Collections/Generic/AdjacencyStore.cs:14-18 | capacity 0 is `ArgumentOutOfRange` and a capacity past `int.MaxValue` is `Overflow`; otherwise the store is valid and empty with that capacity |
| AdjacencyStore.Count | src/Collections/Generic/AdjacencyStore.cs:44-48 | the count is the number of live elements |
| AdjacencyStore.Get | src/Collections/Generic/AdjacencyStore.cs:34-42 | an ordinal at or past the alive count is `ArgumentOutOfRange`; otherwise the element's bytes |
| AdjacencyStore.Put | src/Collections/Generic/AdjacencyStore.cs:34-42 | writing replaces exactly that element |
| AdjacencyStore.Grow | src/Collections/Generic/AdjacencyStore.cs:60-64 | the corrected growth doubles the pool, keeps every element and zero-fills the new ones |
| AdjacencyStore.GrowAsWritten | src/Collections/Generic/AdjacencyStore.cs:60-64 | as written, growth keeps only the first `length` bytes |
| AdjacencyStore.GrowAsWrittenLosesBytes | src/Collections/Generic/AdjacencyStore.cs:62 | one two-byte element [7,9] becomes [7,0] as written, and stays [7,9] when corrected |
| AdjacencyStore.New | src/Collections/Generic/AdjacencyStore.cs:56-68 | with the corrected growth, a new element comes from the cursor when no dead one exists, and growth keeps the old elements; on an error the state already changed comes back with it: a reused ordinal past the array is linked alive (`IndexOutOfRange`), or the cursor is bumped when doubling would pass `int.MaxValue` (`Overflow`) |
| AdjacencyStore.NewAsWritten | src/Collections/Generic/AdjacencyStore.cs:56-68 | as written, the growth path hands out the cursor in `GrowAsWritten`'s array, and every other path is the corrected one's |
| AdjacencyStore.NewAsWrittenLosesBytes | src/Collections/Generic/AdjacencyStore.cs:62 | on a full pool holding one two-byte element [7,9], `New` as written hands out ordinal 1 with element 0 reading [7,0]; corrected, element 0 stays [7,9] |
| AdjacencyStore.NewPreserves | src/Collections/Generic/AdjacencyStore.cs:56-68 | a new element reuses the last dead ordinal, or else takes the cursor; the store stays valid with it live |
| AdjacencyStore.NewFromDead | src/Collections/Generic/AdjacencyStore.cs:58 | reuse pops the dead list |
| AdjacencyStore.NewFromCursor | src/Collections/Generic/AdjacencyStore.cs:59-64 | without dead elements the cursor advances |
| AdjacencyStore.Invalidate | src/Collections/Generic/AdjacencyStore.cs:70-74 | an empty alive list throws; otherwise one element moves from alive to dead |
| AdjacencyStore.InvalidatePreserves | src/Collections/Generic/AdjacencyStore.cs:70-74 | invalidating a live ordinal moves it to the end of the dead list and keeps the store valid |
| AdjacencyStore.Clean | src/Collections/Generic/AdjacencyStore.cs:20-25 | cleaning empties both lists and the cursor; with `zerofy` it zeroes exactly the used elements |
| AdjacencyStore.CleanZeroes | src/Collections/Generic/AdjacencyStore.cs:22 | zeroing `cursor * itemSize` bytes zeroes exactly the elements below the cursor |
| AdjacencyStore.CountsPartitionCursor | src/Collections/Generic/AdjacencyStore.cs:56-74 | the alive and dead counts add up to the cursor |
| AdjacencyStore.DistinctCard | src/Collections/Generic/Adjes.cs:5-12 | a thread of distinct ordinals has as many members as entries |
| UnmanagedMap.Bytes | src/Collections/Generic/UnmanagedMap.cs:41 | 8 bytes per ordinal and `keySize` per key, both wrapping at 32 bits, then a trash bin for the capacity |
| UnmanagedMap.Offsets | src/Collections/Generic/UnmanagedMap.cs:33-39 | the keys follow the ordinals, and the trash follows the keys |
| UnmanagedMap.OffsetsLayout | src/Collections/Generic/UnmanagedMap.cs:33-39 | without wrap-around, the regions have the sizes `Bytes` gives and do not overlap |
| UnmanagedMap.Create | src/Collections/Generic/UnmanagedMap.cs:13-39 | capacity 0 is `ArgumentOutOfRange` and a value array longer than `int.MaxValue` is `Overflow`; otherwise a live, empty buffer with an empty trash |
| UnmanagedMap.Expand | src/Collections/Generic/UnmanagedMap.cs:43-57 | a doubling whose capacity and region sizes stay within `uint` (so UnmanagedMap.OffsetsLayout places the regions one after another) keeps the ordinals and keys at their slots, resets the trash and leaves the values alone; a doubling whose capacity or layout wraps is reported as `Overflow` |
| UnmanagedMap.ExpandKeepsEntries | src/Collections/Generic/UnmanagedMap.cs:43-57 | growth succeeds exactly when the doubled layout fits in `uint`, and then every old entry is found at the same slot |
| UnmanagedMap.ExpandLayoutAsWrittenWraps | src/Collections/Generic/UnmanagedMap.cs:41-52 | doubling 2^28 slots computes the new key offset `(2^29) << 3` in `uint` as 0, so the key region starts on top of the ordinals |
| UnmanagedMap.Clear | src/Collections/Generic/UnmanagedMap.cs:59-64 | clearing resets the cursor and the trash; with `defaultify` it resets exactly the used values |
| UnmanagedMap.Dispose | src/Collections/Generic/UnmanagedMap.cs:66-69 | disposal frees a live buffer once and marks it dead |
| UnmanagedMap.DisposeOnce | src/Collections/Generic/UnmanagedMap.cs:66-69 | a second dispose frees nothing |
| TinyList.Items | src/Collections/Generic/TinyList.cs:26-30 | the items are `count` long |
| TinyList.Empty | src/Collections/Generic/TinyList.cs:119 | a new list is valid and has no items |
| TinyList.Spill | src/Collections/Generic/TinyList.cs:89-90 | moving to the array keeps the items |
| TinyList.InflateAsWritten | src/Collections/Generic/TinyList.cs:84-93 | as written, `Inflate` returns slot `count` and writes inline while the index is below 8, even when the array is in use |
| TinyList.Inflate | src/Collections/Generic/TinyList.cs:84-93 | the corrected `Inflate` keeps the items, and its slot is the array once the array exists |
| TinyList.AddAsWritten | src/Collections/Generic/TinyList.cs:66 | as written, `Add` grows the count by one |
| TinyList.Add | src/Collections/Generic/TinyList.cs:66 | the corrected `Add` appends the item |
| TinyList.AddAsWrittenAfterClear | src/Collections/Generic/TinyList.cs:87 | after `Clear` of a spilled list, `Add(7)` as written shows the stale [1]; corrected, it shows [7] |
| TinyList.AddSpanAsWritten | src/Collections/Generic/TinyList.cs:68-79 | as written, `Add(span)` grows the count by the span length |
| TinyList.AppendToBuffer | src/Collections/Generic/TinyList.cs:72-75 | appending through the array keeps the old items and adds the span |
| TinyList.AddSpan | src/Collections/Generic/TinyList.cs:68-79 | the corrected `Add(span)` appends the span |
| TinyList.AddSpanAsWrittenOverwrites | src/Collections/Generic/TinyList.cs:70 | [1] plus [2] gives [2,0] as written, and [1,2] corrected |
| TinyList.PopAsWritten | src/Collections/Generic/TinyList.cs:108-114 | as written, `Pop` on the inline part decrements the count and throws |
| TinyList.Pop | src/Collections/Generic/TinyList.cs:108-114 | the corrected `Pop` returns the last item and removes it; an empty list throws |
| TinyList.PopAfterAdd | src/Collections/Generic/TinyList.cs:66 | `Pop` undoes `Add` |
| TinyList.PopAsWrittenThrowsInline | src/Collections/Generic/TinyList.cs:111 | popping the inline list [5] throws as written, and returns 5 corrected |
| TinyList.Deflate | src/Collections/Generic/TinyList.cs:99-102 | `Deflate` drops the last item, and throws on an empty list |
| TinyList.Clear | src/Collections/Generic/TinyList.cs:119 | `Clear` empties the list and keeps the storage |
| TinyList.IsEmpty | src/Collections/Generic/TinyList.cs:24 | empty means no items |
| TinyList.At | src/Collections/Generic/TinyList.cs:126-134 | a non-negative index reads from the front and a negative one from the back; anything else throws |
| TinyList.First | src/Collections/Generic/TinyList.cs:38-45 | the first item, or `IndexOutOfRange` |
| TinyList.Last | src/Collections/Generic/TinyList.cs:51-59 | the last item, or `IndexOutOfRange` |
| TinyList.Enumerate | src/Collections/Generic/TinyList.cs:136-139 | the enumeration yields exactly the items in order |
| OptionalList.Items | src/Collections/Generic/OptionalList.cs:22-26 | the items are `count` long |
| OptionalList.New | src/Collections/Generic/OptionalList.cs:16-20 | a negative capacity throws; otherwise an empty list with an array of that size |
| OptionalList.Inflate | src/Collections/Generic/OptionalList.cs:80-87 | `Inflate` allocates or grows the array, keeps the items and returns slot `count` |
| OptionalList.Add | src/Collections/Generic/OptionalList.cs:62 | `Add` appends the item |
| OptionalList.AppendToBuffer | src/Collections/Generic/OptionalList.cs:72-74 | appending into an existing array adds the span |
| OptionalList.AddSpanAsWritten | src/Collections/Generic/OptionalList.cs:64-75 | as written, `Add(span)` appends the span when the array already exists; on the first allocation it copies the span into a new array of `length + 8` slots but leaves the count at 0, so no item becomes visible |
| OptionalList.AddSpan | src/Collections/Generic/OptionalList.cs:64-75 | the corrected `Add(span)` appends the span |
| OptionalList.AddSpanAsWrittenLosesItems | src/Collections/Generic/OptionalList.cs:67-71 | an empty list without an array plus [4,2] stays empty as written, and gives [4,2] corrected |
| OptionalList.Deflate | src/Collections/Generic/OptionalList.cs:93-96 | `Deflate` drops the last item, and throws on an empty list |
| OptionalList.Pop | src/Collections/Generic/OptionalList.cs:102-108 | `Pop` returns and removes the last item; an empty list throws |
| OptionalList.PopAfterAdd | src/Collections/Generic/OptionalList.cs:62 | `Pop` undoes `Add` |
| OptionalList.Clear | src/Collections/Generic/OptionalList.cs:113 | `Clear` empties the list and keeps the array |
| OptionalList.IsEmpty | src/Collections/Generic/OptionalList.cs:14 | empty means no items |
| OptionalList.At | src/Collections/Generic/OptionalList.cs:120-129 | indexing from the front or the back succeeds exactly when the array exists and the index is in range |
| OptionalList.First | src/Collections/Generic/OptionalList.cs:34-41 | the first item, or `IndexOutOfRange` |
| OptionalList.Last | src/Collections/Generic/OptionalList.cs:47-55 | the last item, or `IndexOutOfRange` |
| Cancer.New | src/Text/Cancer.cs:8-12 | a new builder over a span is empty |
| Cancer.Length | src/Text/Cancer.cs:14 | the length is the length of the content |
| Cancer.IsEmpty | src/Text/Cancer.cs:16 | empty means no content |
| Cancer.EnsureAsWritten | src/Text/Cancer.cs:18-31 | as written, `Ensure` reserves `length` free characters in front of the cursor |
| Cancer.Ensure | src/Text/Cancer.cs:18-31 | the corrected `Ensure` reserves room and keeps the content |
| Cancer.Prepend | src/Text/Cancer.cs:39-43 | a corrected insert puts the text in front of the content |
| Cancer.PrependAsWritten | src/Text/Cancer.cs:39-43 | as written, an insert starts the content with the text and lengthens it by the text's length |
| Cancer.EnsureAsWrittenAgrees | src/Text/Cancer.cs:20-27 | with no room before the cursor, or with enough room, `Ensure` as written is the corrected one |
| Cancer.PrependAsWrittenAgrees | src/Text/Cancer.cs:39-43 | with no room before the cursor, or with enough room, an insert as written is the corrected one |
| Cancer.EnsureAsWrittenLosesContent | src/Text/Cancer.cs:24 | inserting "ab" before "x" in a full two-character span gives "ab\0" as written, and "abx" corrected |
| Cancer.InsertChar | src/Text/Cancer.cs:33-37 | inserting a character prepends it |
| Cancer.InsertText | src/Text/Cancer.cs:39-43 | with the corrected `Ensure`, inserting text prepends it |
| Cancer.InsertHead | src/Text/Cancer.cs:45-51 | with the corrected `Ensure`, inserting a head and text prepends both |
| Cancer.InsertTail | src/Text/Cancer.cs:53-59 | with the corrected `Ensure`, inserting text and a tail prepends both |
| Cancer.InsertTextAsWritten | src/Text/Cancer.cs:39-43 | as written, the content starts with the text and grows by its length; it is the corrected insert when there is no room or enough room |
| Cancer.InsertHeadAsWritten | src/Text/Cancer.cs:45-51 | as written, the content starts with the head and the text; it is the corrected insert when there is no room or enough room |
| Cancer.InsertTailAsWritten | src/Text/Cancer.cs:53-59 | as written, the content starts with the text and the tail; it is the corrected insert when there is no room or enough room |
| Cancer.DigitsValue | src/Text/Cancer.cs:72-76 | the decimal digits of `n` read back as `n` |
| Cancer.MinValueText | src/Text/Cancer.cs:68 | the text for `int.MinValue` is "-2147483648" |
| Cancer.InsertInt | src/Text/Cancer.cs:61-79 | with the corrected `Ensure`, inserting an `int` prepends its decimal text, with a minus sign for negative values |
| Cancer.InsertIntAsWritten | src/Text/Cancer.cs:61-79 | as written, the content starts with the decimal text; every value but `int.MinValue` is inserted one character at a time and comes out right, and `int.MinValue` does too when there is no room or at least 11 characters of room |
| Cancer.InsertDigits | src/Text/Cancer.cs:72-76 | the digit loop prepends the digits of the magnitude |
| Cancer.ToString | src/Text/Cancer.cs:99 | the string is the characters from the cursor on |
| Cancer.DumpTo | src/Text/Cancer.cs:84-90 | copies the content to the front of the target and returns its length; a too-short target throws |
| Cancer.Wrap32 | src/Text/Cancer.cs:95 | 32-bit signed wrap-around |
| Cancer.DeflateAsWritten | src/Text/Cancer.cs:92-97 | as written, `Deflate` drops characters but wraps when `cursor + count` overflows |
| Cancer.Deflate | src/Text/Cancer.cs:92-97 | the corrected `Deflate` drops `count` characters, at most all of them |
| Cancer.DeflateAsWrittenWraps | src/Text/Cancer.cs:95 | `Deflate(int.MaxValue)` with cursor 1 leaves a negative cursor as written, and an empty builder corrected |

## Left out

- `Latch`, `DirectoryObserver`, the `UuidMap` stub, `Unsafe`/`PointerExtensions`, the `Iterator`/`Iteration` plumbing, `Scope` and the attribute classes are not part of this model.
- UTF-16 to UTF-8 encoding is taken as given: a name arrives as its unit count and its UTF-8 bytes, and a decoded key is reported as its bytes.
- `Uuid.NewUuid`/`Guid` randomness and `GetHashCode` are not modelled.
- `Sse2.IsSupported` becomes a boolean parameter `vectorSupported`.
- Off-heap allocation, freeing and finalizers are not modelled, apart from the single-free flag of `UnmanagedMap.Dispose`.
- `Interlocked.Exchange` is treated as a plain swap, because there is no concurrency in the model.
- Memory-unsafety artefacts are not modelled: reads of a stack buffer past its end, and reads through a pointer into a block that growth has freed.
- The query key of `TryGetIndex`, `Contains`, `Get` and `RemoveWithKey` is read as `RoundUp8(length + 1) / 8` words from a `2n+1`-byte stack buffer (src/Collections/PascalOrdinalMap.cs:32-40 and 91-99), so a one-unit name reads 8 bytes from 3. The model takes the bytes past the buffer as zero, and PascalOrdinalMap.EncodeKey's zero tail and PascalString.PrefixDecides rely on that.
- The intrusive links are taken not to overlap: `At` (src/Collections/Generic/AdjacencyExtensions.cs:15) steps `ordinal` records of `sizeof(T)` bytes, so each ordinal's `Next`/`Previous` are independent only when `sizeof(T) >= 8`. For a smaller `T`, one ordinal's `Previous` is the next ordinal's `Next`, and Adjacency.DoublyLinkAppends, Adjacency.DoublyUnlinkRemoves, AdjacencyStore.NewPreserves and AdjacencyStore.InvalidatePreserves do not hold for the source.
- Allocation failure is not modelled: an array the runtime refuses with `OutOfMemoryException`, such as one longer than `Array.MaxLength` (0x7FFFFFC7) but not past `int.MaxValue`, is modelled as allocated.
- `TinyList` and `OptionalList` keep an unbounded `count`, so the source's `int` count overflow is not modelled.
- PascalOrdinalMap.Get: states only error propagation and validity; the full contract is PascalOrdinalMap.GetSpec. It uses the corrected encoding, so a name whose UTF-8 form takes more than `2n` bytes (the `span[1..]` after the length byte) is encoded here while the source throws `ArgumentException` (PascalOrdinalMap.EncodeKeyAsWritten).
- PascalOrdinalMap.GetSpec: when the key is absent and `Add` grows the block, the source reads `ordinals[ordinal]` through the handle it took before the growth, so from the freed block (src/Collections/PascalOrdinalMap.cs:101-103 and 164); even intact, that memory holds the old ordinal at that position, not the new slot. The model returns the new slot.
- PascalOrdinalMap.TryGetIndex: uses the corrected encoding; for a name whose UTF-8 form takes more than `2n` bytes (the `span[1..]` after the length byte) the source throws `ArgumentException` instead of answering.
- PascalOrdinalMap.Contains: uses the corrected encoding; for a name whose UTF-8 form takes more than `2n` bytes (the `span[1..]` after the length byte) the source throws `ArgumentException` instead of answering.
- PascalOrdinalMap.RemoveWithKey: uses the corrected encoding; for a name whose UTF-8 form takes more than `2n` bytes (the `span[1..]` after the length byte) the source throws `ArgumentException` instead of answering.
- PascalOrdinalMap.RemoveWithIndex: uses the corrected scan over the `count` live positions; the source scans `_keyCount` positions and can report a stale hit as removed, which PascalOrdinalMap.RemoveWithIndexAsWritten states.
- PascalOrdinalMap.Add: its growth doubles exactly; the source computes the new block size, `(capacity * 65) << 2` plus the free-map, and the key copy length `index * 64` in `uint`, which wrap from about 8.3 million slots on (PascalOrdinalMap.GrowthAllocationAsWrittenWraps).
- PascalOrdinalMap.AddGrown: states the growth the source intends; it matches the source only while the `uint` sizes of PascalOrdinalMap.Add do not wrap.
- UnmanagedMap.Expand: the source does not check the doubling; `_capacity <<= 1` wraps to `2c - 2^32` and the old `c` entries are copied into a block sized for that smaller capacity, past its end. From `c = 2^28` on, the doubled region sizes wrap as well: the new key offset `(2c) << 3` and the offsets after it are taken mod 2^32, so the key copy lands on the ordinal region (UnmanagedMap.ExpandLayoutAsWrittenWraps). The model reports both cases as `Overflow` instead of modelling the overrun and the overlap.
- Uuid.UnsafeBinarySearchAsWritten: fixes `T = ulong`, the element type of the arrays the corrected search takes; the same method with `T = Uuid` is Uuid.UnsafeBinarySearchOfUuids.
- PascalString.Word: states only the 64-bit bound; what the words hold is stated by PascalString.WordsDetermineBytes and LittleEndian.ValueBytes.
- PascalString.CompareWords: states only the range of the result; its meaning is stated by PascalString.CompareWordsEqual and PascalString.CompareToFirstWord.
- Cancer.Digits: states only that the text is non-empty with no leading zero; its value is stated by Cancer.DigitsValue.
- Adjacency.DoublyUnlink: states only the error case and the count; the effect on the list is stated by Adjacency.DoublyUnlinkRemoves, UnlinkHead, UnlinkTail and UnlinkMiddle.
- AdjacencyStore.New: states the slot choice and the corrected growth, which keeps every old element; the source copies only `ordinal` bytes into the doubled block (AdjacencyStore.NewAsWritten). The invariant it keeps is stated by AdjacencyStore.NewPreserves.
- Cancer.InsertText: uses the corrected `Ensure`, so the content is kept when `0 < cursor < |value|`; the source loses it there, as Cancer.InsertTextAsWritten states.
- Cancer.InsertHead: uses the corrected `Ensure`; the source loses the content when `0 < cursor < |value| + 1` (Cancer.InsertHeadAsWritten).
- Cancer.InsertTail: uses the corrected `Ensure`; the source loses the content when `0 < cursor < |value| + 1` (Cancer.InsertTailAsWritten).
- Cancer.InsertInt: inserts `int.MinValue` through the corrected `Ensure`; the source loses the content when `0 < cursor < 11` (Cancer.InsertIntAsWritten).
- Cancer.DeflateAsWritten: states validity only while `cursor + count` does not overflow, because the source does not promise more.
- TinyList.AddAsWritten: states only the new count, because the items after the call depend on stale slots.
- TinyList.AddSpanAsWritten: states only the new count, because the copy lands at index 0 of the inline part.
- Adjacency.Append: on an empty array with cursor 0 it hands out ordinal 0 without growing, so that ordinal lies past the end (`Adjacency.AppendEmpty`); the model keeps that behaviour.

## Findings

| source | as written | input that shows it | evidently intended | confidence | as-written member | corrected member |
|---|---|---|---|---|---|---|
| src/PascalString.cs:56-59 | the bytes are encoded at offset 1 but copied from offset 0, so the content starts with a zero byte and loses its last byte | "A" (bytes [65]) gives content [0] | copy from offset 1, where the bytes were encoded | not executed | PascalString.FromStringAsWrittenLosesFirstByte | PascalString.FromStringRoundTrip |
| src/Collections/PascalOrdinalMap.cs:69-73 | `AcquireOrdinal` scans `keyCount` positions instead of `count`, so a stale position past `count` can match a freed slot | `StaleExample`: slot 0 freed and left at position 2 | scan only the live positions `0..count` | not executed | PascalOrdinalMap.AcquireOrdinalAsWrittenFindsStale | PascalOrdinalMap.AcquireOrdinal |
| src/Collections/PascalOrdinalMap.cs:32-33 | the stack buffer holds `2n+1` bytes and the encoder gets the `2n` after the length byte, too few for a three-byte UTF-8 character | the name "€" (one unit, three bytes) throws | size the buffer for the UTF-8 length, up to 3 bytes per unit | not executed | PascalOrdinalMap.EncodeKeyAsWrittenRejectsEuro | PascalOrdinalMap.EncodeKey |
| src/Collections/PascalOrdinalMap.cs:18-20 | the block size `(capacity * 65) << 2` is computed in 32 bits and wraps for large accepted capacities | capacity 0x3FFFFFFF gives 134217472 bytes | reject capacities whose block does not fit, or compute the size in 64 bits | not executed | PascalOrdinalMap.AllocationAsWrittenWraps | PascalOrdinalMap.AllocationAsWrittenNoWrap |
| src/Collections/PascalOrdinalMap.cs:271 | `Cursor++` runs before `Select`, so the struct iterator reads positions 1..count | any non-empty map: position 0 is skipped and position `count` is read | read positions 0..count-1 | not executed | PascalOrdinalMap.IteratorAsWrittenSkipsFirst | PascalOrdinalMap.YieldedPositions |
| src/Collections/PascalOrdinalMap.cs:151-152 | the grown block's size is computed in 32 bits and wraps | growing a full block of 2^24 slots asks for 138412036 bytes | compute the size in 64 bits, or refuse to grow | not executed | PascalOrdinalMap.GrowthAllocationAsWrittenWraps | PascalOrdinalMap.AddGrown |
| src/Uuid.cs:146-149 | with `T = ulong` the pointer search steps by one `ulong`, not by one 16-byte element | [5,1,7,2] searching (7,2) returns -2 | index whole identifiers, giving 1 | not executed | Uuid.UnsafeBinarySearchAsWrittenMisses | Uuid.BinarySearch |
| src/Uuid.cs:146 | with `T = Uuid` the search covers only the first `Length >> 1` elements | the sorted identifiers (5,1), (7,2) searching (7,2) returns -2 | search all `Length` elements, giving 1 | not executed | Uuid.UnsafeBinarySearchOfUuidsMisses | Uuid.BinarySearch |
| src/Collections/Generic/AdjacencyStore.cs:62 | growth copies `length` bytes instead of `length * itemSize` | one two-byte element [7,9] becomes [7,0] | copy every byte of the old pool | not executed | AdjacencyStore.NewAsWrittenLosesBytes | AdjacencyStore.New |
| src/Collections/Generic/TinyList.cs:70 | `Add(span)` copies the span to inline index 0, not to index `count` | [1] plus [2] gives [2,0] | copy to index `count` | not executed | TinyList.AddSpanAsWrittenOverwrites | TinyList.AddSpan |
| src/Collections/Generic/TinyList.cs:87 | `Inflate` writes inline while the index is below 8, even after the items moved to the array | `Clear` of a spilled list, then `Add(7)`, shows [1] | use the array once it exists | not executed | TinyList.AddAsWrittenAfterClear | TinyList.Add |
| src/Collections/Generic/TinyList.cs:111 | the inline `Pop` indexes a span of the decremented length, which throws | popping [5] inline throws | read index `count - 1` of the inline part | not executed | TinyList.PopAsWrittenThrowsInline | TinyList.Pop |
| src/Collections/Generic/OptionalList.cs:67-71 | the first allocation of `Add(span)` copies the span into a new array but leaves the count at 0, so the added items are not visible | an empty list plus [4,2] stays empty | copy the span and add its length | not executed | OptionalList.AddSpanAsWrittenLosesItems | OptionalList.AddSpan |
| src/Text/Cancer.cs:24 | on growth the old content is copied to offset `-start` instead of `cursor - start` | "x" in a full span of 2, then inserting "ab", gives "ab\0" | copy the content behind the newly reserved room | not executed | Cancer.EnsureAsWrittenLosesContent | Cancer.Prepend |
| src/Text/Cancer.cs:95 | `cursor + count` overflows `int` | cursor 1 and `Deflate(int.MaxValue)` gives cursor `int.MinValue` | clamp without overflow | not executed | Cancer.DeflateAsWrittenWraps | Cancer.Deflate |
| src/Collections/Generic/UnmanagedMap.cs:46-54 | the doubled region sizes are computed in `uint` and wrap, so the regions overlap | expanding a buffer of 2^28 slots puts the new key region at offset 0, where the ordinals are copied | compute the layout in 64 bits, or refuse to grow | not executed | UnmanagedMap.ExpandLayoutAsWrittenWraps | UnmanagedMap.Expand |

=== FILE: adjacency.dfy ===
/** The intrusive list operations of src/Collections/Generic/AdjacencyExtensions.cs.
    A list header `Tabulae` holds `Count`, `First` and `Last`; the links of every
    record live in a side table indexed by ordinal, modelled as a map whose
    missing entries read as zero (fresh memory). A header and a table thread a
    sequence of ordinals when walking `Next` from `First` for `Count` steps
    visits that sequence. The links of one ordinal are taken not to overlap
    another ordinal's: `At` steps by `sizeof(T)` bytes, so this holds when
    `sizeof(T) >= 8` and the first 8 bytes of each record hold `Next` and
    `Previous`. */
module Adjacency {
  import opened Outcomes

  const WordRange: nat := 0x1_0000_0000

  type Ordinal = u32

  /** `Tabulae<T>`: the header of one list. */
  datatype Tabulae = Tabulae(count: u32, first: Ordinal, last: Ordinal)

  /** `Adjes<T>`: the two links stored for one record. */
  datatype Adjes = Adjes(next: Ordinal, previous: Ordinal)

  /** `default(Tabulae<T>)`. */
  const EmptyList: Tabulae := Tabulae(0, 0, 0)

  type Links = map<nat, Adjes>
  type NextLinks = map<nat, Ordinal>

  /** `adjes.At(ordinal)`. */
  function LinksAt(adjes: Links, o: nat): Adjes {
    if o in adjes then adjes[o] else Adjes(0, 0)
  }

  /** `Unsafe.Add(ref next, ordinal)` read. */
  function NextAt(next: NextLinks, o: nat): Ordinal {
    if o in next then next[o] else 0
  }

  /** `Interlocked.Increment` on a `uint`: wraps at 2^32. */
  function Increment(x: u32): (r: u32)
    ensures x < MaxU32 ==> r == x + 1
    ensures x == MaxU32 ==> r == 0
  {
    (x + 1) % WordRange
  }

  predicate Distinct(s: seq<Ordinal>) {
    forall i, j :: 0 <= i < j < |s| ==> s[i] != s[j]
  }

  /** The header and the table represent the list `s`. */
  predicate Threads(t: Tabulae, adjes: Links, s: seq<Ordinal>) {
    && t.count == |s|
    && (|s| > 0 ==> t.first == s[0] && t.last == s[|s| - 1])
    && Distinct(s)
    && (forall i :: 0 <= i < |s| - 1 ==> LinksAt(adjes, s[i]).next == s[i + 1])
    && (forall i :: 0 <= i < |s| - 1 ==> LinksAt(adjes, s[i + 1]).previous == s[i])
  }

  /** A singly linked header and `next` table represent the list `s`. */
  predicate SinglyThreads(t: Tabulae, next: NextLinks, s: seq<Ordinal>) {
    && t.count == |s|
    && (|s| > 0 ==> t.first == s[0] && t.last == s[|s| - 1])
    && Distinct(s)
    && (forall i :: 0 <= i < |s| - 1 ==> NextAt(next, s[i]) == s[i + 1])
  }

  /** A list only reads the links of its own members. */
  lemma ThreadsFrame(t: Tabulae, adjes: Links, adjes': Links, s: seq<Ordinal>)
    requires Threads(t, adjes, s)
    requires forall x :: x in s ==> LinksAt(adjes', x) == LinksAt(adjes, x)
    ensures Threads(t, adjes', s)
  {
    forall i | 0 <= i < |s| - 1
      ensures LinksAt(adjes', s[i]).next == s[i + 1] && LinksAt(adjes', s[i + 1]).previous == s[i]
    {
      assert s[i] in s && s[i + 1] in s;
    }
  }

  // ---- Append ----

  /** `Array.Resize`: keeps the first `n` elements, pads with `zero`. */
  function Resize<T>(items: seq<T>, n: nat, zero: T): (r: seq<T>)
    ensures |r| == n
    ensures forall k :: 0 <= k < n && k < |items| ==> r[k] == items[k]
    ensures forall k :: |items| <= k < n ==> r[k] == zero
  {
    if n <= |items| then items[..n] else items + seq(n - |items|, _ => zero)
  }

  /** `Append`: returns the old cursor as the new ordinal and advances the
      cursor; an ordinal past the end resizes the array to
      `unchecked((int)(ordinal << 1))` elements, which throws when that is
      negative. The cursor is advanced before the resize, so the error comes
      with the advanced cursor and the array unchanged. */
  function Append<T>(items: seq<T>, cursor: u32, zero: T): (r: (seq<T>, u32, Result<Ordinal>))
    ensures r.1 == Increment(cursor)
    ensures r.2.Ok? ==> r.2.value == cursor
    ensures cursor < |items| ==> r == (items, Increment(cursor), Ok(cursor))
    ensures |items| <= cursor < 0x4000_0000 ==>
              && r.2.Ok?
              && |r.0| == 2 * cursor
              && r.0[..|items|] == items
              && (forall k :: |items| <= k < 2 * cursor ==> r.0[k] == zero)
    ensures |items| <= cursor && 0x4000_0000 <= cursor < 0x8000_0000 ==>
              r == (items, Increment(cursor), Err(ArgumentOutOfRange))
    ensures r.2.Ok? && cursor > 0 && cursor < 0x4000_0000 ==> cursor < |r.0|
  {
    var ordinal := cursor;
    if ordinal < |items| then (items, Increment(cursor), Ok(ordinal))
    else
      var size := (2 * ordinal) % WordRange;
      if size >= 0x8000_0000 then (items, Increment(cursor), Err(ArgumentOutOfRange))
      else
        var grown := Resize(items, size, zero);
        assert cursor < 0x4000_0000 ==> grown[..|items|] == items;
        (grown, Increment(cursor), Ok(ordinal))
  }

  /** With an empty items and cursor 0 the handed-out ordinal is past the end of the array:
      the resize to `0 << 1` elements leaves the array empty. */
  lemma AppendEmpty<T>(zero: T)
    ensures Append([], 0, zero) == ([], 1, Ok(0))
  {
  }

  // ---- singly linked ----

  /** `SinglyLink`: the first link sets `First = Last`; later ones set
      `next[Last]` and move `Last`. */
  function SinglyLink(t: Tabulae, next: NextLinks, o: Ordinal): (r: (Tabulae, NextLinks))
    ensures r.0.count == Increment(t.count) && r.0.last == o
    ensures r.0.count == 1 ==> r.0.first == o && r.1 == next
    ensures r.0.count != 1 ==> r.0.first == t.first && r.1 == next[t.last := o]
  {
    var count := Increment(t.count);
    if count == 1 then (Tabulae(count, o, o), next)
    else (Tabulae(count, t.first, o), next[t.last := o])
  }

  /** Linking appends to the represented list. */
  lemma SinglyLinkAppends(t: Tabulae, next: NextLinks, s: seq<Ordinal>, o: Ordinal)
    requires SinglyThreads(t, next, s) && o !in s && |s| < MaxU32
    ensures SinglyThreads(SinglyLink(t, next, o).0, SinglyLink(t, next, o).1, s + [o])
  {
    var (t', next') := SinglyLink(t, next, o);
    var s' := s + [o];
    forall i | 0 <= i < |s'| - 1
      ensures NextAt(next', s'[i]) == s'[i + 1]
    {
      if i < |s| - 1 {
        assert s[i] != s[|s| - 1];
      }
    }
  }

  // ---- doubly linked ----

  /** `DoublyLink`: appends `o` at the tail. */
  function DoublyLink(t: Tabulae, adjes: Links, o: Ordinal): (r: (Tabulae, Links))
    ensures r.0.count == Increment(t.count) && r.0.last == o
    ensures r.0.count == 1 ==> r.0.first == o && r.1 == adjes
    ensures r.0.count != 1 ==>
              && r.0.first == t.first
              && LinksAt(r.1, o).previous == t.last
              && LinksAt(r.1, t.last).next == o
    ensures forall x :: x != o && x != t.last ==> LinksAt(r.1, x) == LinksAt(adjes, x)
  {
    var count := Increment(t.count);
    if count == 1 then (Tabulae(count, o, o), adjes)
    else
      var adjes1 := adjes[o := LinksAt(adjes, o).(previous := t.last)];
      var adjes2 := adjes1[t.last := LinksAt(adjes1, t.last).(next := o)];
      (Tabulae(count, t.first, o), adjes2)
  }

  /** Linking appends to the represented list and touches only the new
      record and the old tail. */
  lemma DoublyLinkAppends(t: Tabulae, adjes: Links, s: seq<Ordinal>, o: Ordinal)
    requires Threads(t, adjes, s) && o !in s && |s| < MaxU32
    ensures Threads(DoublyLink(t, adjes, o).0, DoublyLink(t, adjes, o).1, s + [o])
    ensures forall x :: x != o && (x !in s || (|s| > 0 && x != s[|s| - 1])) ==>
              LinksAt(DoublyLink(t, adjes, o).1, x) == LinksAt(adjes, x)
  {
    var (t', adjes') := DoublyLink(t, adjes, o);
    var s' := s + [o];
    if |s| > 0 {
      var last := s[|s| - 1];
      assert LinksAt(adjes', last).previous == LinksAt(adjes, last).previous;
      forall i | 0 <= i < |s'| - 1
        ensures LinksAt(adjes', s'[i]).next == s'[i + 1]
        ensures LinksAt(adjes', s'[i + 1]).previous == s'[i]
      {
        if i < |s| - 1 {
          assert s[i] != last && s[i] != o && s[i + 1] != o;
        }
      }
    }
  }

  /** The position of a member. */
  function IndexOf(s: seq<Ordinal>, o: Ordinal): (i: nat)
    requires o in s
    ensures i < |s| && s[i] == o
  {
    if s[0] == o then 0 else 1 + IndexOf(s[1..], o)
  }

  /** `s` without its member `o`. */
  function Without(s: seq<Ordinal>, o: Ordinal): (r: seq<Ordinal>)
    requires o in s
    ensures |r| == |s| - 1
  {
    var i := IndexOf(s, o);
    s[..i] + s[i + 1..]
  }

  lemma WithoutMembers(s: seq<Ordinal>, o: Ordinal)
    requires o in s && Distinct(s)
    ensures Distinct(Without(s, o))
    ensures forall x :: x in Without(s, o) <==> x in s && x != o
  {
    var i := IndexOf(s, o);
    var r := Without(s, o);
    forall x
      ensures x in r <==> x in s && x != o
    {
      if x in s && x != o {
        var k :| 0 <= k < |s| && s[k] == x;
        assert k != i;
        if k < i { assert r[k] == x; } else { assert r[k - 1] == x; }
      }
    }
  }

  /** `DoublyUnlink`: an empty list resets `Count` to 0 and fails; a list of
      one becomes empty; otherwise the head advances, the tail retreats or the
      neighbours of a middle record are spliced together. */
  function DoublyUnlink(t: Tabulae, adjes: Links, o: Ordinal): (r: Result<(Tabulae, Links)>)
    ensures t.count == 0 <==> r == Err(IndexOutOfRange)
    ensures r.Ok? ==> r.value.0.count == t.count - 1
  {
    if t.count == 0 then Err(IndexOutOfRange)
    else
      var count := t.count - 1;
      if count == 0 then Ok((t.(count := 0), adjes))
      else if o == t.first then Ok((t.(count := count, first := LinksAt(adjes, o).next), adjes))
      else if o == t.last then Ok((t.(count := count, last := LinksAt(adjes, o).previous), adjes))
      else
        var p := LinksAt(adjes, o).previous;
        var adjes1 := adjes[p := LinksAt(adjes, p).(next := LinksAt(adjes, o).next)];
        var n := LinksAt(adjes1, o).next;
        var adjes2 := adjes1[n := LinksAt(adjes1, n).(previous := LinksAt(adjes1, o).previous)];
        Ok((t.(count := count), adjes2))
  }

  /** Unlinking a member removes it from the represented list and touches
      only the links of members. */
  lemma DoublyUnlinkRemoves(t: Tabulae, adjes: Links, s: seq<Ordinal>, o: Ordinal)
    requires Threads(t, adjes, s) && o in s
    ensures DoublyUnlink(t, adjes, o).Ok?
    ensures Threads(DoublyUnlink(t, adjes, o).value.0, DoublyUnlink(t, adjes, o).value.1, Without(s, o))
    ensures forall x :: x !in s ==> LinksAt(DoublyUnlink(t, adjes, o).value.1, x) == LinksAt(adjes, x)
  {
    var i := IndexOf(s, o);
    if |s| == 1 {
      assert Without(s, o) == [];
    } else if o == t.first {
      assert i == 0;
      UnlinkHead(t, adjes, s);
    } else if o == t.last {
      assert i == |s| - 1;
      UnlinkTail(t, adjes, s);
    } else {
      UnlinkMiddle(t, adjes, s, i);
    }
  }

  lemma UnlinkHead(t: Tabulae, adjes: Links, s: seq<Ordinal>)
    requires Threads(t, adjes, s) && |s| > 1
    ensures DoublyUnlink(t, adjes, s[0]) == Ok((t.(count := t.count - 1, first := s[1]), adjes))
    ensures Threads(t.(count := t.count - 1, first := s[1]), adjes, s[1..])
  {
  }

  lemma UnlinkTail(t: Tabulae, adjes: Links, s: seq<Ordinal>)
    requires Threads(t, adjes, s) && |s| > 1
    ensures DoublyUnlink(t, adjes, s[|s| - 1]) == Ok((t.(count := t.count - 1, last := s[|s| - 2]), adjes))
    ensures Threads(t.(count := t.count - 1, last := s[|s| - 2]), adjes, s[..|s| - 1])
  {
    assert s[|s| - 1] != s[0];
    assert LinksAt(adjes, s[|s| - 1]).previous == s[|s| - 2];
  }

  lemma UnlinkMiddle(t: Tabulae, adjes: Links, s: seq<Ordinal>, i: nat)
    requires Threads(t, adjes, s) && 0 < i < |s| - 1
    ensures DoublyUnlink(t, adjes, s[i]).Ok?
    ensures Threads(DoublyUnlink(t, adjes, s[i]).value.0, DoublyUnlink(t, adjes, s[i]).value.1, s[..i] + s[i + 1..])
    ensures forall x :: x !in s ==> LinksAt(DoublyUnlink(t, adjes, s[i]).value.1, x) == LinksAt(adjes, x)
  {
    var o := s[i];
    var p := s[i - 1];
    var n := s[i + 1];
    assert o != t.first && o != t.last;
    var adjes1 := adjes[p := LinksAt(adjes, p).(next := LinksAt(adjes, o).next)];
    assert LinksAt(adjes1, o) == LinksAt(adjes, o);
    var adjes2 := adjes1[n := LinksAt(adjes1, n).(previous := LinksAt(adjes1, o).previous)];
    var (t', adjes') := DoublyUnlink(t, adjes, o).value;
    assert adjes' == adjes2;
    assert LinksAt(adjes', p).next == n;
    assert LinksAt(adjes', n).previous == p;
    assert LinksAt(adjes', n).next == LinksAt(adjes, n).next;
    assert LinksAt(adjes', p).previous == LinksAt(adjes, p).previous;
    var r := s[..i] + s[i + 1..];
    forall j | 0 <= j < |r| - 1
      ensures LinksAt(adjes', r[j]).next == r[j + 1]
      ensures LinksAt(adjes', r[j + 1]).previous == r[j]
    {
      if j < i - 1 {
        assert r[j] == s[j] && r[j + 1] == s[j + 1];
        assert s[j] != p && s[j] != n && s[j + 1] != n;
      } else if j == i - 1 {
        assert r[j] == p && r[j + 1] == n;
      } else {
        assert r[j] == s[j + 1] && r[j + 1] == s[j + 2];
        assert s[j + 2] != p && s[j + 2] != n && s[j + 1] != p;
      }
    }
    assert forall a, b :: 0 <= a < b < |r| ==> r[a] != r[b] by {
      forall a, b | 0 <= a < b < |r|
        ensures r[a] != r[b]
      {
        var a' := if a < i then a else a + 1;
        var b' := if b < i then b else b + 1;
        assert r[a] == s[a'] && r[b] == s[b'];
      }
    }
  }

  /** `DoublyPop`: `uint.MaxValue` on an empty list; otherwise the tail. */
  function DoublyPop(t: Tabulae, adjes: Links): (r: (Tabulae, Ordinal))
    ensures t.count == 0 ==> r == (t, MaxU32)
    ensures t.count == 1 ==> r == (t.(count := 0), t.first)
    ensures t.count > 1 ==> r.1 == t.last && r.0 == t.(count := t.count - 1, last := LinksAt(adjes, t.last).previous)
  {
    if t.count == 0 then (t, MaxU32)
    else if t.count == 1 then (t.(count := 0), t.first)
    else (t.(count := t.count - 1, last := LinksAt(adjes, t.last).previous), t.last)
  }

  /** Popping removes and returns the last member of the represented list. */
  lemma DoublyPopRemovesLast(t: Tabulae, adjes: Links, s: seq<Ordinal>)
    requires Threads(t, adjes, s) && |s| > 0
    ensures DoublyPop(t, adjes).1 == s[|s| - 1]
    ensures Threads(DoublyPop(t, adjes).0, adjes, s[..|s| - 1])
  {
    if |s| > 1 {
      assert LinksAt(adjes, s[|s| - 1]).previous == s[|s| - 2];
    }
  }
}

=== FILE: adjacency_store.dfy ===
/** The slot pool of src/Collections/Generic/AdjacencyStore.cs: a growable
    array of fixed-size records with an alive and a dead intrusive list
    threaded through a shared link table. Records are modelled as their bytes
    (`itemSize` bytes each, laid out one after another), which is how the pool
    copies and clears them. */
module AdjacencyStore {
  import opened Outcomes
  import LE = LittleEndian
  import opened Adjacency

  type byte = LE.byte

  datatype Store = Store(itemSize: nat, length: nat, data: seq<byte>, cursor: u32, alive: Tabulae, dead: Tabulae)

  function Zeros(n: nat): (r: seq<byte>)
    ensures |r| == n && forall k :: 0 <= k < n ==> r[k] == 0
  {
    seq(n, _ => 0)
  }

  /** The array: `length` records of `itemSize` bytes; the cursor within it. */
  predicate Layout(st: Store) {
    && st.itemSize >= 1
    && 1 <= st.length <= MaxArrayLength
    && |st.data| == st.length * st.itemSize
    && st.cursor <= st.length
  }

  lemma MulMono(a: nat, b: nat, c: nat)
    requires a <= b
    ensures a * c <= b * c
  {
  }

  /** Record `k` ends where record `j` starts or before. */
  lemma RecordBefore(k: nat, j: nat, size: nat)
    requires k < j
    ensures k * size + size <= j * size
  {
    MulMono(k + 1, j, size);
    assert (k + 1) * size == k * size + size;
  }

  /** The bytes of record `k`. */
  function Element(st: Store, k: nat): (r: seq<byte>)
    requires Layout(st) && k < st.length
    ensures |r| == st.itemSize
  {
    MulMono(k + 1, st.length, st.itemSize);
    st.data[k * st.itemSize .. k * st.itemSize + st.itemSize]
  }

  /** The pool with alive list `live` and dead list `gone`: every ordinal below
      the cursor is on exactly one of them. */
  predicate Valid(st: Store, adjes: Links, live: seq<Ordinal>, gone: seq<Ordinal>) {
    && Layout(st)
    && Threads(st.alive, adjes, live)
    && Threads(st.dead, adjes, gone)
    && (forall x :: x in live ==> x < st.cursor && x !in gone)
    && (forall x :: x in gone ==> x < st.cursor)
    && (forall x: Ordinal :: x < st.cursor ==> x in live || x in gone)
  }

  /** The constructor: capacity 0 is rejected, and `new T[capacity]` refuses a
      length past `int.MaxValue`; otherwise `capacity` zeroed records, an empty
      cursor and two empty lists. */
  function Create(capacity: u32, itemSize: nat): (r: Result<Store>)
    requires itemSize >= 1
    ensures capacity == 0 <==> r == Err(ArgumentOutOfRange)
    ensures capacity > MaxArrayLength <==> r == Err(Overflow)
    ensures r.Ok? ==> r.value.length == capacity && r.value.cursor == 0
    ensures r.Ok? ==> forall adjes :: Valid(r.value, adjes, [], [])
  {
    if capacity == 0 then Err(ArgumentOutOfRange)
    else if capacity > MaxArrayLength then Err(Overflow)
    else Ok(Store(itemSize, capacity, Zeros(capacity * itemSize), 0, EmptyList, EmptyList))
  }

  /** `Count`. */
  function Count(st: Store): (r: u32)
    ensures forall adjes, live, gone :: Valid(st, adjes, live, gone) ==> r == |live|
  {
    st.alive.count
  }

  /** The indexer: only ordinals below the alive count are accepted. */
  function Get(st: Store, ordinal: u32): (r: Result<seq<byte>>)
    requires Layout(st)
    ensures ordinal >= st.alive.count <==> r == Err(ArgumentOutOfRange)
    ensures ordinal < st.alive.count && ordinal < st.length ==> r == Ok(Element(st, ordinal))
  {
    if ordinal < st.alive.count then
      if ordinal < st.length then Ok(Element(st, ordinal)) else Err(IndexOutOfRange)
    else Err(ArgumentOutOfRange)
  }

  /** A write through the reference the indexer returns. */
  function Put(st: Store, ordinal: u32, item: seq<byte>): (r: Result<Store>)
    requires Layout(st) && |item| == st.itemSize
    ensures ordinal >= st.alive.count <==> r == Err(ArgumentOutOfRange)
    ensures r.Ok? ==> Layout(r.value) && r.value.length == st.length && ordinal < st.length
    ensures r.Ok? ==> Element(r.value, ordinal) == item
    ensures r.Ok? ==> forall k :: 0 <= k < st.length && k != ordinal ==> Element(r.value, k) == Element(st, k)
    ensures r.Ok? ==> r.value == st.(data := r.value.data)
  {
    if ordinal < st.alive.count then
      if ordinal < st.length then
        var at := ordinal * st.itemSize;
        MulMono(ordinal + 1, st.length, st.itemSize);
        var data := st.data[..at] + item + st.data[at + st.itemSize..];
        var r := st.(data := data);
        PutOthers(st, r, ordinal, item);
        Ok(r)
      else Err(IndexOutOfRange)
    else Err(ArgumentOutOfRange)
  }

  lemma PutOthers(st: Store, r: Store, ordinal: nat, item: seq<byte>)
    requires Layout(st) && ordinal < st.length && |item| == st.itemSize
    requires (ordinal + 1) * st.itemSize <= |st.data|
    requires r == st.(data := st.data[..ordinal * st.itemSize] + item + st.data[ordinal * st.itemSize + st.itemSize..])
    ensures Layout(r) && Element(r, ordinal) == item
    ensures forall k :: 0 <= k < st.length && k != ordinal ==> Element(r, k) == Element(st, k)
  {
    var size := st.itemSize;
    var at := ordinal * size;
    Spliced(st.data, r.data, at, item, at, at + size);
    forall k | 0 <= k < st.length && k != ordinal
      ensures Element(r, k) == Element(st, k)
    {
      PutOther(st, r, ordinal, item, k);
    }
  }

  /** A record other than the written one keeps its bytes. */
  lemma PutOther(st: Store, r: Store, ordinal: nat, item: seq<byte>, k: nat)
    requires Layout(st) && ordinal < st.length && |item| == st.itemSize
    requires (ordinal + 1) * st.itemSize <= |st.data|
    requires r == st.(data := st.data[..ordinal * st.itemSize] + item + st.data[ordinal * st.itemSize + st.itemSize..])
    requires k < st.length && k != ordinal
    ensures Layout(r) && Element(r, k) == Element(st, k)
  {
    var size := st.itemSize;
    var at := ordinal * size;
    RecordBefore(k, st.length, size);
    if k < ordinal {
      RecordBefore(k, ordinal, size);
    } else {
      RecordBefore(ordinal, k, size);
    }
    Spliced(st.data, r.data, at, item, k * size, k * size + size);
  }

  /** `item` written over `a` at `at`: the run `lo..hi` reads `item` where it
      is the written run, and is unchanged where it lies before or after it. */
  lemma Spliced(a: seq<byte>, b: seq<byte>, at: nat, item: seq<byte>, lo: nat, hi: nat)
    requires at + |item| <= |a| && b == a[..at] + item + a[at + |item|..]
    requires lo <= hi <= |a|
    ensures |b| == |a|
    ensures lo == at && hi == at + |item| ==> b[lo..hi] == item
    ensures hi <= at || at + |item| <= lo ==> b[lo..hi] == a[lo..hi]
  {
    assert b[..at] == a[..at];
    assert b[at..at + |item|] == item;
    assert b[at + |item|..] == a[at + |item|..];
    if hi <= at {
      assert b[lo..hi] == b[..at][lo..hi];
    } else if at + |item| <= lo {
      assert b[lo..hi] == b[at + |item|..][lo - at - |item|..hi - at - |item|];
    }
  }

  /** The growth step of `New` with the copy it evidently intends: the array
      doubles and every record keeps its bytes. */
  function Grow(st: Store): (r: Store)
    requires Layout(st) && 2 * st.length <= MaxArrayLength
    ensures Layout(r) && r.length == 2 * st.length && |r.data| == 2 * |st.data| >= st.length
    ensures r == st.(length := r.length, data := r.data)
    ensures forall k :: 0 <= k < st.length ==> Element(r, k) == Element(st, k)
    ensures forall k :: st.length <= k < r.length ==> Element(r, k) == Zeros(st.itemSize)
  {
    var r := st.(length := 2 * st.length, data := st.data + Zeros(|st.data|));
    DoubledBytes(st.length, st.itemSize);
    GrowKeeps(st, r);
    r
  }

  lemma GrowKeeps(st: Store, r: Store)
    requires Layout(st) && 2 * st.length <= MaxArrayLength
    requires r == st.(length := 2 * st.length, data := st.data + Zeros(|st.data|))
    ensures Layout(r)
    ensures forall k :: 0 <= k < st.length ==> Element(r, k) == Element(st, k)
    ensures forall k :: st.length <= k < r.length ==> Element(r, k) == Zeros(st.itemSize)
  {
    assert |r.data| == r.length * r.itemSize by {
      assert (2 * st.length) * st.itemSize == 2 * (st.length * st.itemSize);
    }
    forall k | 0 <= k < st.length
      ensures Element(r, k) == Element(st, k)
    {
      SameRecord(r, st, k);
    }
    forall k | st.length <= k < r.length
      ensures Element(r, k) == Zeros(st.itemSize)
    {
      MulMono(st.length, k, st.itemSize);
      ZeroRecord(r, k);
    }
  }

  /** Record `k` of two arrays of the same record size that agree on its bytes. */
  lemma SameRecord(a: Store, b: Store, k: nat)
    requires Layout(a) && Layout(b) && a.itemSize == b.itemSize && k < a.length && k < b.length
    requires forall j :: 0 <= j < |a.data| && j < |b.data| ==> (j < k * a.itemSize + a.itemSize ==> a.data[j] == b.data[j]) || j < k * a.itemSize
    ensures Element(a, k) == Element(b, k)
  {
    var lo := k * a.itemSize;
    MulMono(k + 1, a.length, a.itemSize);
    MulMono(k + 1, b.length, a.itemSize);
    SameBytes(a.data, b.data, lo, lo + a.itemSize);
  }

  /** Record `k` whose bytes are all zero. */
  lemma ZeroRecord(a: Store, k: nat)
    requires Layout(a) && k < a.length
    requires forall j :: k * a.itemSize <= j < k * a.itemSize + a.itemSize && j < |a.data| ==> a.data[j] == 0
    ensures Element(a, k) == Zeros(a.itemSize)
  {
    MulMono(k + 1, a.length, a.itemSize);
  }

  /** Two byte runs that agree on `lo..hi` have equal slices there. */
  lemma SameBytes(a: seq<byte>, b: seq<byte>, lo: nat, hi: nat)
    requires lo <= hi <= |a| && hi <= |b|
    requires forall j :: lo <= j < hi ==> a[j] == b[j]
    ensures a[lo..hi] == b[lo..hi]
  {
  }

  /** The growth step of `New` as written: the block copy is given `ordinal`
      as its byte count, so only the first `length` bytes of the old array
      reach the new one. */
  function GrowAsWritten(st: Store): (r: Store)
    requires Layout(st) && 2 * st.length <= MaxArrayLength
    ensures Layout(r) && r.length == 2 * st.length
    ensures r.data[..st.length] == st.data[..st.length]
    ensures forall j :: st.length <= j < |r.data| ==> r.data[j] == 0
  {
    var g := Grow(st);
    var r := g.(data := st.data[..st.length] + Zeros(|g.data| - st.length));
    GrowAsWrittenLayout(st, g, r);
    r
  }

  lemma GrowAsWrittenLayout(st: Store, g: Store, r: Store)
    requires Layout(st) && Layout(g) && g.length == 2 * st.length && st.length <= |g.data|
    requires r == g.(data := st.data[..st.length] + Zeros(|g.data| - st.length))
    ensures Layout(r)
    ensures r.data[..st.length] == st.data[..st.length]
    ensures forall j :: st.length <= j < |r.data| ==> r.data[j] == 0
  {
  }

  /** The byte counts of an array and of its doubling. */
  lemma DoubledBytes(length: nat, itemSize: nat)
    requires itemSize >= 1
    ensures length <= length * itemSize
    ensures (2 * length) * itemSize == 2 * (length * itemSize)
  {
    MulMono(1, itemSize, length);
  }

  /** A pool of one two-byte record `[7, 9]`: growing as written keeps `[7, 0]`. */
  lemma GrowAsWrittenLosesBytes()
    ensures var st := Store(2, 1, [7, 9], 1, Tabulae(1, 0, 0), EmptyList);
            && Valid(st, map[], [0], [])
            && Element(GrowAsWritten(st), 0) == [7, 0]
            && Element(Grow(st), 0) == [7, 9]
  {
    var st := Store(2, 1, [7, 9], 1, Tabulae(1, 0, 0), EmptyList);
    assert GrowAsWritten(st).data == [7, 0, 0, 0];
    assert Grow(st).data == [7, 9, 0, 0];
  }

  /** `New`: a dead ordinal is reused from the dead list's tail; otherwise the
      cursor is handed out, doubling the array when it is full. The ordinal is
      then linked onto the alive list. When the source throws, what it changed
      first comes back with the error: a reused ordinal past the array is
      already linked onto the alive list when `_array[ordinal]` throws, and the
      cursor has already advanced when `new T[ordinal << 1]` throws. */
  function New(st: Store, adjes: Links): (r: (Store, Links, Result<Ordinal>))
    requires Layout(st)
    ensures r.2.Ok? ==> Layout(r.0) && r.2.value < r.0.length
    ensures r.2.Ok? || r.2 == Err(IndexOutOfRange) ==> r.0.alive.count == Increment(st.alive.count)
    ensures r.2.Err? ==> r.0.length == st.length && r.0.data == st.data
    ensures st.dead.count == 0 && st.cursor < st.length ==> r.2 == Ok(st.cursor)
    ensures st.dead.count == 0 && st.cursor == st.length && 2 * st.length <= MaxArrayLength ==>
              && r.2 == Ok(st.cursor) && r.0.length == 2 * st.length
              && (forall k :: 0 <= k < st.length ==> Element(r.0, k) == Element(st, k))
    ensures st.dead.count == 0 && st.cursor == st.length && 2 * st.length > MaxArrayLength ==>
              r == (st.(cursor := Increment(st.cursor)), adjes, Err(Overflow))
  {
    var (dead, popped) := DoublyPop(st.dead, adjes);
    if popped != MaxU32 then
      var (alive, adjes') := DoublyLink(st.alive, adjes, popped);
      var r := st.(dead := dead, alive := alive);
      (r, adjes', if popped < r.length then Ok(popped) else Err(IndexOutOfRange))
    else
      var ordinal := st.cursor;
      var st1 := st.(dead := dead, cursor := Increment(st.cursor));
      if ordinal >= st.length then
        if 2 * st.length > MaxArrayLength then (st1, adjes, Err(Overflow))
        else
          var st2 := Grow(st.(dead := dead)).(cursor := Increment(st.cursor));
          var (alive, adjes') := DoublyLink(st2.alive, adjes, ordinal);
          (st2.(alive := alive), adjes', Ok(ordinal))
      else
        var (alive, adjes') := DoublyLink(st1.alive, adjes, ordinal);
        (st1.(alive := alive), adjes', Ok(ordinal))
  }

  /** `New` as written: its growth step is `GrowAsWritten`, which carries only
      the first `length` bytes of the old array over; every other path is the
      one `New` takes. */
  function NewAsWritten(st: Store, adjes: Links): (r: (Store, Links, Result<Ordinal>))
    requires Layout(st)
    ensures r.2.Ok? ==> Layout(r.0) && r.2.value < r.0.length
    ensures st.dead.count == 0 && st.cursor == st.length && 2 * st.length <= MaxArrayLength ==>
              && r.2 == Ok(st.cursor)
              && r.0 == GrowAsWritten(st).(cursor := st.cursor + 1, alive := r.0.alive)
    ensures !(st.dead.count == 0 && st.cursor == st.length && 2 * st.length <= MaxArrayLength) ==>
              r == New(st, adjes)
  {
    if st.dead.count == 0 && st.cursor == st.length && 2 * st.length <= MaxArrayLength then
      GrowAndLinkAsWritten(st, adjes)
    else New(st, adjes)
  }

  /** The growth path of `NewAsWritten`: the cursor is handed out and linked
      onto the alive list of the array `GrowAsWritten` returns. */
  function GrowAndLinkAsWritten(st: Store, adjes: Links): (r: (Store, Links, Result<Ordinal>))
    requires Layout(st) && st.cursor == st.length && 2 * st.length <= MaxArrayLength
    ensures Layout(r.0) && r.2 == Ok(st.cursor)
    ensures r.0 == GrowAsWritten(st).(cursor := st.cursor + 1, alive := r.0.alive)
  {
    var st2 := GrowAsWritten(st).(cursor := Increment(st.cursor));
    var (alive, adjes') := DoublyLink(st2.alive, adjes, st.cursor);
    (st2.(alive := alive), adjes', Ok(st.cursor))
  }

  /** The one-record pool `[7, 9]`, full, with no dead ordinal: `New` as written
      hands out ordinal 1 in a doubled array whose record 0 reads `[7, 0]`;
      the corrected `New` keeps `[7, 9]`. */
  lemma NewAsWrittenLosesBytes()
    ensures var st := Store(2, 1, [7, 9], 1, Tabulae(1, 0, 0), EmptyList);
            && NewAsWritten(st, map[]).2 == Ok(1) && Element(NewAsWritten(st, map[]).0, 0) == [7, 0]
            && New(st, map[]).2 == Ok(1) && Element(New(st, map[]).0, 0) == [7, 9]
  {
    var st := Store(2, 1, [7, 9], 1, Tabulae(1, 0, 0), EmptyList);
    assert GrowAsWritten(st).data == [7, 0, 0, 0];
    assert Grow(st).data == [7, 9, 0, 0];
  }

  /** `Invalidate`: the ordinal moves from the alive list to the dead list. */
  function Invalidate(st: Store, adjes: Links, ordinal: Ordinal): (r: Result<(Store, Links)>)
    ensures st.alive.count == 0 <==> r == Err(IndexOutOfRange)
    ensures r.Ok? ==> r.value.0.alive.count == st.alive.count - 1
    ensures r.Ok? ==> r.value.0.dead.count == Increment(st.dead.count)
    ensures r.Ok? ==> r.value.0 == st.(alive := r.value.0.alive, dead := r.value.0.dead)
  {
    var unlinked := DoublyUnlink(st.alive, adjes, ordinal);
    if unlinked.Err? then Err(unlinked.error)
    else
      var (alive, adjes1) := unlinked.value;
      var (dead, adjes2) := DoublyLink(st.dead, adjes1, ordinal);
      Ok((st.(alive := alive, dead := dead), adjes2))
  }

  /** `Clean(zerofy)`: both lists and the cursor reset; with `zerofy` the first
      `cursor * itemSize` bytes (a `uint` product) are cleared first. */
  function Clean(st: Store, zerofy: bool): (r: Store)
    requires Layout(st)
    ensures Layout(r) && r.length == st.length && r.itemSize == st.itemSize
    ensures r.cursor == 0 && r.alive == EmptyList && r.dead == EmptyList
    ensures forall adjes :: Valid(r, adjes, [], [])
    ensures !zerofy ==> r.data == st.data
    ensures zerofy && st.cursor * st.itemSize < 0x1_0000_0000 ==>
              && (forall k :: 0 <= k < st.cursor ==> Element(r, k) == Zeros(st.itemSize))
              && (forall k :: st.cursor <= k < st.length ==> Element(r, k) == Element(st, k))
  {
    var data := if zerofy then ZeroPrefix(st.data, (st.cursor * st.itemSize) % 0x1_0000_0000) else st.data;
    var r := st.(data := data, cursor := 0, alive := EmptyList, dead := EmptyList);
    if zerofy && st.cursor * st.itemSize < 0x1_0000_0000 then
      CleanZeroes(st, r);
      r
    else r
  }

  /** `InitBlockUnaligned` over the first `n` bytes, within the array. */
  function ZeroPrefix(data: seq<byte>, n: nat): (r: seq<byte>)
    ensures |r| == |data|
    ensures forall j :: 0 <= j < |data| ==> r[j] == (if j < n then 0 else data[j])
  {
    if n >= |data| then Zeros(|data|) else Zeros(n) + data[n..]
  }

  lemma CleanZeroes(st: Store, r: Store)
    requires Layout(st) && Layout(r) && r.length == st.length && r.itemSize == st.itemSize
    requires forall j :: 0 <= j < |st.data| ==> r.data[j] == (if j < st.cursor * st.itemSize then 0 else st.data[j])
    ensures forall k :: 0 <= k < st.cursor ==> Element(r, k) == Zeros(st.itemSize)
    ensures forall k :: st.cursor <= k < st.length ==> Element(r, k) == Element(st, k)
  {
    var size := st.itemSize;
    forall k | 0 <= k < st.cursor
      ensures Element(r, k) == Zeros(size)
    {
      MulMono(k + 1, st.cursor, size);
      ZeroRecord(r, k);
    }
    forall k | st.cursor <= k < st.length
      ensures Element(r, k) == Element(st, k)
    {
      MulMono(st.cursor, k, size);
      SameRecord(r, st, k);
    }
  }

  // ---- the partition ----

  /** The ordinals on a list. */
  function Members(s: seq<Ordinal>): (r: set<Ordinal>)
    ensures forall x :: x in r <==> x in s
  {
    if |s| == 0 then {} else {s[0]} + Members(s[1..])
  }

  /** The ordinals of a duplicate-free list form a set of the same size. */
  lemma {:induction false} DistinctCard(s: seq<Ordinal>)
    requires Distinct(s)
    ensures |Members(s)| == |s|
  {
    if |s| > 0 {
      var rest := s[1..];
      assert Distinct(rest) by {
        forall i, j | 0 <= i < j < |rest|
          ensures rest[i] != rest[j]
        {
          assert rest[i] == s[i + 1] && rest[j] == s[j + 1];
        }
      }
      DistinctCard(rest);
      assert s[0] !in rest by {
        forall i | 0 <= i < |rest|
          ensures rest[i] != s[0]
        {
          assert rest[i] == s[i + 1];
        }
      }
    }
  }

  /** The ordinals below `n`. */
  function Range(n: nat): (r: set<Ordinal>)
    requires n <= WordRange
    ensures forall x: Ordinal :: x in r <==> x < n
    ensures |r| == n
  {
    if n == 0 then {} else Range(n - 1) + {n - 1}
  }

  /** Two disjoint sets covering exactly the ordinals below `n` have `n` members together. */
  lemma PartitionCard(a: set<Ordinal>, d: set<Ordinal>, n: nat)
    requires n <= WordRange
    requires forall x :: x in a ==> x < n && x !in d
    requires forall x :: x in d ==> x < n
    requires forall x: Ordinal :: x < n ==> x in a || x in d
    ensures |a| + |d| == n
  {
    assert a * d == {};
    assert a + d == Range(n);
  }

  /** Alive count plus dead count is the cursor. */
  lemma CountsPartitionCursor(st: Store, adjes: Links, live: seq<Ordinal>, gone: seq<Ordinal>)
    requires Valid(st, adjes, live, gone)
    ensures st.alive.count + st.dead.count == st.cursor
  {
    DistinctCard(live);
    DistinctCard(gone);
    PartitionCard(Members(live), Members(gone), st.cursor);
  }

  // ---- the operations keep the partition ----

  /** A new ordinal was not alive, is now the alive list's tail, and comes from
      the dead list's tail when there is one. */
  lemma NewPreserves(st: Store, adjes: Links, live: seq<Ordinal>, gone: seq<Ordinal>)
    requires Valid(st, adjes, live, gone) && 2 * st.length <= MaxArrayLength
    ensures New(st, adjes).2.Ok?
    ensures var (st', adjes', o) := (New(st, adjes).0, New(st, adjes).1, New(st, adjes).2.value);
            && o !in live
            && (|gone| > 0 ==> o == gone[|gone| - 1] && st'.cursor == st.cursor)
            && (|gone| == 0 ==> o == st.cursor && st'.cursor == st.cursor + 1)
            && Valid(st', adjes', live + [o], if |gone| > 0 then gone[..|gone| - 1] else gone)
  {
    CountsPartitionCursor(st, adjes, live, gone);
    if |gone| > 0 {
      NewFromDead(st, adjes, live, gone);
    } else {
      NewFromCursor(st, adjes, live);
    }
  }

  lemma NewFromDead(st: Store, adjes: Links, live: seq<Ordinal>, gone: seq<Ordinal>)
    requires Valid(st, adjes, live, gone) && |gone| > 0
    requires st.alive.count + st.dead.count == st.cursor
    ensures New(st, adjes).2.Ok?
    ensures var (st', adjes', o) := (New(st, adjes).0, New(st, adjes).1, New(st, adjes).2.value);
            && o !in live && o == gone[|gone| - 1] && st'.cursor == st.cursor
            && Valid(st', adjes', live + [o], gone[..|gone| - 1])
  {
    DoublyPopRemovesLast(st.dead, adjes, gone);
    assert gone[|gone| - 1] in gone;
    var (st', adjes', o) := (New(st, adjes).0, New(st, adjes).1, New(st, adjes).2.value);
    var gone' := gone[..|gone| - 1];
    assert o in gone;
    DoublyLinkAppends(st.alive, adjes, live, o);
    assert forall x :: x in gone' ==> x in gone && x != o;
    ThreadsFrame(st'.dead, adjes, adjes', gone');
  }

  lemma NewFromCursor(st: Store, adjes: Links, live: seq<Ordinal>)
    requires Valid(st, adjes, live, []) && 2 * st.length <= MaxArrayLength
    requires st.alive.count + st.dead.count == st.cursor
    ensures New(st, adjes).2.Ok?
    ensures var (st', adjes', o) := (New(st, adjes).0, New(st, adjes).1, New(st, adjes).2.value);
            && o !in live && o == st.cursor && st'.cursor == st.cursor + 1
            && Valid(st', adjes', live + [o], [])
  {
    var (st', adjes', o) := (New(st, adjes).0, New(st, adjes).1, New(st, adjes).2.value);
    assert o == st.cursor;
    assert o !in live;
    DoublyLinkAppends(st.alive, adjes, live, o);
  }

  /** Invalidating an alive ordinal moves it to the dead list's tail. */
  lemma InvalidatePreserves(st: Store, adjes: Links, live: seq<Ordinal>, gone: seq<Ordinal>, o: Ordinal)
    requires Valid(st, adjes, live, gone) && o in live
    ensures Invalidate(st, adjes, o).Ok?
    ensures Valid(Invalidate(st, adjes, o).value.0, Invalidate(st, adjes, o).value.1, Without(live, o), gone + [o])
  {
    CountsPartitionCursor(st, adjes, live, gone);
    DoublyUnlinkRemoves(st.alive, adjes, live, o);
    WithoutMembers(live, o);
    var (alive, adjes1) := DoublyUnlink(st.alive, adjes, o).value;
    ThreadsFrame(st.dead, adjes, adjes1, gone);
    DoublyLinkAppends(st.dead, adjes1, gone, o);
    var (st', adjes2) := Invalidate(st, adjes, o).value;
    var live' := Without(live, o);
    assert forall x :: x in live' ==> x != o && x !in gone;
    ThreadsFrame(alive, adjes1, adjes2, live');
  }
}

=== FILE: cancer.dfy ===
/** The prepend-only text builder of src/Text/Cancer.cs. It fills a char span
    from the end towards the front: the content is everything from the cursor
    to the end. When the room before the cursor runs out, a larger array is
    allocated and the content moved to its end. */
module Cancer {
  import opened Outcomes

  const MaxI32: int := 0x7FFF_FFFF
  const MinI32: int := -0x8000_0000

  datatype Cancer = Cancer(span: seq<char>, cursor: int)

  predicate Valid(c: Cancer) {
    0 <= c.cursor <= |c.span|
  }

  /** The text built so far. */
  function Content(c: Cancer): (r: seq<char>)
    requires Valid(c)
  {
    c.span[c.cursor..]
  }

  /** `new Cancer(span)`: the cursor starts at the end. */
  function New(span: seq<char>): (r: Cancer)
    ensures Valid(r) && Content(r) == [] && IsEmpty(r) && Length(r) == 0
  {
    Cancer(span, |span|)
  }

  /** `Length`. */
  function Length(c: Cancer): (r: int)
    requires Valid(c)
    ensures r == |Content(c)|
  {
    |c.span| - c.cursor
  }

  /** `IsEmpty`. */
  function IsEmpty(c: Cancer): (r: bool)
    requires Valid(c)
    ensures r <==> Content(c) == []
  {
    c.cursor == |c.span|
  }

  /** `Ensure(length)` as written: when the room runs out the old content is
      copied to offset `-start` of the new array, which is `length - cursor`. */
  function EnsureAsWritten(c: Cancer, length: nat): (r: (Cancer, nat))
    requires Valid(c)
    ensures Valid(r.0) && r.1 + length == r.0.cursor
    ensures c.cursor >= length ==> r == (c, c.cursor - length)
  {
    var start := c.cursor - length;
    if start < 0 then
      var neu := seq(|c.span| - start, _ => '\0');
      var neu' := if c.cursor < |c.span| then neu[..-start] + c.span[c.cursor..] + neu[-start + |c.span| - c.cursor..] else neu;
      (Cancer(neu', c.cursor - start), 0)
    else (c, start)
  }

  /** `Ensure(length)` with the content copied to the end of the new array. */
  function Ensure(c: Cancer, length: nat): (r: (Cancer, nat))
    requires Valid(c)
    ensures Valid(r.0) && r.1 + length == r.0.cursor
    ensures Content(r.0) == Content(c)
    ensures c.cursor >= length ==> r == (c, c.cursor - length)
  {
    var start := c.cursor - length;
    if start < 0 then
      var neu := seq(|c.span| - start, _ => '\0');
      var offset := c.cursor - start;
      var neu' := neu[..offset] + c.span[c.cursor..];
      (Cancer(neu', offset), 0)
    else (c, start)
  }

  /** Writes `text` into the `|text|` slots just before the cursor and moves
      the cursor over them: the shape of every `Insert` overload. */
  function Prepend(c: Cancer, text: seq<char>): (r: Cancer)
    requires Valid(c)
    ensures Valid(r) && Content(r) == text + Content(c)
    ensures c.cursor >= |text| ==> |r.span| == |c.span| && r.cursor == c.cursor - |text| && r.span[..r.cursor] == c.span[..r.cursor]
  {
    var (e, start) := Ensure(c, |text|);
    var r := Cancer(e.span[..start] + text + e.span[start + |text|..], start);
    assert Content(r) == text + Content(e);
    r
  }

  /** `Prepend` with `EnsureAsWritten` in place of `Ensure`. */
  function PrependAsWritten(c: Cancer, text: seq<char>): (r: Cancer)
    requires Valid(c)
    ensures Valid(r) && |Content(r)| == |text| + |Content(c)| && Content(r)[..|text|] == text
  {
    var (e, start) := EnsureAsWritten(c, |text|);
    Cancer(e.span[..start] + text + e.span[start + |text|..], start)
  }

  /** A span of two with content `x` and one slot of room: inserting `ab` as
      written loses the `x`. */
  lemma EnsureAsWrittenLosesContent()
    ensures var c := Cancer(['?', 'x'], 1);
            && Valid(c) && Content(c) == ['x']
            && Content(PrependAsWritten(c, ['a', 'b'])) == ['a', 'b', '\0']
            && Content(Prepend(c, ['a', 'b'])) == ['a', 'b', 'x']
  {
    var c := Cancer(['?', 'x'], 1);
    assert EnsureAsWritten(c, 2).0.span == ['\0', 'x', '\0'];
  }

  /** The misplaced copy only shows when the array grows under a non-empty
      prefix of room: with no room at all, or with enough room, the insert as
      written is the corrected one. */
  lemma PrependAsWrittenAgrees(c: Cancer, text: seq<char>)
    requires Valid(c)
    ensures c.cursor == 0 || c.cursor >= |text| ==> PrependAsWritten(c, text) == Prepend(c, text)
  {
    EnsureAsWrittenAgrees(c, |text|);
  }

  lemma EnsureAsWrittenAgrees(c: Cancer, length: nat)
    requires Valid(c)
    ensures c.cursor == 0 || c.cursor >= length ==> EnsureAsWritten(c, length) == Ensure(c, length)
  {
    if c.cursor == 0 && length > 0 {
      var neu := seq(|c.span| + length, _ => '\0');
      assert neu[length + |c.span|..] == [] && c.span[0..] == c.span && neu[..length + |c.span|] == neu;
      assert EnsureAsWritten(c, length).0.span == neu[..length] + c.span;
      assert Ensure(c, length).0.span == neu[..length] + c.span;
    }
  }

  /** `Insert(char)`. */
  function InsertChar(c: Cancer, value: char): (r: Cancer)
    requires Valid(c)
    ensures Valid(r) && Content(r) == [value] + Content(c)
  {
    Prepend(c, [value])
  }

  /** `Insert(span)`. */
  function InsertText(c: Cancer, value: seq<char>): (r: Cancer)
    requires Valid(c)
    ensures Valid(r) && Content(r) == value + Content(c) && Length(r) == Length(c) + |value|
  {
    Prepend(c, value)
  }

  /** `Insert(head, span)`. */
  function InsertHead(c: Cancer, head: char, value: seq<char>): (r: Cancer)
    requires Valid(c)
    ensures Valid(r) && Content(r) == [head] + value + Content(c)
  {
    Prepend(c, [head] + value)
  }

  /** `Insert(span, tail)`. */
  function InsertTail(c: Cancer, value: seq<char>, tail: char): (r: Cancer)
    requires Valid(c)
    ensures Valid(r) && Content(r) == value + [tail] + Content(c)
  {
    Prepend(c, value + [tail])
  }

  /** `Insert(span)` as written, over `EnsureAsWritten`. */
  function InsertTextAsWritten(c: Cancer, value: seq<char>): (r: Cancer)
    requires Valid(c)
    ensures Valid(r) && Length(r) == Length(c) + |value| && Content(r)[..|value|] == value
    ensures c.cursor == 0 || c.cursor >= |value| ==> r == InsertText(c, value)
  {
    PrependAsWrittenAgrees(c, value);
    PrependAsWritten(c, value)
  }

  /** `Insert(head, span)` as written, over `EnsureAsWritten`. */
  function InsertHeadAsWritten(c: Cancer, head: char, value: seq<char>): (r: Cancer)
    requires Valid(c)
    ensures Valid(r) && Length(r) == Length(c) + 1 + |value| && Content(r)[..1 + |value|] == [head] + value
    ensures c.cursor == 0 || c.cursor >= 1 + |value| ==> r == InsertHead(c, head, value)
  {
    PrependAsWrittenAgrees(c, [head] + value);
    PrependAsWritten(c, [head] + value)
  }

  /** `Insert(span, tail)` as written, over `EnsureAsWritten`. */
  function InsertTailAsWritten(c: Cancer, value: seq<char>, tail: char): (r: Cancer)
    requires Valid(c)
    ensures Valid(r) && Length(r) == Length(c) + |value| + 1 && Content(r)[..|value| + 1] == value + [tail]
    ensures c.cursor == 0 || c.cursor >= |value| + 1 ==> r == InsertTail(c, value, tail)
  {
    PrependAsWrittenAgrees(c, value + [tail]);
    PrependAsWritten(c, value + [tail])
  }

  /** The decimal digit for `d`. */
  function Digit(d: nat): (r: char)
    requires d < 10
    ensures '0' <= r <= '9'
  {
    (48 + d) as char
  }

  /** The decimal text of a magnitude, most significant digit first. */
  function Digits(n: nat): (r: seq<char>)
    ensures |r| >= 1 && (n > 0 ==> r[0] != '0')
    decreases n
  {
    (if n >= 10 then Digits(n / 10) else []) + [Digit(n % 10)]
  }

  /** The number a run of decimal digits denotes. */
  function DecimalValue(s: seq<char>): int {
    if |s| == 0 then 0 else DecimalValue(s[..|s| - 1]) * 10 + (s[|s| - 1] as int - 48)
  }

  /** Reading the digits back gives the number. */
  lemma {:induction false} DigitsValue(n: nat)
    ensures DecimalValue(Digits(n)) == n
    decreases n
  {
    var s := Digits(n);
    assert s[..|s| - 1] == if n >= 10 then Digits(n / 10) else [];
    if n >= 10 {
      DigitsValue(n / 10);
    }
  }

  /** The decimal text of an `int`. */
  function DecimalText(n: int): seq<char> {
    if n < 0 then ['-'] + Digits(-n) else Digits(n)
  }

  /** The literal used for `int.MinValue` is its decimal text. */
  lemma MinValueText()
    ensures DecimalText(MinI32) == "-2147483648"
  {
    var s := Digits(2);
    assert s == "2";
    s := DigitsAppend(21, s, '1');
    s := DigitsAppend(214, s, '4');
    s := DigitsAppend(2147, s, '7');
    s := DigitsAppend(21474, s, '4');
    s := DigitsAppend(214748, s, '8');
    s := DigitsAppend(2147483, s, '3');
    s := DigitsAppend(21474836, s, '6');
    s := DigitsAppend(214748364, s, '4');
    s := DigitsAppend(2147483648, s, '8');
    assert s == "2147483648";
  }

  /** One more digit of a literal: `Digits(n)` extends `Digits(n / 10)`. */
  lemma DigitsAppend(n: nat, s: seq<char>, d: char) returns (t: seq<char>)
    requires n >= 10 && Digits(n / 10) == s && d as int == 48 + n % 10
    ensures t == Digits(n) && t == s + [d]
  {
    t := s + [d];
  }

  /** The digits still to be produced from `v`. */
  function Pending(v: nat): seq<char> {
    if v > 0 then Digits(v) else []
  }

  /** One step of the digit loop: the least significant pending digit is split off. */
  lemma PendingStep(v: nat)
    ensures Digits(v) == Pending(v / 10) + [Digit(v % 10)]
  {
  }

  /** `Insert(int)`: prepends the decimal text, least significant digit first,
      then the sign; `int.MinValue` is inserted as a literal. */
  method InsertInt(c: Cancer, value: int) returns (r: Cancer)
    requires Valid(c) && MinI32 <= value <= MaxI32
    ensures Valid(r) && Content(r) == DecimalText(value) + Content(c)
  {
    var minus := value < 0;
    if minus && value == MinI32 {
      MinValueText();
      r := InsertText(c, "-2147483648");
      return;
    }
    var magnitude: nat := if minus then -value else value;
    r := InsertDigits(c, magnitude);
    if minus {
      r := InsertChar(r, '-');
    }
  }

  /** `Insert(int)` as written: the digits and the sign go through
      `Insert(char)`, which never misplaces the content (`PrependAsWrittenAgrees`
      with one character), but `int.MinValue` goes through `Insert(span)` as
      written. */
  method InsertIntAsWritten(c: Cancer, value: int) returns (r: Cancer)
    requires Valid(c) && MinI32 <= value <= MaxI32
    ensures Valid(r) && Length(r) == Length(c) + |DecimalText(value)|
    ensures Content(r)[..|DecimalText(value)|] == DecimalText(value)
    ensures value != MinI32 || c.cursor == 0 || c.cursor >= 11 ==> Content(r) == DecimalText(value) + Content(c)
  {
    var minus := value < 0;
    if minus && value == MinI32 {
      MinValueText();
      r := InsertTextAsWritten(c, "-2147483648");
      return;
    }
    r := InsertInt(c, value);
  }

  /** The `do`/`while` digit loop of `Insert(int)` for a magnitude. */
  method InsertDigits(c: Cancer, magnitude: nat) returns (r: Cancer)
    requires Valid(c)
    ensures Valid(r) && Content(r) == Digits(magnitude) + Content(c)
  {
    r := PushDigit(c, c, magnitude, [], magnitude);
    r := PushRemaining(r, c, magnitude / 10, [Digit(magnitude % 10)], magnitude);
  }

  /** The `while` part of the digit loop: the pending digits `v` go in front
      of the `added` ones already inserted. */
  method PushRemaining(r: Cancer, c: Cancer, v: nat, ghost added: seq<char>, ghost magnitude: nat) returns (r': Cancer)
    requires Valid(r) && Valid(c) && Content(r) == added + Content(c)
    requires Digits(magnitude) == Pending(v) + added
    ensures Valid(r') && Content(r') == Digits(magnitude) + Content(c)
  {
    r' := r;
    var rest := v;
    ghost var done := added;
    while rest > 0
      invariant Valid(r') && Content(r') == done + Content(c)
      invariant Digits(magnitude) == Pending(rest) + done
      decreases rest
    {
      r' := PushDigit(r', c, rest, done, magnitude);
      done := [Digit(rest % 10)] + done;
      rest := rest / 10;
    }
  }

  /** One pass of the digit loop: the least significant pending digit goes
      in front, and the invariant moves on to the remaining digits. */
  method PushDigit(r: Cancer, c: Cancer, v: nat, ghost added: seq<char>, ghost magnitude: nat) returns (r': Cancer)
    requires Valid(r) && Valid(c) && Content(r) == added + Content(c)
    requires Digits(magnitude) == Digits(v) + added
    ensures Valid(r') && Content(r') == ([Digit(v % 10)] + added) + Content(c)
    ensures Digits(magnitude) == Pending(v / 10) + ([Digit(v % 10)] + added)
  {
    DigitsStep(magnitude, v, added);
    ContentStep(r, added, c, Digit(v % 10));
    r' := InsertChar(r, Digit(v % 10));
  }

  /** The text grows at the front by the inserted digit. */
  lemma ContentStep(r: Cancer, added: seq<char>, c: Cancer, d: char)
    requires Valid(r) && Valid(c) && Content(r) == added + Content(c)
    ensures Valid(InsertChar(r, d)) && Content(InsertChar(r, d)) == ([d] + added) + Content(c)
  {
    assert Content(InsertChar(r, d)) == [d] + (added + Content(c));
  }

  /** The digits added so far stay the tail of the magnitude's text. */
  lemma DigitsStep(magnitude: nat, v: nat, added: seq<char>)
    requires Digits(magnitude) == Digits(v) + added
    ensures Digits(magnitude) == Pending(v / 10) + ([Digit(v % 10)] + added)
  {
    PendingStep(v);
    Regroup(Pending(v / 10), [Digit(v % 10)], added);
  }

  /** Concatenation regroups. */
  lemma Regroup(a: seq<char>, b: seq<char>, c: seq<char>)
    ensures (a + b) + c == a + (b + c)
  {
  }

  /** `ToString` and `ToReadOnlySpan`: the content. */
  function ToString(c: Cancer): (r: seq<char>)
    requires Valid(c)
    ensures |r| == Length(c)
    ensures forall k :: 0 <= k < |r| ==> r[k] == c.span[c.cursor + k]
  {
    if c.cursor >= |c.span| then [] else c.span[c.cursor..]
  }

  /** `DumpTo`: copies the content to the front of `target` and returns its
      length; a target too short throws. */
  function DumpTo(c: Cancer, target: seq<char>): (r: Result<(seq<char>, int)>)
    requires Valid(c)
    ensures IsEmpty(c) ==> r == Ok((target, 0))
    ensures !IsEmpty(c) && |target| < Length(c) ==> r == Err(Argument)
    ensures r.Ok? ==> |r.value.0| == |target| && Length(c) <= |target| && r.value.1 == Length(c)
    ensures r.Ok? ==> r.value.0[..Length(c)] == Content(c) && r.value.0[Length(c)..] == target[Length(c)..]
  {
    if c.cursor >= |c.span| then Ok((target, 0))
    else
      var me := c.span[c.cursor..];
      if |target| < |me| then Err(Argument)
      else Ok((me + target[|me|..], |me|))
  }

  /** `int` addition as C# computes it unchecked. */
  function Wrap32(x: int): (r: int)
    ensures MinI32 <= r <= MaxI32
    ensures MinI32 <= x <= MaxI32 ==> r == x
  {
    (x - MinI32) % 0x1_0000_0000 + MinI32
  }

  /** `Deflate(count)` as written: `cursor + count` wraps for large counts. */
  function DeflateAsWritten(c: Cancer, count: int): (r: Cancer)
    requires Valid(c) && MinI32 <= count <= MaxI32
    ensures count < 1 ==> r == c
    ensures c.cursor + count <= MaxI32 ==> Valid(r)
  {
    if count < 1 then c
    else
      var probe := Wrap32(c.cursor + count);
      c.(cursor := if probe <= |c.span| then probe else |c.span|)
  }

  /** `Deflate(count)`: drops the first `min(count, Length)` characters of
      the content; a count below one does nothing. */
  function Deflate(c: Cancer, count: int): (r: Cancer)
    requires Valid(c)
    ensures Valid(r) && r.span == c.span
    ensures count < 1 ==> r == c
    ensures count >= 1 && count <= Length(c) ==> Content(r) == Content(c)[count..]
    ensures count >= 1 && count > Length(c) ==> Content(r) == []
  {
    if count < 1 then c
    else
      var probe := c.cursor + count;
      c.(cursor := if probe <= |c.span| then probe else |c.span|)
  }

  /** One character of content and `int.MaxValue`: as written the cursor
      wraps negative, where `Deflate` empties the content. */
  lemma DeflateAsWrittenWraps()
    ensures var c := Cancer(['?', 'x'], 1);
            && Valid(c)
            && DeflateAsWritten(c, MaxI32).cursor == MinI32
            && Content(Deflate(c, MaxI32)) == []
  {
  }
}

=== FILE: little_endian.dfy ===
/** Bytes and little-endian packing of byte runs into unsigned integers, the
    layout every record of the source uses when it reinterprets bytes as
    `uint`/`ulong` words. */
module LittleEndian {

  type byte = x: int | 0 <= x < 256

  function Pow256(n: nat): (r: nat)
    ensures r >= 1
  {
    if n == 0 then 1 else 256 * Pow256(n - 1)
  }

  /** The unsigned value of `s` read little-endian: `s[0]` is the least significant byte. */
  function Value(s: seq<byte>): nat {
    if |s| == 0 then 0 else s[0] + 256 * Value(s[1..])
  }

  /** The `n` little-endian bytes of `v` (the low `n` bytes when `v` is wider). */
  function Bytes(v: nat, n: nat): (r: seq<byte>)
    ensures |r| == n
  {
    if n == 0 then [] else [v % 256] + Bytes(v / 256, n - 1)
  }

  lemma {:induction false} ValueBound(s: seq<byte>)
    ensures Value(s) < Pow256(|s|)
  {
    if |s| > 0 {
      ValueBound(s[1..]);
    }
  }

  /** The least significant byte of the packed value is the first byte. */
  lemma {:induction false} ValueLowByte(s: seq<byte>)
    requires |s| > 0
    ensures Value(s) % 256 == s[0]
    ensures Value(s) / 256 == Value(s[1..])
  {
    var v := Value(s[1..]);
    assert Value(s) == s[0] + 256 * v;
  }

  /** Packing is injective on runs of one length. */
  lemma {:induction false} ValueInjective(a: seq<byte>, b: seq<byte>)
    requires |a| == |b|
    requires Value(a) == Value(b)
    ensures a == b
  {
    if |a| > 0 {
      ValueLowByte(a);
      ValueLowByte(b);
      ValueInjective(a[1..], b[1..]);
      assert a == [a[0]] + a[1..];
      assert b == [b[0]] + b[1..];
    }
  }

  /** A run packs to zero exactly when every byte is zero. */
  lemma {:induction false} ValueZero(s: seq<byte>)
    ensures Value(s) == 0 <==> forall k :: 0 <= k < |s| ==> s[k] == 0
  {
    if |s| > 0 {
      ValueZero(s[1..]);
      if Value(s) == 0 {
        assert s[0] == 0;
      }
      assert forall k :: 1 <= k < |s| ==> s[k] == s[1..][k - 1];
    }
  }

  /** `Bytes` is the inverse of `Value` on values that fit. */
  lemma {:induction false} BytesValue(v: nat, n: nat)
    requires v < Pow256(n)
    ensures Value(Bytes(v, n)) == v
  {
    if n > 0 {
      BytesValue(v / 256, n - 1);
      var r := Bytes(v, n);
      assert r[1..] == Bytes(v / 256, n - 1);
    }
  }

  /** ... and `Value` is the inverse of `Bytes`. */
  lemma {:induction false} ValueBytes(s: seq<byte>)
    ensures Bytes(Value(s), |s|) == s
  {
    if |s| > 0 {
      ValueLowByte(s);
      ValueBytes(s[1..]);
      assert s == [s[0]] + s[1..];
    }
  }

  /** The most significant differing byte decides the packed order: the byte
      at the highest index, not the first one. */
  lemma {:induction false} ValueByTopByte(x: seq<byte>, y: seq<byte>, k: nat)
    requires |x| == |y| && k < |x| && x[k] < y[k]
    requires forall j :: k < j < |x| ==> x[j] == y[j]
    ensures Value(x) < Value(y)
  {
    if k == 0 {
      assert x[1..] == y[1..];
    } else {
      ValueByTopByte(x[1..], y[1..], k - 1);
    }
  }
}

=== FILE: optional_list.dfy ===
/** The heap-only small list of src/Collections/Generic/OptionalList.cs: no
    buffer until the first item, then a buffer grown by eight. `Items` is the
    list it represents, which is `Span`. */
module OptionalList {
  import opened Outcomes

  const MinCapacity: nat := 8

  datatype OptionalList<T> = OptionalList(count: int, buffer: Option<seq<T>>)

  predicate Valid<T>(l: OptionalList<T>) {
    && 0 <= l.count
    && (l.buffer.None? ==> l.count == 0)
    && (l.buffer.Some? ==> l.count <= |l.buffer.value|)
  }

  /** `Span`: empty without a buffer, else the first `count` buffer items. */
  function Items<T>(l: OptionalList<T>): (r: seq<T>)
    requires Valid(l)
    ensures |r| == l.count
  {
    if l.buffer.None? then [] else l.buffer.value[..l.count]
  }

  /** `new OptionalList(capacity)`: a negative size fails the allocation. */
  function New<T>(capacity: int, zero: T): (r: Result<OptionalList<T>>)
    ensures capacity < 0 <==> r == Err(Overflow)
    ensures r.Ok? ==> Valid(r.value) && Items(r.value) == []
    ensures r.Ok? ==> r.value.buffer.Some? && |r.value.buffer.value| == capacity
  {
    if capacity < 0 then Err(Overflow)
    else Ok(OptionalList(0, Some(seq(capacity, _ => zero))))
  }

  /** `Inflate`: the slot at the old count, allocating eight slots when there
      is no buffer and resizing to `index + 8` when it is full. */
  function Inflate<T>(l: OptionalList<T>, zero: T): (r: (OptionalList<T>, nat))
    requires Valid(l)
    ensures Valid(r.0) && r.0.count == l.count + 1 && r.1 == l.count
    ensures r.0.buffer.Some? && r.1 < |r.0.buffer.value|
    ensures Items(r.0)[..l.count] == Items(l)
  {
    var index := l.count;
    var l' := l.(count := index + 1);
    if l.buffer.None? then (l'.(buffer := Some(seq(MinCapacity, _ => zero))), index)
    else if |l.buffer.value| <= index then
      (l'.(buffer := Some(l.buffer.value + seq(index + MinCapacity - |l.buffer.value|, _ => zero))), index)
    else (l', index)
  }

  /** `Add(item)`: `Inflate() = item`. */
  function Add<T>(l: OptionalList<T>, item: T, zero: T): (r: OptionalList<T>)
    requires Valid(l)
    ensures Valid(r) && Items(r) == Items(l) + [item]
  {
    var (l', index) := Inflate(l, zero);
    var r := l'.(buffer := Some(l'.buffer.value[index := item]));
    assert Items(r) == Items(l')[index := item];
    r
  }

  /** The common path of `Add(span)` once a buffer exists: resize to
      `count + length + 8` when needed, copy after the items. */
  function AppendToBuffer<T>(l: OptionalList<T>, span: seq<T>, zero: T): (r: OptionalList<T>)
    requires Valid(l) && l.buffer.Some?
    ensures Valid(r) && Items(r) == Items(l) + span
  {
    var total := l.count + |span|;
    var buffer := if |l.buffer.value| <= total
      then l.buffer.value + seq(total + MinCapacity - |l.buffer.value|, _ => zero)
      else l.buffer.value;
    var r := l.(buffer := Some(buffer[..l.count] + span + buffer[total..]), count := total);
    assert Items(r) == Items(l) + span;
    r
  }

  /** `Add(span)` as written: on the first allocation the span is copied but
      the count is left as it was. */
  function AddSpanAsWritten<T>(l: OptionalList<T>, span: seq<T>, zero: T): (r: OptionalList<T>)
    requires Valid(l)
    ensures Valid(r)
    ensures |span| == 0 ==> r == l
    ensures l.buffer.Some? ==> Items(r) == Items(l) + span
    ensures l.buffer.None? && |span| > 0 ==> r.count == l.count == 0 && Items(r) == Items(l) == []
    ensures l.buffer.None? && |span| > 0 ==> r.buffer.Some? && |r.buffer.value| == |span| + MinCapacity && r.buffer.value[..|span|] == span
  {
    if |span| == 0 then l
    else if l.buffer.None? then l.(buffer := Some(span + seq(MinCapacity, _ => zero)))
    else AppendToBuffer(l, span, zero)
  }

  /** `Add(span)` with the count set on the first allocation too. */
  function AddSpan<T>(l: OptionalList<T>, span: seq<T>, zero: T): (r: OptionalList<T>)
    requires Valid(l)
    ensures Valid(r) && Items(r) == Items(l) + span
    ensures |span| == 0 ==> r == l
  {
    if |span| == 0 then l
    else if l.buffer.None? then OptionalList(|span|, Some(span + seq(MinCapacity, _ => zero)))
    else AppendToBuffer(l, span, zero)
  }

  /** Adding `[4, 2]` to a list without a buffer: as written it stays empty. */
  lemma AddSpanAsWrittenLosesItems()
    ensures var l: OptionalList<int> := OptionalList(0, None);
            && Items(AddSpanAsWritten(l, [4, 2], 0)) == []
            && Items(AddSpan(l, [4, 2], 0)) == [4, 2]
  {
  }

  /** `Deflate`: the count drops by one; below zero it throws and stays at -1. */
  function Deflate<T>(l: OptionalList<T>): (r: (OptionalList<T>, Result<()>))
    requires Valid(l)
    ensures r.0 == l.(count := l.count - 1)
    ensures r.1.Err? <==> l.count == 0
    ensures r.1.Ok? ==> Valid(r.0) && Items(r.0) == Items(l)[..l.count - 1]
  {
    var l' := l.(count := l.count - 1);
    if l'.count < 0 then (l', Err(IndexOutOfRange)) else (l', Ok(()))
  }

  /** `Pop`: the last item is removed and returned; an empty list resets the
      count to 0 and throws. */
  function Pop<T>(l: OptionalList<T>): (r: (OptionalList<T>, Result<T>))
    requires Valid(l)
    ensures Valid(r.0)
    ensures l.count == 0 <==> r.1 == Err(IndexOutOfRange)
    ensures l.count == 0 ==> r.0 == l
    ensures l.count > 0 ==> r.1 == Ok(Items(l)[l.count - 1]) && Items(r.0) == Items(l)[..l.count - 1]
  {
    var index := l.count - 1;
    if index >= 0 then (l.(count := index), Ok(l.buffer.value[index]))
    else (l.(count := 0), Err(IndexOutOfRange))
  }

  /** Popping undoes adding. */
  lemma PopAfterAdd<T>(l: OptionalList<T>, item: T, zero: T)
    requires Valid(l)
    ensures Pop(Add(l, item, zero)).1 == Ok(item)
    ensures Items(Pop(Add(l, item, zero)).0) == Items(l)
  {
    var a := Add(l, item, zero);
    assert Items(a)[..l.count] == Items(l);
  }

  /** `Clear`: the count is zeroed; the buffer is kept. */
  function Clear<T>(l: OptionalList<T>): (r: OptionalList<T>)
    ensures Valid(l) ==> Valid(r) && Items(r) == []
    ensures r.buffer == l.buffer
  {
    l.(count := 0)
  }

  /** `IsEmpty`. */
  function IsEmpty<T>(l: OptionalList<T>): (r: bool)
    requires Valid(l)
    ensures r <==> Items(l) == []
  {
    l.count == 0
  }

  /** The indexer: no buffer throws; a negative index counts from the end. */
  function At<T>(l: OptionalList<T>, index: int): (r: Result<T>)
    requires Valid(l)
    ensures r.Ok? <==> l.buffer.Some? && -l.count <= index < l.count
    ensures r.Ok? ==> r.value == Items(l)[if index < 0 then l.count + index else index]
    ensures r.Err? ==> r.error == IndexOutOfRange
  {
    if l.buffer.None? then Err(IndexOutOfRange)
    else
      var i := if index < 0 then index + l.count else index;
      if i >= l.count || i < 0 then Err(IndexOutOfRange)
      else Ok(l.buffer.value[i])
  }

  /** `First`. */
  function First<T>(l: OptionalList<T>): (r: Result<T>)
    requires Valid(l)
    ensures l.count < 1 <==> r == Err(IndexOutOfRange)
    ensures l.count >= 1 ==> r == Ok(Items(l)[0])
  {
    if l.count < 1 then Err(IndexOutOfRange) else Ok(l.buffer.value[0])
  }

  /** `Last`. */
  function Last<T>(l: OptionalList<T>): (r: Result<T>)
    requires Valid(l)
    ensures l.count < 1 <==> r == Err(IndexOutOfRange)
    ensures l.count >= 1 ==> r == Ok(Items(l)[l.count - 1])
  {
    var index := l.count - 1;
    if index < 0 then Err(IndexOutOfRange) else Ok(l.buffer.value[index])
  }
}

=== FILE: outcomes.dfy ===
/** Failure-carrying results shared by every component of the model.
    The source signals failure by throwing; the model returns `Err` with the
    kind of exception the source throws. */
module Outcomes {

  /** The exception kinds thrown by the modelled code. */
  datatype Error =
    | ArgumentOutOfRange   // ArgumentOutOfRangeException
    | Argument             // ArgumentException (also: an encoder's destination too small)
    | IndexOutOfRange      // IndexOutOfRangeException
    | Overflow             // OverflowException (an array length below 0 or past `int.MaxValue`)

  datatype Result<+T> = Ok(value: T) | Err(error: Error) {
    predicate IsFailure() {
      Err?
    }

    function PropagateFailure<U>(): Result<U>
      requires Err?
    {
      Err(error)
    }

    function Extract(): T
      requires Ok?
    {
      value
    }
  }

  datatype Option<+T> = None | Some(value: T)

  /** `uint.MaxValue`, the "no ordinal" marker returned by several operations. */
  const MaxU32: nat := 0xFFFF_FFFF

  /** `int.MaxValue`: an array created with a longer `uint` length throws
      `OverflowException`. */
  const MaxArrayLength: nat := 0x7FFF_FFFF

  type u32 = x: int | 0 <= x <= 0xFFFF_FFFF
  type u64 = x: int | 0 <= x < 0x1_0000_0000_0000_0000
  type i32 = x: int | -0x8000_0000 <= x < 0x8000_0000

  /** The bitwise complement `~x` of a non-negative `int`, as C# computes it. */
  function Complement(x: int): int {
    -x - 1
  }
}

=== FILE: pascal_ordinal_map.dfy ===
/** The sorted short-string ordinal index of src/Collections/PascalOrdinalMap.cs.

    One off-heap block holds, for a slot capacity `c`, `c` ordinals (sorted
    position to key slot), `c` key records of 256 bytes and a free-map. Here
    the ordinals are `ordinals` (`|ordinals| == c`, positions `0..count` live),
    the records are `keys` (`|keys| == c`, slots `0..keyCount` in use or free)
    and the free-map is an `InlinedTrashBin`. Names come in already encoded:
    their UTF-16 unit count and their UTF-8 bytes. */
module PascalOrdinalMap {
  import opened Outcomes
  import PS = PascalString
  import TB = InlinedTrashBin
  import LE = LittleEndian

  type Record = PS.PascalString

  const MinCapacity: nat := 1
  const MaxCapacity: nat := MaxU32 / 4
  /** `uint`s per key record. */
  const IntLength: nat := 2 * PS.LongSize

  /** A name as callers pass it: `name.Length` and the UTF-8 encoding of `name`. */
  datatype Name = Name(units: nat, utf8: seq<PS.byte>)

  /** An encoded key: its zero-tailed record and the number of words a lookup compares. */
  datatype Key = Key(record: Record, words: nat)

  datatype OrdinalMap = OrdinalMap(ordinals: seq<nat>, count: nat, keyCount: nat, keys: seq<Record>, trash: TB.TrashBin)

  /** `bytes += 8 - (bytes & 7)` when `bytes` is not a multiple of 8. */
  function RoundUp8(bytes: nat): (r: nat)
    ensures r % 8 == 0 && bytes <= r < bytes + 8
  {
    if bytes % 8 != 0 then bytes + 8 - bytes % 8 else bytes
  }

  predicate KeyValid(key: Key) {
    PS.ZeroTail(key.record) && PS.Length(key.record) < 8 * key.words <= PS.ByteSize
  }

  /** The key encoding and validation every entry point starts with, with the
      encoder's destination large enough for any UTF-8 encoding. An empty name is
      an `ArgumentException` in the indexer; a name of 256 or more units, or whose
      length byte and content round up past 256 bytes, an `ArgumentOutOfRangeException`. */
  function EncodeKey(name: Name): (r: Result<Key>)
    ensures r.Err? <==> name.units == 0 || name.units >= PS.ByteSize || |name.utf8| > PS.MaxLength
    ensures name.units == 0 ==> r == Err(Argument)
    ensures r.Err? && name.units != 0 ==> r == Err(ArgumentOutOfRange)
    ensures r.Ok? ==> KeyValid(r.value) && PS.Span(r.value.record) == name.utf8
    ensures r.Ok? ==> 8 * r.value.words == RoundUp8(|name.utf8| + 1)
  {
    if name.units == 0 then Err(Argument)
    else if name.units >= PS.ByteSize then Err(ArgumentOutOfRange)
    else
      var bytes := RoundUp8(|name.utf8| + 1);
      if bytes > PS.ByteSize then Err(ArgumentOutOfRange)
      else Ok(Key(PS.Make(name.utf8), bytes / 8))
  }

  /** The encoding as written: the UTF-8 bytes go into `span[1..]` of a
      `stackalloc byte[2 * units + 1]`, so the encoder throws an
      `ArgumentException` when they take more than two bytes per unit. */
  function EncodeKeyAsWritten(name: Name): (r: Result<Key>)
    ensures |name.utf8| <= 2 * name.units ==> r == EncodeKey(name)
    ensures 0 < name.units < PS.ByteSize && |name.utf8| > 2 * name.units ==> r == Err(Argument)
  {
    if name.units == 0 then Err(Argument)
    else if name.units >= PS.ByteSize then Err(ArgumentOutOfRange)
    else if |name.utf8| > 2 * name.units then Err(Argument)
    else EncodeKey(name)
  }

  /** "€" is one UTF-16 unit and three UTF-8 bytes: as written every lookup of it
      throws, while the encoding itself is a valid key. */
  lemma EncodeKeyAsWrittenRejectsEuro()
    ensures EncodeKeyAsWritten(Name(1, [0xE2, 0x82, 0xAC])) == Err(Argument)
    ensures EncodeKey(Name(1, [0xE2, 0x82, 0xAC])).Ok?
  {
  }

  /** Shapes every operation relies on to index its arrays. */
  predicate WellFormed(m: OrdinalMap) {
    && |m.ordinals| == |m.keys| >= MinCapacity
    && m.count <= m.keyCount <= |m.keys|
    && (forall s :: 0 <= s < |m.keys| ==> PS.Valid(m.keys[s]))
    && (forall i :: 0 <= i < m.count ==> m.ordinals[i] < m.keyCount)
  }

  /** The record at sorted position `i`. */
  function LiveKey(m: OrdinalMap, i: nat): (r: Record)
    requires WellFormed(m) && i < m.count
    ensures PS.Valid(r)
  {
    m.keys[m.ordinals[i]]
  }

  /** The live records in sorted-position order. */
  function LiveKeys(m: OrdinalMap): (r: seq<Record>)
    requires WellFormed(m)
    ensures |r| == m.count && forall i :: 0 <= i < m.count ==> r[i] == LiveKey(m, i)
  {
    seq(m.count, i requires 0 <= i < m.count => LiveKey(m, i))
  }

  /** The set of live records. */
  function KeySet(m: OrdinalMap): set<Record>
    requires WellFormed(m)
  {
    Elements(LiveKeys(m))
  }

  function Elements(s: seq<Record>): set<Record> {
    set k | k in s
  }

  predicate AllValid(s: seq<Record>) {
    forall i :: 0 <= i < |s| ==> PS.Valid(s[i])
  }

  /** Strictly increasing in the word order. */
  predicate Sorted(s: seq<Record>) {
    AllValid(s) && forall i, j :: 0 <= i < j < |s| ==> PS.Precedes(s[i], s[j])
  }

  /** `q` fits between `s[..p]` and `s[p..]`. */
  predicate InsertsAt(s: seq<Record>, q: Record, p: nat) {
    && AllValid(s) && PS.Valid(q) && p <= |s|
    && (forall i :: 0 <= i < p ==> PS.Precedes(s[i], q))
    && (forall i :: p <= i < |s| ==> PS.Precedes(q, s[i]))
  }

  /** The class invariant: the free-map marks exactly the slots below `keyCount`
      that no live position refers to, its `Count` is the number of those, and
      the live records are zero-tailed and sorted. */
  predicate Valid(m: OrdinalMap) {
    && WellFormed(m)
    && TB.Valid(m.trash) && |m.trash.bits| == TB.BinBits(|m.keys|)
    && (forall s :: 0 <= s < |m.trash.bits| ==>
          (m.trash.bits[s] <==> s < m.keyCount && s !in m.ordinals[..m.count]))
    && m.count + m.trash.count == m.keyCount
    && (forall i :: 0 <= i < m.count ==> PS.ZeroTail(LiveKey(m, i)))
    && Sorted(LiveKeys(m))
  }

  /** Sorted records are distinct, so live positions refer to distinct slots. */
  lemma ValidDistinct(m: OrdinalMap, i: nat, j: nat)
    requires Valid(m) && i < j < m.count
    ensures LiveKey(m, i) != LiveKey(m, j) && m.ordinals[i] != m.ordinals[j]
  {
    assert PS.Precedes(LiveKeys(m)[i], LiveKeys(m)[j]);
    PS.PrecedesTotal(LiveKey(m, i), LiveKey(m, j));
  }

  // ---- the reference search ----

  /** The first position from `i` on whose record does not precede `q`. */
  function InsertionPoint(s: seq<Record>, q: Record, i: nat): (r: nat)
    requires AllValid(s) && PS.Valid(q) && i <= |s|
    ensures i <= r <= |s|
    ensures forall j :: i <= j < r ==> PS.Precedes(s[j], q)
    ensures r < |s| ==> !PS.Precedes(s[r], q)
    decreases |s| - i
  {
    if i == |s| || !PS.Precedes(s[i], q) then i else InsertionPoint(s, q, i + 1)
  }

  /** On sorted records the insertion point is the only position with a
      preceding record just before it and none at it. */
  lemma InsertionPointUnique(s: seq<Record>, q: Record, p: nat)
    requires Sorted(s) && PS.Valid(q) && p <= |s|
    requires p > 0 ==> PS.Precedes(s[p - 1], q)
    requires p < |s| ==> !PS.Precedes(s[p], q)
    ensures InsertionPoint(s, q, 0) == p
  {
    var r := InsertionPoint(s, q, 0);
    if r < p {
      if r < p - 1 {
        assert PS.Precedes(s[r], s[p - 1]);
        PS.PrecedesTransitive(s[r], s[p - 1], q);
      }
    }
  }

  /** The position of `q` among the live records, or the complement of the
      position that keeps them sorted with `q` inserted. */
  function Lookup(m: OrdinalMap, q: Record): (r: int)
    requires WellFormed(m) && AllValid(LiveKeys(m)) && PS.Valid(q)
    ensures r < m.count
  {
    var p := InsertionPoint(LiveKeys(m), q, 0);
    if p < m.count && LiveKey(m, p) == q then p else Complement(p)
  }

  /** What `Lookup` means on a valid map. */
  lemma LookupSpec(m: OrdinalMap, q: Record)
    requires Valid(m) && PS.Valid(q)
    ensures Lookup(m, q) >= 0 <==> q in LiveKeys(m)
    ensures Lookup(m, q) >= 0 ==> Lookup(m, q) < m.count && LiveKey(m, Lookup(m, q)) == q
    ensures Lookup(m, q) < 0 ==> InsertsAt(LiveKeys(m), q, Complement(Lookup(m, q)))
  {
    var s := LiveKeys(m);
    var p := InsertionPoint(s, q, 0);
    PS.PrecedesTotal(q, q);
    if !(p < m.count && s[p] == q) {
      forall j | p <= j < |s|
        ensures PS.Precedes(q, s[j])
      {
        PS.PrecedesTotal(s[p], q);
        if j > p {
          assert PS.Precedes(s[p], s[j]);
          PS.PrecedesTransitive(q, s[p], s[j]);
        }
      }
    }
  }

  /** `OrdinalOf` as written: the midpoint `hi + (lo >> 1)` keeps `lo == 0`
      until the loop ends, so it probes `count - 1`, `count - 2`, ... downwards,
      comparing only the key's first `words` words. It still returns the
      reference answer. */
  method OrdinalOf(m: OrdinalMap, key: Key) returns (r: int)
    requires Valid(m) && KeyValid(key)
    ensures r == Lookup(m, key.record)
    ensures m.count == 0 ==> r == -1
  {
    if m.count == 0 {
      InsertionPointUnique(LiveKeys(m), key.record, 0);
      return -1;
    }
    var found, p := Bisect(m, key);
    if found {
      FoundAt(m, key.record, p);
      return p;
    }
    AbsentAt(m, key.record, p);
    return Complement(p);
  }

  /** The probing loop of `OrdinalOf` on a non-empty map: either the record
      at sorted position `p` equals the key, or the key falls strictly between
      the records at `p - 1` and `p`. A miss at position 0 stops early with
      `p == 0`, where `Complement(0)` is the -1 the source returns. */
  method Bisect(m: OrdinalMap, key: Key) returns (found: bool, p: nat)
    requires Probeable(m) && KeyValid(key) && m.count > 0
    ensures found ==> p < m.count && LiveKey(m, p) == key.record
    ensures !found ==> p <= m.count
    ensures !found && p > 0 ==> PS.Precedes(LiveKey(m, p - 1), key.record)
    ensures !found && p < m.count ==> PS.Precedes(key.record, LiveKey(m, p))
  {
    var lo: nat := 0;
    var hi: nat := m.count - 1;
    ghost var top: nat := m.count;
    while lo <= hi
      invariant top == hi + 1 <= m.count && lo <= top
      invariant lo == 0 || lo == top
      invariant top < m.count ==> PS.Precedes(key.record, LiveKey(m, top))
      invariant lo > 0 ==> PS.Precedes(LiveKey(m, lo - 1), key.record)
      decreases top - lo
    {
      assert lo == 0;
      var ordinal := hi + lo / 2;
      var c := CompareAt(m, key, ordinal);
      if c > 0 {
        lo := ordinal + 1;
      } else if c < 0 {
        if ordinal == 0 {
          return false, 0;
        }
        hi, top := ordinal - 1, ordinal;
      } else {
        return true, ordinal;
      }
    }
    return false, lo;
  }

  /** The part of `Valid` a probe relies on: every live record is zero past its
      content, so a key's leading words decide the comparison. */
  predicate Probeable(m: OrdinalMap) {
    && WellFormed(m)
    && (forall i :: 0 <= i < m.count ==> PS.ZeroTail(LiveKey(m, i)))
  }

  /** What one probe of `OrdinalOf` learns from comparing the key's words with
      the record at sorted position `ordinal`. */
  lemma Probe(m: OrdinalMap, key: Key, ordinal: nat)
    requires Probeable(m) && KeyValid(key) && ordinal < m.count
    ensures var c := PS.CompareWords(key.record, LiveKey(m, ordinal), 0, key.words);
            && (c > 0 ==> PS.Precedes(LiveKey(m, ordinal), key.record))
            && (c < 0 ==> !PS.Precedes(LiveKey(m, ordinal), key.record) && PS.Precedes(key.record, LiveKey(m, ordinal)))
            && (c == 0 ==> LiveKey(m, ordinal) == key.record)
  {
    var q := key.record;
    var comparand := LiveKey(m, ordinal);
    PS.PrefixDecides(q, comparand, key.words);
    var c := PS.CompareWords(q, comparand, 0, key.words);
    if c > 0 {
      PS.CompareWordsAntisymmetric(q, comparand, 0, PS.LongSize);
    } else if c < 0 {
      PS.PrecedesTotal(q, comparand);
    } else {
      PS.CompareWordsEqual(q, comparand);
    }
  }

  /** One probe: compares the key's first `words` words with the record at
      sorted position `ordinal`. */
  method CompareAt(m: OrdinalMap, key: Key, ordinal: nat) returns (c: int)
    requires Probeable(m) && KeyValid(key) && ordinal < m.count
    ensures c > 0 ==> PS.Precedes(LiveKey(m, ordinal), key.record)
    ensures c < 0 ==> PS.Precedes(key.record, LiveKey(m, ordinal))
    ensures c == 0 ==> LiveKey(m, ordinal) == key.record
  {
    Probe(m, key, ordinal);
    c := PS.CompareWords(key.record, LiveKey(m, ordinal), 0, key.words);
  }

  /** A record equal to `q` at sorted position `ordinal` is what `Lookup` finds. */
  lemma FoundAt(m: OrdinalMap, q: Record, ordinal: nat)
    requires Valid(m) && PS.Valid(q) && ordinal < m.count && LiveKey(m, ordinal) == q
    ensures Lookup(m, q) == ordinal
  {
    var s := LiveKeys(m);
    PS.PrecedesTotal(q, q);
    assert s[ordinal] == q;
    if ordinal > 0 {
      assert PS.Precedes(s[ordinal - 1], s[ordinal]);
    }
    InsertionPointUnique(s, q, ordinal);
  }

  /** A key strictly between the records at `p - 1` and `p` is absent, and `p`
      is its insertion point. */
  lemma AbsentAt(m: OrdinalMap, q: Record, p: nat)
    requires Valid(m) && PS.Valid(q) && p <= m.count
    requires p > 0 ==> PS.Precedes(LiveKey(m, p - 1), q)
    requires p < m.count ==> PS.Precedes(q, LiveKey(m, p))
    ensures Lookup(m, q) == Complement(p)
  {
    var s := LiveKeys(m);
    if p < m.count {
      PS.PrecedesTotal(q, s[p]);
    }
    InsertionPointUnique(s, q, p);
  }

  // ---- insertion ----

  function Zeros(n: nat): (r: seq<nat>)
    ensures |r| == n && forall i :: 0 <= i < n ==> r[i] == 0
  {
    seq(n, _ => 0)
  }

  /** Fresh key memory, read as records. */
  function ZeroRecords(n: nat): (r: seq<Record>)
    ensures |r| == n && forall i :: 0 <= i < n ==> PS.Valid(r[i])
  {
    seq(n, _ => PS.PascalString(seq(PS.ByteSize, _ => 0)))
  }

  /** Moves positions `p..count` up by one and writes `index` at `p`. */
  function Shift(ordinals: seq<nat>, count: nat, p: nat, index: nat): (r: seq<nat>)
    requires p <= count < |ordinals|
    ensures |r| == |ordinals|
    ensures r[..count + 1] == ordinals[..p] + [index] + ordinals[p..count]
  {
    ordinals[..p] + [index] + ordinals[p..count] + ordinals[count + 1..]
  }

  lemma SortedInsert(s: seq<Record>, q: Record, p: nat)
    requires Sorted(s) && InsertsAt(s, q, p)
    ensures Sorted(s[..p] + [q] + s[p..])
  {
    var t := s[..p] + [q] + s[p..];
    forall i, j | 0 <= i < j < |t|
      ensures PS.Precedes(t[i], t[j])
    {
      if j < p {
        assert t[i] == s[i] && t[j] == s[j];
      } else if j == p {
        assert t[i] == s[i];
      } else if i < p {
        assert t[i] == s[i] && t[j] == s[j - 1];
      } else if i == p {
        assert t[j] == s[j - 1];
      } else {
        assert t[i] == s[i - 1] && t[j] == s[j - 1];
      }
    }
  }

  lemma ShiftedPositions(a: seq<nat>, b: seq<nat>, count: nat, p: nat, index: nat)
    requires p <= count <= |a| && count < |b|
    requires b[..count + 1] == a[..p] + [index] + a[p..count]
    ensures forall i :: 0 <= i < p ==> b[i] == a[i]
    ensures b[p] == index
    ensures forall i :: p < i < count + 1 ==> b[i] == a[i - 1]
    ensures forall s :: s in b[..count + 1] <==> s == index || s in a[..count]
  {
    assert a[..count] == a[..p] + a[p..count];
    forall i | 0 <= i < count + 1
      ensures b[i] == (a[..p] + [index] + a[p..count])[i]
    {
      assert b[i] == b[..count + 1][i];
    }
  }

  /** The part of `Add` common to all three of its paths: one new live position
      `p` refers to a slot `index` no live position referred to, and that slot now
      holds the key. */
  lemma InsertPreserves(m: OrdinalMap, key: Record, p: nat, r: OrdinalMap, index: nat)
    requires Valid(m) && PS.ZeroTail(key) && InsertsAt(LiveKeys(m), key, p)
    requires |r.ordinals| == |r.keys| >= |m.keys| && r.count == m.count + 1 <= |r.ordinals|
    requires m.keyCount <= r.keyCount <= |r.keys| && r.count <= r.keyCount
    requires r.ordinals[..r.count] == m.ordinals[..p] + [index] + m.ordinals[p..m.count]
    requires index < r.keyCount && index !in m.ordinals[..m.count]
    requires r.keys[index] == key
    requires forall s :: 0 <= s < |r.keys| ==> PS.Valid(r.keys[s])
    requires forall s :: 0 <= s < |m.keys| && s != index ==> r.keys[s] == m.keys[s]
    ensures WellFormed(r)
    ensures LiveKeys(r) == LiveKeys(m)[..p] + [key] + LiveKeys(m)[p..]
    ensures forall i :: 0 <= i < r.count ==> PS.ZeroTail(LiveKey(r, i))
    ensures Sorted(LiveKeys(r))
    ensures forall s :: s in r.ordinals[..r.count] <==> s == index || s in m.ordinals[..m.count]
  {
    ShiftedPositions(m.ordinals, r.ordinals, m.count, p, index);
    InsertLiveKeys(m, key, p, r, index);
    var s := LiveKeys(m);
    forall i | 0 <= i < r.count
      ensures PS.ZeroTail(LiveKey(r, i))
    {
      if i < p {
        assert LiveKey(r, i) == s[i] == LiveKey(m, i);
      } else if i > p {
        assert LiveKey(r, i) == s[i - 1] == LiveKey(m, i - 1);
      }
    }
    SortedInsert(s, key, p);
  }

  lemma InsertLiveKeys(m: OrdinalMap, key: Record, p: nat, r: OrdinalMap, index: nat)
    requires WellFormed(m) && p <= m.count
    requires |r.ordinals| == |r.keys| >= |m.keys| && r.count == m.count + 1 <= |r.ordinals|
    requires m.keyCount <= r.keyCount <= |r.keys| && r.count <= r.keyCount
    requires forall i :: 0 <= i < p ==> r.ordinals[i] == m.ordinals[i]
    requires r.ordinals[p] == index
    requires forall i :: p < i < m.count + 1 ==> r.ordinals[i] == m.ordinals[i - 1]
    requires index < r.keyCount && index !in m.ordinals[..m.count]
    requires r.keys[index] == key
    requires forall s :: 0 <= s < |r.keys| ==> PS.Valid(r.keys[s])
    requires forall s :: 0 <= s < |m.keys| && s != index ==> r.keys[s] == m.keys[s]
    ensures WellFormed(r)
    ensures LiveKeys(r) == LiveKeys(m)[..p] + [key] + LiveKeys(m)[p..]
  {
    InsertWellFormed(m, p, r, index);
    var s := LiveKeys(m);
    var t := s[..p] + [key] + s[p..];
    forall i | 0 <= i < r.count
      ensures LiveKey(r, i) == t[i]
    {
      if i < p {
        assert m.ordinals[i] in m.ordinals[..m.count];
        assert t[i] == s[i] == LiveKey(m, i);
      } else if i > p {
        assert m.ordinals[i - 1] in m.ordinals[..m.count];
        assert t[i] == s[i - 1] == LiveKey(m, i - 1);
      } else {
        assert t[i] == key;
      }
    }
    assert LiveKeys(r) == t;
  }

  /** The shifted positions still name slots below `keyCount`. */
  lemma InsertWellFormed(m: OrdinalMap, p: nat, r: OrdinalMap, index: nat)
    requires WellFormed(m) && p <= m.count
    requires |r.ordinals| == |r.keys| >= |m.keys| && r.count == m.count + 1 <= |r.ordinals|
    requires m.keyCount <= r.keyCount <= |r.keys| && r.count <= r.keyCount
    requires forall i :: 0 <= i < p ==> r.ordinals[i] == m.ordinals[i]
    requires r.ordinals[p] == index
    requires forall i :: p < i < m.count + 1 ==> r.ordinals[i] == m.ordinals[i - 1]
    requires index < r.keyCount
    requires forall s :: 0 <= s < |r.keys| ==> PS.Valid(r.keys[s])
    ensures WellFormed(r)
  {
    forall i | 0 <= i < r.count
      ensures r.ordinals[i] < r.keyCount
    {
      if i < p {
        assert m.ordinals[i] < m.keyCount;
      } else if i > p {
        assert m.ordinals[i - 1] < m.keyCount;
      }
    }
  }

  /** `Add(key, ordinal)`: takes a slot from the free-map, or else the next
      unused slot `keyCount`, growing to twice the capacity when there is none;
      the key's record goes into that slot and the slot into position `p`.
      Growth copies positions `0..p` and `p..count` (leaving the gap at `p`) and
      all records into fresh memory, and gives it an empty free-map. */
  function Add(m: OrdinalMap, key: Record, p: nat): (r: OrdinalMap)
    requires Valid(m) && PS.ZeroTail(key) && InsertsAt(LiveKeys(m), key, p)
    ensures Valid(r)
    ensures r.count == m.count + 1
    ensures LiveKeys(r) == LiveKeys(m)[..p] + [key] + LiveKeys(m)[p..]
    ensures |r.keys| == if m.trash.count == 0 && m.keyCount == |m.keys| then 2 * |m.keys| else |m.keys|
  {
    var t := TB.TryRestore(m.trash);
    if t.0 then
      var index := t.1;
      var r := OrdinalMap(Shift(m.ordinals, m.count, p, index), m.count + 1, m.keyCount, m.keys[index := key], t.2);
      AddFromTrash(m, key, p, r);
      r
    else
      var index := m.keyCount;
      if index < |m.keys| then
        var r := OrdinalMap(Shift(m.ordinals, m.count, p, index), m.count + 1, index + 1, m.keys[index := key], m.trash);
        AddFresh(m, key, p, r);
        r
      else
        var capacity := 2 * index;
        var ordinals := m.ordinals[..p] + [index] + m.ordinals[p..m.count] + Zeros(capacity - m.count - 1);
        var keys := m.keys + [key] + ZeroRecords(capacity - index - 1);
        var r := OrdinalMap(ordinals, m.count + 1, index + 1, keys, TB.Empty(capacity));
        AddGrown(m, key, p, r);
        r
  }

  /** Where `Add` put the key: the slot `r.ordinals[p]` holds it, the other
      records and the other live positions, shifted past `p`, are as they were,
      and the slot came from the free-map while it had one, otherwise it is slot
      `keyCount`. */
  predicate PlacedAt(m: OrdinalMap, key: Record, p: nat, r: OrdinalMap)
    requires Valid(m) && p <= m.count
  {
    && m.count + 1 == r.count <= |r.ordinals|
    && r.ordinals[p] < |r.keys| && r.keys[r.ordinals[p]] == key
    && r.ordinals[..p] == m.ordinals[..p] && r.ordinals[p + 1..r.count] == m.ordinals[p..m.count]
    && (forall s :: 0 <= s < |m.keys| && s != r.ordinals[p] ==> s < |r.keys| && r.keys[s] == m.keys[s])
    && (m.trash.count > 0 ==> && r.keyCount == m.keyCount
                              && r.ordinals[p] < |m.trash.bits| && m.trash.bits[r.ordinals[p]])
    && (m.trash.count == 0 ==> r.ordinals[p] == m.keyCount && r.keyCount == m.keyCount + 1)
  }

  /** `Add` places the key as `PlacedAt` describes, on each of its three paths. */
  lemma AddSlot(m: OrdinalMap, key: Record, p: nat)
    requires Valid(m) && PS.ZeroTail(key) && InsertsAt(LiveKeys(m), key, p)
    ensures PlacedAt(m, key, p, Add(m, key, p))
  {
    var t := TB.TryRestore(m.trash);
    if t.0 {
      AddSlotFromTrash(m, key, p, Add(m, key, p));
    } else {
      AddSlotFresh(m, key, p, Add(m, key, p));
    }
  }

  lemma AddSlotFromTrash(m: OrdinalMap, key: Record, p: nat, r: OrdinalMap)
    requires Valid(m) && PS.ZeroTail(key) && InsertsAt(LiveKeys(m), key, p)
    requires TB.TryRestore(m.trash).0
    requires var t := TB.TryRestore(m.trash);
             && t.1 < |m.keys| && m.count < |m.ordinals|
             && r == OrdinalMap(Shift(m.ordinals, m.count, p, t.1), m.count + 1, m.keyCount, m.keys[t.1 := key], t.2)
    ensures PlacedAt(m, key, p, r)
  {
    var t := TB.TryRestore(m.trash);
    assert t.1 in TB.FreeSet(m.trash.bits);
    InsertedSlices(r.ordinals, r.count, m.ordinals[..p], t.1, m.ordinals[p..m.count]);
  }

  lemma AddSlotFresh(m: OrdinalMap, key: Record, p: nat, r: OrdinalMap)
    requires Valid(m) && PS.ZeroTail(key) && InsertsAt(LiveKeys(m), key, p)
    requires m.trash.count == 0 && m.count + 1 == r.count <= |r.ordinals| && |m.keys| <= |r.keys|
    requires r.ordinals[..r.count] == m.ordinals[..p] + [m.keyCount] + m.ordinals[p..m.count]
    requires m.keyCount < |r.keys| && r.keys[m.keyCount] == key && r.keyCount == m.keyCount + 1
    requires forall s :: 0 <= s < |m.keys| && s != m.keyCount ==> r.keys[s] == m.keys[s]
    ensures PlacedAt(m, key, p, r)
  {
    InsertedSlices(r.ordinals, r.count, m.ordinals[..p], m.keyCount, m.ordinals[p..m.count]);
  }

  /** A prefix that is `pre`, then `x`, then `post`, read back piece by piece. */
  lemma InsertedSlices(a: seq<nat>, n: nat, pre: seq<nat>, x: nat, post: seq<nat>)
    requires n <= |a| && a[..n] == pre + [x] + post
    ensures a[|pre|] == x && a[..|pre|] == pre && a[|pre| + 1..n] == post
  {
    assert a[..|pre|] == a[..n][..|pre|];
    assert a[|pre| + 1..n] == a[..n][|pre| + 1..];
  }

  lemma AddFromTrash(m: OrdinalMap, key: Record, p: nat, r: OrdinalMap)
    requires Valid(m) && PS.ZeroTail(key) && InsertsAt(LiveKeys(m), key, p)
    requires TB.TryRestore(m.trash).0
    requires var t := TB.TryRestore(m.trash);
             && t.1 < |m.keys| && m.count < |m.ordinals|
             && r == OrdinalMap(Shift(m.ordinals, m.count, p, t.1), m.count + 1, m.keyCount, m.keys[t.1 := key], t.2)
    ensures Valid(r) && LiveKeys(r) == LiveKeys(m)[..p] + [key] + LiveKeys(m)[p..]
  {
    var t := TB.TryRestore(m.trash);
    var index := t.1;
    InsertPreserves(m, key, p, r, index);
    forall s | 0 <= s < |r.trash.bits|
      ensures r.trash.bits[s] <==> s < r.keyCount && s !in r.ordinals[..r.count]
    {
      assert r.trash.bits[s] <==> s in TB.FreeSet(r.trash.bits);
      assert m.trash.bits[s] <==> s in TB.FreeSet(m.trash.bits);
    }
  }

  lemma AddFresh(m: OrdinalMap, key: Record, p: nat, r: OrdinalMap)
    requires Valid(m) && PS.ZeroTail(key) && InsertsAt(LiveKeys(m), key, p)
    requires m.trash.count == 0 && m.keyCount < |m.keys|
    requires r == OrdinalMap(Shift(m.ordinals, m.count, p, m.keyCount), m.count + 1, m.keyCount + 1, m.keys[m.keyCount := key], m.trash)
    ensures Valid(r) && LiveKeys(r) == LiveKeys(m)[..p] + [key] + LiveKeys(m)[p..]
  {
    TB.PopCountZero(m.trash.bits);
    InsertPreserves(m, key, p, r, m.keyCount);
    AllLive(m, r, m.keyCount);
  }

  lemma AddGrown(m: OrdinalMap, key: Record, p: nat, r: OrdinalMap)
    requires Valid(m) && PS.ZeroTail(key) && InsertsAt(LiveKeys(m), key, p)
    requires m.trash.count == 0 && m.keyCount == |m.keys|
    requires r == OrdinalMap(m.ordinals[..p] + [m.keyCount] + m.ordinals[p..m.count] + Zeros(2 * m.keyCount - m.count - 1),
                             m.count + 1, m.keyCount + 1,
                             m.keys + [key] + ZeroRecords(2 * m.keyCount - m.keyCount - 1), TB.Empty(2 * m.keyCount))
    ensures Valid(r) && LiveKeys(r) == LiveKeys(m)[..p] + [key] + LiveKeys(m)[p..]
  {
    TB.PopCountZero(m.trash.bits);
    var c := m.keyCount;
    assert |r.keys| == 2 * c && |r.ordinals| == 2 * c;
    assert r.ordinals[..r.count] == m.ordinals[..p] + [c] + m.ordinals[p..m.count];
    assert r.keys[c] == key;
    assert forall s :: 0 <= s < c ==> r.keys[s] == m.keys[s];
    assert forall s :: 0 <= s < |r.keys| ==> PS.Valid(r.keys[s]) by {
      forall s | 0 <= s < |r.keys|
        ensures PS.Valid(r.keys[s])
      {
        if s < c {
          assert r.keys[s] == m.keys[s];
        } else if s > c {
          assert r.keys[s] == ZeroRecords(2 * c - c - 1)[s - c - 1];
        }
      }
    }
    InsertPreserves(m, key, p, r, c);
    AllLive(m, r, m.keyCount);
  }

  /** With no free slot every slot below `keyCount` is live, and so is the new one. */
  lemma AllLive(m: OrdinalMap, r: OrdinalMap, index: nat)
    requires Valid(m) && m.trash.count == 0 && index == m.keyCount && r.keyCount == index + 1
    requires r.count <= |r.ordinals|
    requires forall s :: s in r.ordinals[..r.count] <==> s == index || s in m.ordinals[..m.count]
    requires forall s :: 0 <= s < |r.trash.bits| ==> !r.trash.bits[s]
    ensures forall s :: 0 <= s < |r.trash.bits| ==>
              (r.trash.bits[s] <==> s < r.keyCount && s !in r.ordinals[..r.count])
  {
    TB.PopCountZero(m.trash.bits);
    forall s | 0 <= s < r.keyCount
      ensures s in r.ordinals[..r.count]
    {
      if s < m.keyCount {
        assert !m.trash.bits[s];
      }
    }
  }

  // ---- removal ----

  lemma SortedRemove(s: seq<Record>, p: nat)
    requires Sorted(s) && p < |s|
    ensures Sorted(s[..p] + s[p + 1..])
  {
    var t := s[..p] + s[p + 1..];
    forall i, j | 0 <= i < j < |t|
      ensures PS.Precedes(t[i], t[j])
    {
      var i' := if i < p then i else i + 1;
      var j' := if j < p then j else j + 1;
      assert t[i] == s[i'] && t[j] == s[j'];
    }
  }

  /** `RemoveWithOrdinal(ordinal)`: frees the slot at position `p` (trimming
      `keyCount` when it is the last slot in use, marking it in the free-map
      otherwise) and moves positions `p + 1..count` down by one. The old last
      live position keeps its value. */
  function RemoveWithOrdinal(m: OrdinalMap, p: nat): (r: OrdinalMap)
    requires Valid(m) && p < m.count
    ensures Valid(r) && r.count == m.count - 1
    ensures LiveKeys(r) == LiveKeys(m)[..p] + LiveKeys(m)[p + 1..]
    ensures r.keys == m.keys && r.ordinals[m.count - 1..] == m.ordinals[m.count - 1..]
    ensures m.ordinals[p] !in r.ordinals[..r.count]
    ensures m.ordinals[p] == m.keyCount - 1 ==> r.keyCount == m.keyCount - 1 && r.trash == m.trash
    ensures m.ordinals[p] != m.keyCount - 1 ==>
              r.keyCount == m.keyCount && r.trash.bits == m.trash.bits[m.ordinals[p] := true]
  {
    var index := m.ordinals[p];
    var ordinals := m.ordinals[..p] + m.ordinals[p + 1..m.count] + m.ordinals[m.count - 1..];
    var r := if index == m.keyCount - 1
             then OrdinalMap(ordinals, m.count - 1, m.keyCount - 1, m.keys, m.trash)
             else OrdinalMap(ordinals, m.count - 1, m.keyCount, m.keys, TB.Set(m.trash, index, true));
    RemovePreserves(m, p, r);
    r
  }

  lemma RemovedPositions(a: seq<nat>, b: seq<nat>, count: nat, p: nat)
    requires p < count <= |a| && count - 1 <= |b|
    requires b[..count - 1] == a[..p] + a[p + 1..count]
    ensures forall i :: 0 <= i < p ==> b[i] == a[i]
    ensures forall i :: p <= i < count - 1 ==> b[i] == a[i + 1]
    ensures a[..count] == a[..p] + [a[p]] + a[p + 1..count]
  {
    forall i | 0 <= i < count - 1
      ensures b[i] == (a[..p] + a[p + 1..count])[i]
    {
      assert b[i] == b[..count - 1][i];
    }
    assert a[..count] == a[..p] + [a[p]] + a[p + 1..count];
  }

  /** In a valid map the slot at position `p` appears at no other live position. */
  lemma LiveWithout(m: OrdinalMap, p: nat)
    requires Valid(m) && p < m.count
    ensures forall x :: x in m.ordinals[..p] + m.ordinals[p + 1..m.count] <==>
                          x in m.ordinals[..m.count] && x != m.ordinals[p]
  {
    var index := m.ordinals[p];
    forall j | 0 <= j < m.count && j != p
      ensures m.ordinals[j] != index
    {
      if j < p { ValidDistinct(m, j, p); } else { ValidDistinct(m, p, j); }
    }
    WithoutPosition(m.ordinals[..m.count], p);
  }

  /** Dropping position `p` of a sequence whose other entries differ from
      `a[p]` removes exactly the value `a[p]`. */
  lemma WithoutPosition(a: seq<nat>, p: nat)
    requires p < |a|
    requires forall j :: 0 <= j < |a| && j != p ==> a[j] != a[p]
    ensures forall x :: x in a[..p] + a[p + 1..] <==> x in a && x != a[p]
  {
    var rest := a[..p] + a[p + 1..];
    assert a == a[..p] + [a[p]] + a[p + 1..];
    forall x | x in rest
      ensures x != a[p]
    {
      var i :| 0 <= i < |rest| && rest[i] == x;
      if i < p { assert rest[i] == a[i]; } else { assert rest[i] == a[i + 1]; }
    }
  }

  lemma RemovePreserves(m: OrdinalMap, p: nat, r: OrdinalMap)
    requires Valid(m) && p < m.count
    requires var index := m.ordinals[p];
             var ordinals := m.ordinals[..p] + m.ordinals[p + 1..m.count] + m.ordinals[m.count - 1..];
             index < |m.trash.bits| &&
             r == if index == m.keyCount - 1
                  then OrdinalMap(ordinals, m.count - 1, m.keyCount - 1, m.keys, m.trash)
                  else OrdinalMap(ordinals, m.count - 1, m.keyCount, m.keys, TB.Set(m.trash, index, true))
    ensures Valid(r) && LiveKeys(r) == LiveKeys(m)[..p] + LiveKeys(m)[p + 1..]
    ensures m.ordinals[p] !in r.ordinals[..r.count]
  {
    var live := r.ordinals[..r.count];
    assert live == m.ordinals[..p] + m.ordinals[p + 1..m.count];
    RemovedPositions(m.ordinals, r.ordinals, m.count, p);
    LiveWithout(m, p);
    RemoveBelowKeyCount(m, p, live, r.keyCount);
    RemoveLiveKeys(m, p, r);
    RemoveTrash(m, p, live, r.keyCount, r.trash);
  }

  /** The slots still live after a removal lie below the new `keyCount`. */
  lemma RemoveBelowKeyCount(m: OrdinalMap, p: nat, live: seq<nat>, keyCount: nat)
    requires Valid(m) && p < m.count
    requires keyCount == if m.ordinals[p] == m.keyCount - 1 then m.keyCount - 1 else m.keyCount
    requires forall x :: x in live <==> x in m.ordinals[..m.count] && x != m.ordinals[p]
    ensures forall x :: x in live ==> x < keyCount
  {
    forall x | x in live
      ensures x < keyCount
    {
      var i :| 0 <= i < m.count && m.ordinals[..m.count][i] == x;
      assert m.ordinals[i] < m.keyCount;
    }
  }

  /** The free-map part of `RemoveWithOrdinal`'s invariant. */
  lemma RemoveTrash(m: OrdinalMap, p: nat, live: seq<nat>, keyCount: nat, trash: TB.TrashBin)
    requires Valid(m) && p < m.count
    requires m.ordinals[p] < |m.trash.bits|
    requires keyCount == if m.ordinals[p] == m.keyCount - 1 then m.keyCount - 1 else m.keyCount
    requires trash == if m.ordinals[p] == m.keyCount - 1 then m.trash else TB.Set(m.trash, m.ordinals[p], true)
    requires forall x :: x in live <==> x in m.ordinals[..m.count] && x != m.ordinals[p]
    requires |live| + 1 == m.count
    ensures TB.Valid(trash) && |trash.bits| == |m.trash.bits|
    ensures forall x :: 0 <= x < |trash.bits| ==> (trash.bits[x] <==> x < keyCount && x !in live)
    ensures |live| + trash.count == keyCount
  {
    var index := m.ordinals[p];
    assert index in m.ordinals[..m.count];
    assert !m.trash.bits[index];
    forall x | 0 <= x < |trash.bits|
      ensures trash.bits[x] <==> x < keyCount && x !in live
    {
      assert m.trash.bits[x] <==> x < m.keyCount && x !in m.ordinals[..m.count];
    }
  }

  lemma RemoveLiveKeys(m: OrdinalMap, p: nat, r: OrdinalMap)
    requires Valid(m) && p < m.count
    requires |r.ordinals| == |m.ordinals| && r.keys == m.keys && r.count == m.count - 1
    requires r.keyCount <= m.keyCount && r.count <= r.keyCount
    requires forall i :: 0 <= i < p ==> r.ordinals[i] == m.ordinals[i]
    requires forall i :: p <= i < m.count - 1 ==> r.ordinals[i] == m.ordinals[i + 1]
    requires forall x :: x in r.ordinals[..r.count] ==> x < r.keyCount
    ensures WellFormed(r)
    ensures LiveKeys(r) == LiveKeys(m)[..p] + LiveKeys(m)[p + 1..]
    ensures forall i :: 0 <= i < r.count ==> PS.ZeroTail(LiveKey(r, i))
    ensures Sorted(LiveKeys(r))
  {
    forall i | 0 <= i < r.count
      ensures r.ordinals[i] < r.keyCount
    {
      assert r.ordinals[i] in r.ordinals[..r.count];
    }
    assert WellFormed(r);
    var s := LiveKeys(m);
    forall i | 0 <= i < r.count
      ensures LiveKey(r, i) == (s[..p] + s[p + 1..])[i]
      ensures PS.ZeroTail(LiveKey(r, i))
    {
      if i < p {
        assert LiveKey(r, i) == LiveKey(m, i);
      } else {
        assert LiveKey(r, i) == LiveKey(m, i + 1);
      }
    }
    assert LiveKeys(r) == s[..p] + s[p + 1..];
    SortedRemove(s, p);
  }

  /** Removing one element of a sorted sequence removes exactly that element. */
  lemma SetOfRemove(s: seq<Record>, p: nat)
    requires Sorted(s) && p < |s|
    ensures Elements(s[..p] + s[p + 1..]) == Elements(s) - {s[p]}
  {
    var t := s[..p] + s[p + 1..];
    forall k | k in t
      ensures k in s && k != s[p]
    {
      var i :| 0 <= i < |t| && t[i] == k;
      RemovedElement(s, p, i);
    }
    forall k | k in s && k != s[p]
      ensures k in t
    {
      var i :| 0 <= i < |s| && s[i] == k;
      if i < p { assert t[i] == k; } else { assert t[i - 1] == k; }
    }
  }

  /** Element `i` left after removing position `p` of a sorted sequence is
      an element other than `s[p]`. */
  lemma RemovedElement(s: seq<Record>, p: nat, i: nat)
    requires Sorted(s) && p < |s| && i < |s| - 1
    ensures (s[..p] + s[p + 1..])[i] in s && (s[..p] + s[p + 1..])[i] != s[p]
  {
    var i' := if i < p then i else i + 1;
    assert (s[..p] + s[p + 1..])[i] == s[i'];
    if i' < p { assert PS.Precedes(s[i'], s[p]); } else { assert PS.Precedes(s[p], s[i']); }
    PS.PrecedesTotal(s[p], s[p]);
  }

  /** Removing position `p` removes exactly its record from the key set. */
  lemma KeySetRemove(m: OrdinalMap, p: nat)
    requires Valid(m) && p < m.count
    ensures KeySet(RemoveWithOrdinal(m, p)) == KeySet(m) - {LiveKey(m, p)}
  {
    SetOfRemove(LiveKeys(m), p);
  }

  // ---- entry points ----

  /** The record of an accepted name. */
  function Encoded(name: Name): (r: Record)
    requires EncodeKey(name).Ok?
    ensures PS.ZeroTail(r)
  {
    EncodeKey(name).value.record
  }

  /** `TryGetIndex(name, out index)`: the slot holding the name's key, or
      `uint.MaxValue` with `false` when the name is rejected or absent. */
  function TryGetIndex(m: OrdinalMap, name: Name): (r: (bool, nat))
    requires Valid(m)
    ensures r.0 <==> EncodeKey(name).Ok? && Encoded(name) in KeySet(m)
    ensures r.0 ==> r.1 < m.keyCount && r.1 in m.ordinals[..m.count] && m.keys[r.1] == Encoded(name)
    ensures !r.0 ==> r.1 == MaxU32
  {
    match EncodeKey(name)
    case Err(_) => (false, MaxU32)
    case Ok(key) =>
      LookupSpec(m, key.record);
      var ordinal := Lookup(m, key.record);
      if ordinal >= 0 then
        assert m.ordinals[ordinal] in m.ordinals[..m.count];
        (true, m.ordinals[ordinal])
      else (false, MaxU32)
  }

  /** `Contains(name)`. */
  function Contains(m: OrdinalMap, name: Name): (r: bool)
    requires Valid(m)
    ensures r <==> EncodeKey(name).Ok? && Encoded(name) in KeySet(m)
  {
    match EncodeKey(name)
    case Err(_) => false
    case Ok(key) =>
      LookupSpec(m, key.record);
      Lookup(m, key.record) >= 0
  }

  /** The indexer's getter: the slot of the name's key, inserting the key at its
      sorted position first when it is absent. */
  function Get(m: OrdinalMap, name: Name): (r: Result<(nat, OrdinalMap)>)
    requires Valid(m)
    ensures EncodeKey(name).Err? ==> r == Err(EncodeKey(name).error)
    ensures r.Ok? ==> EncodeKey(name).Ok? && Valid(r.value.1)
  {
    match EncodeKey(name)
    case Err(e) => Err(e)
    case Ok(key) =>
      var q := key.record;
      LookupSpec(m, q);
      var ordinal := Lookup(m, q);
      if ordinal >= 0 then
        Ok((m.ordinals[ordinal], m))
      else
        var p := Complement(ordinal);
        GetAbsent(m, q, p);
        var m' := Add(m, q, p);
        Ok((m'.ordinals[p], m'))
  }

  /** What the getter returns: the key is present afterwards and the returned
      slot holds it; a present key leaves the map alone, an absent one is
      inserted at its sorted position. */
  lemma GetSpec(m: OrdinalMap, name: Name)
    requires Valid(m) && EncodeKey(name).Ok?
    ensures var r := Get(m, name);
            && r.Ok? && KeySet(r.value.1) == KeySet(m) + {Encoded(name)}
            && Lookup(r.value.1, Encoded(name)) >= 0
            && r.value.1.ordinals[Lookup(r.value.1, Encoded(name))] == r.value.0
            && r.value.1.keys[r.value.0] == Encoded(name)
    ensures Encoded(name) in KeySet(m) ==> Get(m, name).value.1 == m
    ensures Encoded(name) !in KeySet(m) ==>
              var p := Complement(Lookup(m, Encoded(name)));
              var m' := Get(m, name).value.1;
              && m'.count == m.count + 1
              && LiveKeys(m') == LiveKeys(m)[..p] + [Encoded(name)] + LiveKeys(m)[p..]
  {
    var q := Encoded(name);
    LookupSpec(m, q);
    if Lookup(m, q) < 0 {
      GetAbsent(m, q, Complement(Lookup(m, q)));
    }
  }

  /** The insertion path of the getter: the key lands at position `p`. */
  lemma GetAbsent(m: OrdinalMap, q: Record, p: nat)
    requires Valid(m) && PS.ZeroTail(q) && Lookup(m, q) < 0 && p == Complement(Lookup(m, q))
    ensures InsertsAt(LiveKeys(m), q, p)
    ensures var m' := Add(m, q, p);
            && Valid(m') && KeySet(m') == KeySet(m) + {q}
            && Lookup(m', q) == p && m'.keys[m'.ordinals[p]] == q
            && m'.count == m.count + 1 && LiveKeys(m') == LiveKeys(m)[..p] + [q] + LiveKeys(m)[p..]
  {
    LookupSpec(m, q);
    AddFinds(m, q, p, Add(m, q, p));
  }

  lemma AddFinds(m: OrdinalMap, q: Record, p: nat, m': OrdinalMap)
    requires Valid(m) && PS.ZeroTail(q) && InsertsAt(LiveKeys(m), q, p)
    requires Valid(m') && LiveKeys(m') == LiveKeys(m)[..p] + [q] + LiveKeys(m)[p..]
    ensures Lookup(m', q) == p
    ensures KeySet(m') == KeySet(m) + {q}
  {
    InsertedFound(LiveKeys(m), q, p, LiveKeys(m'));
    assert LiveKey(m', p) == q;
  }

  /** A record spliced into a sorted sequence at `p` is found at `p`, and adds
      itself to the elements. */
  lemma InsertedFound(s: seq<Record>, q: Record, p: nat, t: seq<Record>)
    requires Sorted(t) && PS.Valid(q) && p <= |s|
    requires t == s[..p] + [q] + s[p..]
    ensures |t| == |s| + 1 && t[p] == q
    ensures InsertionPoint(t, q, 0) == p
    ensures Elements(t) == Elements(s) + {q}
  {
    assert t[p] == q;
    if p > 0 {
      assert PS.Precedes(t[p - 1], t[p]);
    }
    PS.PrecedesTotal(q, q);
    InsertionPointUnique(t, q, p);
    InsertedElements(s, q, p, t);
  }

  lemma InsertedElements(s: seq<Record>, q: Record, p: nat, t: seq<Record>)
    requires p <= |s| && t == s[..p] + [q] + s[p..]
    ensures Elements(t) == Elements(s) + {q}
  {
    assert s == s[..p] + s[p..];
    assert forall k :: k in t <==> k in s || k == q;
  }

  /** The round trip: once the indexer returns a slot for a name, `TryGetIndex`
      returns that slot and `Contains` holds. */
  lemma GetThenTryGetIndex(m: OrdinalMap, name: Name)
    requires Valid(m) && Get(m, name).Ok?
    ensures TryGetIndex(Get(m, name).value.1, name) == (true, Get(m, name).value.0)
    ensures Contains(Get(m, name).value.1, name)
  {
    GetSpec(m, name);
  }

  /** `RemoveWithKey(key)`. */
  function RemoveWithKey(m: OrdinalMap, name: Name): (r: (bool, OrdinalMap))
    requires Valid(m)
    ensures Valid(r.1)
    ensures r.0 <==> EncodeKey(name).Ok? && Encoded(name) in KeySet(m)
    ensures r.0 ==> KeySet(r.1) == KeySet(m) - {Encoded(name)} && r.1.count == m.count - 1
    ensures !r.0 ==> r.1 == m
  {
    match EncodeKey(name)
    case Err(_) => (false, m)
    case Ok(key) =>
      LookupSpec(m, key.record);
      var ordinal := Lookup(m, key.record);
      if ordinal < 0 then (false, m)
      else
        KeySetRemove(m, ordinal);
        (true, RemoveWithOrdinal(m, ordinal))
  }

  /** After a successful removal the name is no longer found. */
  lemma RemoveThenContains(m: OrdinalMap, name: Name)
    requires Valid(m) && RemoveWithKey(m, name).0
    ensures !Contains(RemoveWithKey(m, name).1, name)
    ensures TryGetIndex(RemoveWithKey(m, name).1, name) == (false, MaxU32)
  {
  }

  /** The first position in `i..len` holding `index`. */
  function FindPosition(ordinals: seq<nat>, index: nat, i: nat, len: nat): (r: (nat, bool))
    requires i <= len <= |ordinals|
    ensures r.1 <==> index in ordinals[i..len]
    ensures r.1 ==> i <= r.0 < len && ordinals[r.0] == index && index !in ordinals[i..r.0]
    ensures !r.1 ==> r.0 == MaxU32
    decreases len - i
  {
    if i == len then (MaxU32, false)
    else if ordinals[i] == index then (i, true)
    else
      assert ordinals[i..len] == [ordinals[i]] + ordinals[i + 1..len];
      var r := FindPosition(ordinals, index, i + 1, len);
      assert r.1 ==> ordinals[i..r.0] == [ordinals[i]] + ordinals[i + 1..r.0];
      r
  }

  /** `AcquireOrdinal(index, out exists)` as written: it scans `keyCount`
      positions, so it also looks at stale positions at and after `count`. */
  function AcquireOrdinalAsWritten(m: OrdinalMap, index: nat): (r: (nat, bool))
    requires WellFormed(m)
    ensures r.1 <==> index < m.keyCount && index in m.ordinals[..m.keyCount]
    ensures r.1 ==> r.0 < m.keyCount && m.ordinals[r.0] == index && index !in m.ordinals[..r.0]
  {
    if index >= m.keyCount then (MaxU32, false)
    else FindPosition(m.ordinals, index, 0, m.keyCount)
  }

  /** `AcquireOrdinal` scanning only the live positions. */
  function AcquireOrdinal(m: OrdinalMap, index: nat): (r: (nat, bool))
    requires WellFormed(m)
    ensures r.1 <==> index in m.ordinals[..m.count]
    ensures r.1 ==> r.0 < m.count && m.ordinals[r.0] == index && index !in m.ordinals[..r.0]
    ensures !r.1 ==> r.0 == MaxU32
  {
    if index >= m.keyCount then
      assert index !in m.ordinals[..m.count];
      (MaxU32, false)
    else FindPosition(m.ordinals, index, 0, m.count)
  }

  /** `RemoveWithIndex(index)`: removes the key in slot `index` when some live
      position refers to it. */
  function RemoveWithIndex(m: OrdinalMap, index: nat): (r: (bool, OrdinalMap))
    requires Valid(m)
    ensures Valid(r.1)
    ensures r.0 <==> index in m.ordinals[..m.count]
    ensures index >= m.keyCount ==> !r.0
    ensures r.0 ==> && KeySet(r.1) == KeySet(m) - {m.keys[index]} && r.1.count == m.count - 1
                    && index !in r.1.ordinals[..r.1.count]
    ensures !r.0 ==> r.1 == m
  {
    var (p, exists_) := AcquireOrdinal(m, index);
    if exists_ then
      KeySetRemove(m, p);
      (true, RemoveWithOrdinal(m, p))
    else (false, m)
  }

  /** The number of entries `RemoveWithOrdinal(p)` moves down: `last - p` with
      `last = --count`, both in `uint` arithmetic. */
  function MoveCountAsWritten(count: nat, p: nat): int {
    (count - 1 - p) % UintRange
  }

  /** `RemoveWithIndex(index)` as written, over `AcquireOrdinalAsWritten`. A slot
      found at a live position is removed as the corrected member removes it. A
      slot found only at a stale position `p >= count` sends `p` to
      `RemoveWithOrdinal`, whose move count `last - p` wraps to at least
      `2^32 - keyCount`: a block copy far past the allocation, modelled as `None`. */
  function RemoveWithIndexAsWritten(m: OrdinalMap, index: nat): (r: (bool, Option<OrdinalMap>))
    requires Valid(m)
    ensures r.0 <==> index < m.keyCount && index in m.ordinals[..m.keyCount]
    ensures index in m.ordinals[..m.count] ==> r == (true, Some(RemoveWithIndex(m, index).1))
    ensures r.0 && index !in m.ordinals[..m.count] ==>
              && r.1 == None
              && var p := AcquireOrdinalAsWritten(m, index).0;
                 m.count <= p && MoveCountAsWritten(m.count, p) >= UintRange - m.keyCount
    ensures !r.0 ==> r.1 == Some(m)
  {
    var (p, exists_) := AcquireOrdinalAsWritten(m, index);
    if !exists_ then (false, Some(m))
    else if p < m.count then
      FirstPositionsAgree(m, index, p, AcquireOrdinal(m, index).0);
      (true, Some(RemoveWithOrdinal(m, p)))
    else
      assert index !in m.ordinals[..m.count] by {
        assert m.ordinals[..m.count] == m.ordinals[..p][..m.count];
      }
      WrappedBelowZero(m.count - 1 - p);
      (true, None)
  }

  /** Two first occurrences of the same slot are the same position. */
  lemma FirstPositionsAgree(m: OrdinalMap, index: nat, p: nat, q: nat)
    requires p < |m.ordinals| && q < |m.ordinals|
    requires m.ordinals[p] == index && index !in m.ordinals[..p]
    requires m.ordinals[q] == index && index !in m.ordinals[..q]
    ensures p == q
  {
  }

  /** A negative value of at most 2^32 in magnitude wraps to itself plus 2^32. */
  lemma WrappedBelowZero(x: int)
    ensures -(UintRange as int) <= x < 0 ==> x % UintRange == x + UintRange
  {
  }

  /** Keys "c", "b" and "a" inserted into a map of capacity 4 take slots 0, 1 and
      2 at positions 2, 1 and 0; removing "c" frees slot 0 and leaves position 2,
      now stale, still holding 0. As written, `AcquireOrdinal(0)` then finds that
      stale position, so `RemoveWithIndex(0)` reports a removed key as present and
      goes on to remove position 2, past `Count`. */
  lemma AcquireOrdinalAsWrittenFindsStale()
    ensures var m := StaleExample();
            && Valid(m) && 0 !in m.ordinals[..m.count]
            && AcquireOrdinalAsWritten(m, 0) == (2, true) && 2 >= m.count
            && AcquireOrdinal(m, 0) == (MaxU32, false)
            && !RemoveWithIndex(m, 0).0
            && RemoveWithIndexAsWritten(m, 0) == (true, None) && MoveCountAsWritten(m.count, 2) == MaxU32
  {
    var m := StaleExample();
    StaleExampleValid();
    assert m.ordinals[..m.count] == [2, 1];
    assert m.ordinals[..m.keyCount] == [2, 1, 0];
    assert m.ordinals[0..2] == [2, 1];
    assert FindPosition(m.ordinals, 0, 0, m.keyCount) == (2, true);
  }

  function StaleExample(): OrdinalMap {
    OrdinalMap([2, 1, 0, 0], 2, 3,
               [PS.Make([99]), PS.Make([98]), PS.Make([97]), PS.PascalString(seq(PS.ByteSize, _ => 0))],
               TB.Set(TB.Empty(4), 0, true))
  }

  lemma StaleExampleValid()
    ensures Valid(StaleExample())
  {
    StaleExampleShape();
    StaleExampleTrash();
    StaleExamplePrecedes();
    ValidPair(StaleExample(), PS.Make([97]), PS.Make([98]));
  }

  /** A map with two live records in order, whose free-map agrees with it. */
  lemma ValidPair(m: OrdinalMap, a: Record, b: Record)
    requires WellFormed(m) && LiveKeys(m) == [a, b] && PS.ZeroTail(a) && PS.ZeroTail(b) && PS.Precedes(a, b)
    requires TB.Valid(m.trash) && |m.trash.bits| == TB.BinBits(|m.keys|)
    requires forall x :: 0 <= x < |m.trash.bits| ==> (m.trash.bits[x] <==> x < m.keyCount && x !in m.ordinals[..m.count])
    requires m.count + m.trash.count == m.keyCount
    ensures Valid(m)
  {
    assert LiveKey(m, 0) == a && LiveKey(m, 1) == b;
  }

  lemma StaleExampleShape()
    ensures WellFormed(StaleExample())
    ensures LiveKeys(StaleExample()) == [PS.Make([97]), PS.Make([98])]
  {
    var m := StaleExample();
    var z := PS.PascalString(seq(PS.ByteSize, _ => 0));
    assert PS.Valid(z);
    assert forall s :: 0 <= s < |m.keys| ==> PS.Valid(m.keys[s]);
    assert WellFormed(m);
    assert LiveKey(m, 0) == PS.Make([97]) && LiveKey(m, 1) == PS.Make([98]);
  }

  lemma StaleExampleTrash()
    ensures var m := StaleExample();
            && TB.Valid(m.trash) && |m.trash.bits| == TB.BinBits(|m.keys|) && m.trash.count == 1
            && forall x :: 0 <= x < |m.trash.bits| ==>
                 (m.trash.bits[x] <==> x < m.keyCount && x !in m.ordinals[..m.count])
  {
    var m := StaleExample();
    var t := m.trash;
    var e := TB.Empty(4);
    assert !e.bits[0];
    assert t.bits == e.bits[0 := true] && t.count == 1;
    assert m.ordinals[..m.count] == [2, 1];
    forall x | 0 <= x < |t.bits|
      ensures t.bits[x] <==> x < m.keyCount && x !in m.ordinals[..m.count]
    {
      if x != 0 {
        assert !e.bits[x];
      }
    }
  }

  lemma StaleExamplePrecedes()
    ensures PS.Precedes(PS.Make([97]), PS.Make([98]))
  {
    var a := PS.Make([97]);
    var b := PS.Make([98]);
    assert PS.Span(a)[0] == 97 && PS.Span(b)[0] == 98;
    PS.PrecedesByByte(a, b, 1);
  }

  /** `Clear(eraseValues)`: no live position and no slot in use, and an empty
      free-map; the records stay in memory. `eraseValues` is not used. */
  function Clear(m: OrdinalMap): (r: OrdinalMap)
    requires Valid(m)
    ensures Valid(r) && r.count == 0 && r.keyCount == 0 && KeySet(r) == {}
    ensures r.trash == TB.Empty(|m.keys|) && r.keys == m.keys && r.ordinals == m.ordinals
  {
    var trash := if m.trash.count != 0 then TB.Clear(m.trash, TB.BytesFor(|m.keys|)) else m.trash;
    ClearedTrash(m);
    OrdinalMap(m.ordinals, 0, 0, m.keys, trash)
  }

  lemma ClearedTrash(m: OrdinalMap)
    requires Valid(m)
    ensures (if m.trash.count != 0 then TB.Clear(m.trash, TB.BytesFor(|m.keys|)) else m.trash) == TB.Empty(|m.keys|)
  {
    if m.trash.count != 0 {
      TB.ClearBytesFor(m.trash, |m.keys|);
    } else {
      TB.PopCountZero(m.trash.bits);
      assert m.trash.bits == TB.Empty(|m.keys|).bits;
    }
  }

  /** `new PascalOrdinalMap(capacity)`. The fresh block's free-map is cleared,
      which yields the empty bitmap whatever the memory held. */
  function New(capacity: int): (r: Result<OrdinalMap>)
    ensures r.Err? <==> capacity < MinCapacity || capacity > MaxCapacity
    ensures r.Err? ==> r.error == ArgumentOutOfRange
    ensures r.Ok? ==> && Valid(r.value) && r.value.count == 0 && r.value.keyCount == 0
                      && |r.value.keys| == capacity && r.value.trash == TB.Empty(capacity)
                      && KeySet(r.value) == {}
  {
    if capacity < MinCapacity || capacity > MaxCapacity then Err(ArgumentOutOfRange)
    else Ok(OrdinalMap(Zeros(capacity), 0, 0, ZeroRecords(capacity), TB.Empty(capacity)))
  }

  /** The `IEnumerable` enumerator: the key content and slot of every live
      position, in sorted-position order. */
  function Enumerate(m: OrdinalMap): (r: seq<(seq<PS.byte>, nat)>)
    requires Valid(m)
    ensures |r| == m.count
    ensures forall i :: 0 <= i < |r| ==> r[i].1 == m.ordinals[i] && PS.FromBytes(r[i].0) == LiveKey(m, i)
    ensures forall i, j :: 0 <= i < j < |r| ==> r[i].1 != r[j].1
  {
    var r := seq(m.count, i requires 0 <= i < m.count => (PS.Span(LiveKey(m, i)), m.ordinals[i]));
    forall i | 0 <= i < |r|
      ensures PS.FromBytes(r[i].0) == LiveKey(m, i)
    {
      PS.FromBytesSpan(LiveKey(m, i));
    }
    forall i, j | 0 <= i < j < |r|
      ensures r[i].1 != r[j].1
    {
      ValidDistinct(m, i, j);
    }
    r
  }

  /** `Next` of the struct iterator: it reports whether `Count` exceeds the
      cursor it found, and stores that cursor plus one in `Iteration.Cursor`. */
  function Next(count: nat, cursor: nat): (bool, nat) {
    (count > cursor, cursor + 1)
  }

  /** The positions a `foreach` over the struct iterator reads from `cursor` on,
      as written: after each successful `Next`, `Select` reads position
      `Iteration.Cursor`, the cursor `Next` stored. */
  function YieldedAsWritten(count: nat, cursor: nat): seq<nat>
    decreases count - cursor
  {
    var (more, stored) := Next(count, cursor);
    if more then [stored] + YieldedAsWritten(count, stored) else []
  }

  /** The same loop with `Select` reading the cursor `Next` tested, `Cursor - 1`. */
  function Yielded(count: nat, cursor: nat): seq<nat>
    decreases count - cursor
  {
    var (more, stored) := Next(count, cursor);
    if more then [stored - 1] + Yielded(count, stored) else []
  }

  /** As written, the iteration from `cursor` reads positions `cursor + 1..count`. */
  lemma {:induction false} YieldedAsWrittenPositions(count: nat, cursor: nat)
    requires cursor <= count
    ensures |YieldedAsWritten(count, cursor)| == count - cursor
    ensures forall i :: 0 <= i < count - cursor ==> YieldedAsWritten(count, cursor)[i] == cursor + i + 1
    decreases count - cursor
  {
    if cursor < count {
      YieldedAsWrittenPositions(count, cursor + 1);
    }
  }

  /** Corrected, the iteration from `cursor` reads positions `cursor..count - 1`. */
  lemma {:induction false} YieldedPositions(count: nat, cursor: nat)
    requires cursor <= count
    ensures |Yielded(count, cursor)| == count - cursor
    ensures forall i :: 0 <= i < count - cursor ==> Yielded(count, cursor)[i] == cursor + i
    decreases count - cursor
  {
    if cursor < count {
      YieldedPositions(count, cursor + 1);
    }
  }

  /** `GetEnumerator` starts from cursor 0 (an empty map gets the default
      iterator, which yields nothing). As written the struct enumerator never
      reads position 0 and its last read is position `Count`, which holds no
      live ordinal; corrected, it reads exactly the slots `Enumerate` yields. */
  lemma IteratorAsWrittenSkipsFirst(m: OrdinalMap)
    requires Valid(m)
    ensures |YieldedAsWritten(m.count, 0)| == m.count && 0 !in YieldedAsWritten(m.count, 0)
    ensures m.count > 0 ==> YieldedAsWritten(m.count, 0)[m.count - 1] == m.count
    ensures |Yielded(m.count, 0)| == m.count && forall i :: 0 <= i < m.count ==> Yielded(m.count, 0)[i] == i
    ensures forall i :: 0 <= i < m.count ==> Enumerate(m)[i].1 == m.ordinals[Yielded(m.count, 0)[i]]
  {
    YieldedAsWrittenPositions(m.count, 0);
    YieldedPositions(m.count, 0);
  }

  // ---- layout ----

  const UintRange: nat := MaxU32 + 1

  /** `_trashByteStart = (capacity * (IntLength + 1U)) << 2` in `uint` arithmetic. */
  function TrashByteStartAsWritten(capacity: nat): nat {
    (capacity * (IntLength + 1)) % UintRange * 4 % UintRange
  }

  /** The allocation size as written: the `uint` sum with `BytesFor(capacity)`. */
  function AllocationAsWritten(capacity: nat): nat {
    (TrashByteStartAsWritten(capacity) + TB.BytesFor(capacity)) % UintRange
  }

  /** The free-map starts after the ordinals and the records. */
  function TrashByteStart(capacity: nat): (r: nat)
    ensures r == 4 * capacity + PS.ByteSize * capacity
  {
    capacity * (IntLength + 1) * 4
  }

  /** The block size: ordinals, records and the free-map. */
  function Allocation(capacity: nat): (r: nat)
    ensures r == TrashByteStart(capacity) + TB.BytesFor(capacity)
    ensures r >= 4 * capacity + PS.ByteSize * capacity + 4 + TB.BinBits(capacity) / 8
  {
    TrashByteStart(capacity) + TB.BytesFor(capacity)
  }

  /** The two computations agree as long as nothing wraps. */
  lemma AllocationAsWrittenNoWrap(capacity: nat)
    requires Allocation(capacity) < UintRange
    ensures AllocationAsWritten(capacity) == Allocation(capacity)
    ensures TrashByteStartAsWritten(capacity) == TrashByteStart(capacity)
  {
    var ints := capacity * (IntLength + 1);
    assert ints * 4 == TrashByteStart(capacity) < UintRange;
    Unwrapped(ints);
    Unwrapped(ints * 4);
    Unwrapped(ints * 4 + TB.BytesFor(capacity));
  }

  /** A value below 2^32 is its own `uint` image. */
  lemma Unwrapped(x: nat)
    requires x < UintRange
    ensures x % UintRange == x
  {
  }

  /** At the largest accepted capacity the `uint` arithmetic wraps and the block
      allocated is smaller than the ordinals and records alone. */
  lemma AllocationAsWrittenWraps()
    ensures AllocationAsWritten(MaxCapacity) == 134217472
    ensures AllocationAsWritten(MaxCapacity) < TrashByteStart(MaxCapacity)
  {
    assert MaxCapacity == 0x3FFF_FFFF;
    assert MaxCapacity * (IntLength + 1) == 69793218495;
    assert 69793218495 % UintRange == 1073741759;
    assert 1073741759 * 4 % UintRange == 4294967036;
    assert TB.BytesFor(MaxCapacity) == 134217732;
    assert (4294967036 + 134217732) % UintRange == 134217472;
  }

  /** Growth from a full block of `n` slots allocates `AllocationAsWritten(2 * n)`,
      the same `uint` arithmetic as the constructor. From 2^24 slots, a capacity
      the constructor accepts, the doubled block's size wraps below the start
      of its own free-map; the model's growth (`AddGrown`) doubles exactly. */
  lemma GrowthAllocationAsWrittenWraps()
    ensures 0x100_0000 <= MaxCapacity
    ensures AllocationAsWritten(2 * 0x100_0000) == 138412036
    ensures AllocationAsWritten(2 * 0x100_0000) < TrashByteStart(2 * 0x100_0000)
  {
    assert (2 * 0x100_0000) * (IntLength + 1) == 2181038080;
    Unwrapped(2181038080);
    assert 2181038080 * 4 % UintRange == 134217728;
    assert TB.BytesFor(2 * 0x100_0000) == 4194308;
    Unwrapped(134217728 + 4194308);
  }
}

=== FILE: pascal_string.dfy ===
/** The 256-byte length-prefixed record of src/PascalString.cs: byte 0 is the
    content length (at most 255), bytes `1..Length` the UTF-8 content, and the
    record read as 32 little-endian `ulong` words is what comparisons look at. */
module PascalString {
  import opened Outcomes
  import LittleEndian

  type byte = LittleEndian.byte

  const ByteSize: nat := 256
  const MaxLength: nat := ByteSize - 1
  const LongSize: nat := ByteSize / 8

  datatype PascalString = PascalString(bytes: seq<byte>)

  predicate Valid(p: PascalString) {
    |p.bytes| == ByteSize
  }

  /** Every byte after the content is zero, as the constructors leave it. */
  predicate ZeroTail(p: PascalString) {
    Valid(p) && forall k :: p.bytes[0] < k < ByteSize ==> p.bytes[k] == 0
  }

  /** `Length`: byte 0. */
  function Length(p: PascalString): (r: nat)
    requires Valid(p)
    ensures r <= MaxLength
  {
    p.bytes[0]
  }

  /** `Span`: the `Length` bytes after the length byte. */
  function Span(p: PascalString): (r: seq<byte>)
    requires Valid(p)
    ensures |r| == Length(p)
    ensures forall k :: 0 <= k < |r| ==> r[k] == p.bytes[k + 1]
  {
    p.bytes[1..1 + Length(p)]
  }

  /** The indexer `this[index & 0xff]`: in two's complement `index & 0xff` is the
      non-negative remainder of `index` by 256, so any `int` reads inside the record. */
  function At(p: PascalString, index: int): (r: byte)
    requires Valid(p)
    ensures 0 <= index < ByteSize ==> r == p.bytes[index]
    ensures index % ByteSize == 0 ==> r == Length(p)
  {
    p.bytes[index % ByteSize]
  }

  /** Indices that differ by 256 read the same byte, negative ones included. */
  lemma AtWraps(p: PascalString, index: int)
    requires Valid(p)
    ensures At(p, index) == At(p, index + ByteSize) == At(p, index - ByteSize)
    ensures index < 0 ==> At(p, index) == p.bytes[index + ByteSize * (1 + (-index - 1) / ByteSize)]
  {
  }

  /** The record holding exactly `content` (at most 255 bytes), zero after it. */
  function Make(content: seq<byte>): (r: PascalString)
    requires |content| <= MaxLength
    ensures ZeroTail(r) && Length(r) == |content| && Span(r) == content
  {
    var r := PascalString(seq(ByteSize, k requires 0 <= k < ByteSize =>
                                if k == 0 then |content| else if k <= |content| then content[k - 1] else 0));
    assert Span(r) == content;
    r
  }

  /** `new PascalString(ReadOnlySpan<byte> utf8)`: truncates to 255 bytes. */
  function FromBytes(utf8: seq<byte>): (r: PascalString)
    ensures ZeroTail(r)
    ensures Length(r) == if |utf8| > MaxLength then MaxLength else |utf8|
    ensures Span(r) == utf8[..Length(r)]
  {
    Make(if |utf8| > MaxLength then utf8[..MaxLength] else utf8)
  }

  /** A record is determined by its span when its tail is zero. */
  lemma FromBytesSpan(p: PascalString)
    requires ZeroTail(p)
    ensures FromBytes(Span(p)) == p
  {
    var q := FromBytes(Span(p));
    assert forall k :: 0 <= k < ByteSize ==> q.bytes[k] == p.bytes[k] by {
      forall k | 0 <= k < ByteSize
        ensures q.bytes[k] == p.bytes[k]
      {
        if 1 <= k <= Length(p) {
          assert q.bytes[k] == Span(q)[k - 1];
        }
      }
    }
  }

  /** Word `i` of the record, little-endian. */
  function Word(p: PascalString, i: nat): (r: nat)
    requires Valid(p) && i < LongSize
    ensures r < 0x1_0000_0000_0000_0000
  {
    var w := p.bytes[8 * i .. 8 * i + 8];
    LittleEndian.ValueBound(w);
    LittleEndian.Value(w)
  }

  /** Words `i..n` compared in order as `ulong.CompareTo` does: the first unequal
      word decides, `0` if there is none. */
  function CompareWords(a: PascalString, b: PascalString, i: nat, n: nat): (r: int)
    requires Valid(a) && Valid(b) && i <= n <= LongSize
    ensures -1 <= r <= 1
    decreases n - i
  {
    if i == n then 0
    else if Word(a, i) > Word(b, i) then 1
    else if Word(a, i) < Word(b, i) then -1
    else CompareWords(a, b, i + 1, n)
  }

  /** `CompareTo`: the length difference when lengths differ, otherwise the word comparison. */
  function CompareTo(a: PascalString, b: PascalString): (r: int)
    requires Valid(a) && Valid(b)
    ensures Length(a) != Length(b) ==> r == Length(a) - Length(b)
    ensures Length(a) == Length(b) ==> -1 <= r <= 1
    ensures r == 0 <==> a == b
  {
    var r := Length(a) - Length(b);
    if r != 0 then r
    else
      CompareWordsEqual(a, b);
      CompareWords(a, b, 0, LongSize)
  }

  /** `CompareTo` is antisymmetric. */
  lemma CompareToAntisymmetric(a: PascalString, b: PascalString)
    requires Valid(a) && Valid(b)
    ensures CompareTo(a, b) == -CompareTo(b, a)
  {
    CompareWordsAntisymmetric(a, b, 0, LongSize);
  }

  /** `CompareTo` orders records transitively. */
  lemma CompareToTransitive(a: PascalString, b: PascalString, c: PascalString)
    requires Valid(a) && Valid(b) && Valid(c)
    requires CompareTo(a, b) < 0 && CompareTo(b, c) < 0
    ensures CompareTo(a, c) < 0
  {
    if Length(a) == Length(b) == Length(c) {
      CompareWordsTransitive(a, b, c, 0, LongSize);
    }
  }

  /** `CompareTo` returns the sign of the first unequal word when lengths agree. */
  lemma CompareToFirstWord(a: PascalString, b: PascalString, i: nat)
    requires Valid(a) && Valid(b) && Length(a) == Length(b) && i < LongSize
    requires forall j :: 0 <= j < i ==> Word(a, j) == Word(b, j)
    requires Word(a, i) != Word(b, i)
    ensures CompareTo(a, b) == if Word(a, i) < Word(b, i) then -1 else 1
  {
    CompareWordsFirst(a, b, 0, i, LongSize);
  }

  lemma {:induction false} CompareWordsFirst(a: PascalString, b: PascalString, i: nat, k: nat, n: nat)
    requires Valid(a) && Valid(b) && i <= k < n <= LongSize
    requires forall j :: i <= j < k ==> Word(a, j) == Word(b, j)
    requires Word(a, k) != Word(b, k)
    ensures CompareWords(a, b, i, n) == if Word(a, k) < Word(b, k) then -1 else 1
    decreases k - i
  {
    if i < k {
      CompareWordsFirst(a, b, i + 1, k, n);
    }
  }

  lemma {:induction false} CompareWordsZero(a: PascalString, b: PascalString, i: nat, n: nat)
    requires Valid(a) && Valid(b) && i <= n <= LongSize
    ensures CompareWords(a, b, i, n) == 0 <==> forall j :: i <= j < n ==> Word(a, j) == Word(b, j)
    decreases n - i
  {
    if i < n {
      CompareWordsZero(a, b, i + 1, n);
    }
  }

  lemma {:induction false} CompareWordsAntisymmetric(a: PascalString, b: PascalString, i: nat, n: nat)
    requires Valid(a) && Valid(b) && i <= n <= LongSize
    ensures CompareWords(a, b, i, n) == -CompareWords(b, a, i, n)
    decreases n - i
  {
    if i < n {
      CompareWordsAntisymmetric(a, b, i + 1, n);
    }
  }

  lemma {:induction false} CompareWordsTransitive(a: PascalString, b: PascalString, c: PascalString, i: nat, n: nat)
    requires Valid(a) && Valid(b) && Valid(c) && i <= n <= LongSize
    requires CompareWords(a, b, i, n) < 0 && CompareWords(b, c, i, n) < 0
    ensures CompareWords(a, c, i, n) < 0
    decreases n - i
  {
    if i < n && Word(a, i) == Word(b, i) == Word(c, i) {
      CompareWordsTransitive(a, b, c, i + 1, n);
    }
  }

  /** Comparing a prefix of the words: a decision taken within the first `n` words
      stands for all 32, and equal prefixes leave the decision to the rest. */
  lemma {:induction false} CompareWordsPrefix(a: PascalString, b: PascalString, i: nat, n: nat, m: nat)
    requires Valid(a) && Valid(b) && i <= n <= m <= LongSize
    ensures CompareWords(a, b, i, n) != 0 ==> CompareWords(a, b, i, m) == CompareWords(a, b, i, n)
    ensures CompareWords(a, b, i, n) == 0 ==> CompareWords(a, b, i, m) == CompareWords(a, b, n, m)
    decreases n - i
  {
    if i < n {
      CompareWordsPrefix(a, b, i + 1, n, m);
    }
  }

  lemma CompareWordsEqual(a: PascalString, b: PascalString)
    requires Valid(a) && Valid(b)
    ensures CompareWords(a, b, 0, LongSize) == 0 <==> a == b
  {
    CompareWordsZero(a, b, 0, LongSize);
    if CompareWords(a, b, 0, LongSize) == 0 {
      WordsDetermineBytes(a, b);
    }
  }

  /** Equal words mean equal records. */
  lemma WordsDetermineBytes(a: PascalString, b: PascalString)
    requires Valid(a) && Valid(b)
    requires forall j :: 0 <= j < LongSize ==> Word(a, j) == Word(b, j)
    ensures a == b
  {
    forall k | 0 <= k < ByteSize
      ensures a.bytes[k] == b.bytes[k]
    {
      var j := k / 8;
      assert Word(a, j) == Word(b, j);
      LittleEndian.ValueInjective(a.bytes[8 * j .. 8 * j + 8], b.bytes[8 * j .. 8 * j + 8]);
      assert a.bytes[k] == a.bytes[8 * j .. 8 * j + 8][k - 8 * j];
      assert b.bytes[k] == b.bytes[8 * j .. 8 * j + 8][k - 8 * j];
    }
    assert a.bytes == b.bytes;
  }

  /** The word order the ordinal map keeps its keys in. */
  predicate Precedes(a: PascalString, b: PascalString)
    requires Valid(a) && Valid(b)
  {
    CompareWords(a, b, 0, LongSize) < 0
  }

  /** `Precedes` is a strict total order on records. */
  lemma PrecedesTotal(a: PascalString, b: PascalString)
    requires Valid(a) && Valid(b)
    ensures !Precedes(a, a)
    ensures Precedes(a, b) ==> !Precedes(b, a)
    ensures a != b ==> Precedes(a, b) || Precedes(b, a)
  {
    CompareWordsAntisymmetric(a, b, 0, LongSize);
    CompareWordsEqual(a, b);
    CompareWordsEqual(a, a);
  }

  lemma PrecedesTransitive(a: PascalString, b: PascalString, c: PascalString)
    requires Valid(a) && Valid(b) && Valid(c)
    requires Precedes(a, b) && Precedes(b, c)
    ensures Precedes(a, c)
  {
    CompareWordsTransitive(a, b, c, 0, LongSize);
  }

  /** Comparing only the first `n` words of a zero-tailed query against a
      zero-tailed record decides as the full comparison does, as long as those
      words cover the query's length byte and content. */
  lemma PrefixDecides(q: PascalString, k: PascalString, n: nat)
    requires ZeroTail(q) && ZeroTail(k)
    requires Length(q) < 8 * n && n <= LongSize
    ensures CompareWords(q, k, 0, n) == CompareWords(q, k, 0, LongSize)
  {
    CompareWordsPrefix(q, k, 0, n, LongSize);
    if CompareWords(q, k, 0, n) == 0 {
      CompareWordsZero(q, k, 0, n);
      assert Word(q, 0) == Word(k, 0);
      LittleEndian.ValueLowByte(q.bytes[0..8]);
      LittleEndian.ValueLowByte(k.bytes[0..8]);
      assert Length(q) == Length(k);
      forall j | n <= j < LongSize
        ensures Word(q, j) == Word(k, j)
      {
        LittleEndian.ValueZero(q.bytes[8 * j .. 8 * j + 8]);
        LittleEndian.ValueZero(k.bytes[8 * j .. 8 * j + 8]);
      }
      CompareWordsZero(q, k, n, LongSize);
    }
  }

  /** The word order is not the order of the content read left to right: in a
      little-endian word the later byte is the more significant, so "bob" comes
      before "ann" because 'b' < 'n' in their last characters. */
  lemma LaterBytesDecide()
    ensures Precedes(Make([98, 111, 98]), Make([97, 110, 110]))
    ensures !Precedes(Make([97, 110, 110]), Make([98, 111, 98]))
  {
    var a, b := Make([98, 111, 98]), Make([97, 110, 110]);
    assert Span(a)[2] == 98 && Span(b)[2] == 110;
    PrecedesByByte(a, b, 3);
    PrecedesTotal(a, b);
  }

  /** Records whose first words agree above byte `k` and differ there. */
  lemma PrecedesByByte(a: PascalString, b: PascalString, k: nat)
    requires Valid(a) && Valid(b) && k < 8 && a.bytes[k] < b.bytes[k]
    requires forall j :: k < j < 8 ==> a.bytes[j] == b.bytes[j]
    ensures Precedes(a, b)
  {
    LittleEndian.ValueByTopByte(a.bytes[0..8], b.bytes[0..8], k);
    assert Word(a, 0) < Word(b, 0);
  }

  /** `implicit operator PascalString(string)` as written. `utf8` is the UTF-8
      encoding of the string after its truncation to 255 UTF-16 units. The encoder
      writes into a 511-byte destination starting at offset 1 of a zeroed 512-byte
      buffer and throws when that is too small; the length is the byte count mod 256;
      the content is copied from offset 0, so it starts with the buffer's zero byte. */
  function FromStringAsWritten(utf8: seq<byte>): (r: Result<PascalString>)
    ensures r.Err? <==> |utf8| > 2 * ByteSize - 1
    ensures r.Ok? ==> ZeroTail(r.value) && Length(r.value) == |utf8| % ByteSize
    ensures r.Ok? ==> Span(r.value) == ([0] + utf8)[..|utf8| % ByteSize]
  {
    if |utf8| > 2 * ByteSize - 1 then Err(Argument)
    else
      var len := |utf8| % ByteSize;
      Ok(Make(([0] + utf8)[..len]))
  }

  /** The conversion with the copy taken from offset 1, where the encoder wrote. */
  function FromString(utf8: seq<byte>): (r: Result<PascalString>)
    ensures r.Err? <==> |utf8| > 2 * ByteSize - 1
    ensures r.Ok? ==> ZeroTail(r.value) && Length(r.value) == |utf8| % ByteSize
    ensures r.Ok? ==> Span(r.value) == utf8[..|utf8| % ByteSize]
  {
    if |utf8| > 2 * ByteSize - 1 then Err(Argument)
    else
      var len := |utf8| % ByteSize;
      Ok(Make(utf8[..len]))
  }

  /** As written, a one-byte string converts to a record whose content is the
      buffer's zero byte, not the encoded byte. */
  lemma FromStringAsWrittenLosesFirstByte()
    ensures FromStringAsWritten([65]).Ok? && Span(FromStringAsWritten([65]).value) == [0]
    ensures FromString([65]).Ok? && Span(FromString([65]).value) == [65]
  {
  }

  /** The corrected conversion round-trips every encoding of at most 255 bytes. */
  lemma FromStringRoundTrip(utf8: seq<byte>)
    requires |utf8| <= MaxLength
    ensures FromString(utf8) == Ok(FromBytes(utf8))
    ensures Span(FromString(utf8).value) == utf8
  {
    assert utf8[..|utf8| % ByteSize] == utf8;
  }
}

=== FILE: tiny_list.dfy ===
/** The small list of src/Collections/Generic/TinyList.cs: up to eight items
    inline, then a heap buffer. `Items` is the list the structure represents:
    the first `count` inline items while there is no buffer, else the first
    `count` buffer items. */
module TinyList {
  import opened Outcomes

  /** Inline capacity. */
  const Capacity: nat := 8

  datatype TinyList<T> = TinyList(count: int, buffer: Option<seq<T>>, ray: seq<T>)

  /** Where `Inflate` hands out the new slot. */
  datatype Slot = InRay(index: nat) | InBuffer(index: nat)

  predicate Valid<T>(l: TinyList<T>) {
    && |l.ray| == Capacity
    && 0 <= l.count
    && (l.buffer.None? ==> l.count <= Capacity)
    && (l.buffer.Some? ==> 2 * Capacity <= |l.buffer.value| && l.count <= |l.buffer.value|)
  }

  /** `Span`: the represented items. */
  function Items<T>(l: TinyList<T>): (r: seq<T>)
    requires Valid(l)
    ensures |r| == l.count
  {
    if l.buffer.None? then l.ray[..l.count] else l.buffer.value[..l.count]
  }

  /** `default(TinyList<T>)`. */
  function Empty<T>(zero: T): (r: TinyList<T>)
    ensures Valid(r) && Items(r) == []
  {
    TinyList(0, None, seq(Capacity, _ => zero))
  }

  /** Writes `item` into a slot. */
  function Put<T>(l: TinyList<T>, s: Slot, item: T): (r: TinyList<T>)
    requires s.InRay? ==> s.index < |l.ray|
    requires s.InBuffer? ==> l.buffer.Some? && s.index < |l.buffer.value|
  {
    match s
    case InRay(k) => l.(ray := l.ray[k := item])
    case InBuffer(k) => l.(buffer := Some(l.buffer.value[k := item]))
  }

  /** The growth step shared by both versions of `Inflate` once the slot is
      on the heap: eight inline items copied into a buffer of 16, or a full
      buffer resized by eight. */
  function Spill<T>(l: TinyList<T>, zero: T): (r: TinyList<T>)
    requires Valid(l) && (l.count >= Capacity || l.buffer.Some?)
    ensures Valid(r) && r.buffer.Some? && l.count < |r.buffer.value|
    ensures Items(r) == Items(l) && r.count == l.count && r.ray == l.ray
  {
    if l.buffer.None? then l.(buffer := Some(l.ray + seq(Capacity, _ => zero)))
    else if |l.buffer.value| == l.count then l.(buffer := Some(l.buffer.value + seq(Capacity, _ => zero)))
    else l
  }

  /** `Inflate` as written: an index below eight always goes inline, even when
      the items live in the heap buffer. */
  function InflateAsWritten<T>(l: TinyList<T>, zero: T): (r: (TinyList<T>, Slot))
    requires Valid(l)
    ensures Valid(r.0) && r.0.count == l.count + 1
    ensures r.1.InRay? ==> r.1.index < |r.0.ray|
    ensures r.1.InBuffer? ==> r.0.buffer.Some? && r.1.index < |r.0.buffer.value|
    ensures r.1.index == l.count
  {
    var index := l.count;
    if index < Capacity then (l.(count := index + 1), InRay(index))
    else (Spill(l, zero).(count := index + 1), InBuffer(index))
  }

  /** `Inflate` with the inline path taken only while there is no buffer. */
  function Inflate<T>(l: TinyList<T>, zero: T): (r: (TinyList<T>, Slot))
    requires Valid(l)
    ensures Valid(r.0) && r.0.count == l.count + 1
    ensures r.1.InRay? ==> r.1.index < |r.0.ray| && r.0.buffer.None?
    ensures r.1.InBuffer? ==> r.0.buffer.Some? && r.1.index < |r.0.buffer.value|
    ensures r.1.index == l.count
    ensures Items(r.0)[..l.count] == Items(l)
  {
    var index := l.count;
    if l.buffer.None? && index < Capacity then (l.(count := index + 1), InRay(index))
    else (Spill(l, zero).(count := index + 1), InBuffer(index))
  }

  /** `Add(item)` as written: `Inflate() = item`. */
  function AddAsWritten<T>(l: TinyList<T>, item: T, zero: T): (r: TinyList<T>)
    requires Valid(l)
    ensures Valid(r) && r.count == l.count + 1
  {
    var (l', slot) := InflateAsWritten(l, zero);
    Put(l', slot, item)
  }

  /** `Add(item)`: the item is appended. */
  function Add<T>(l: TinyList<T>, item: T, zero: T): (r: TinyList<T>)
    requires Valid(l)
    ensures Valid(r) && Items(r) == Items(l) + [item]
  {
    var (l', slot) := Inflate(l, zero);
    var r := Put(l', slot, item);
    assert Items(r) == Items(l) + [item] by {
      assert Items(r) == Items(l')[l.count := item];
    }
    r
  }

  /** After a spill and `Clear`, adding 7 as written leaves the stale buffer
      item visible, where `Add` shows 7. */
  lemma AddAsWrittenAfterClear()
    ensures var l := Clear(TinyList(9, Some(seq(16, _ => 1)), seq(8, _ => 1)));
            && Valid(l)
            && Items(AddAsWritten(l, 7, 0)) == [1]
            && Items(Add(l, 7, 0)) == [7]
  {
  }

  /** `Add(span)` as written: a span that fits inline is copied to the start
      of the inline items, not after the existing ones. */
  function AddSpanAsWritten<T>(l: TinyList<T>, span: seq<T>, zero: T): (r: TinyList<T>)
    requires Valid(l)
    ensures Valid(r) && r.count == l.count + |span|
  {
    if l.count + |span| < Capacity then
      l.(ray := span + l.ray[|span|..], count := l.count + |span|)
    else AppendToBuffer(l, span, zero)
  }

  /** The heap half of `Add(span)`: allocate or resize to `count + length + 8`
      when needed, then copy the span after the existing items. */
  function AppendToBuffer<T>(l: TinyList<T>, span: seq<T>, zero: T): (r: TinyList<T>)
    requires Valid(l) && (l.count + |span| >= Capacity || l.buffer.Some?)
    ensures Valid(r) && Items(r) == Items(l) + span && r.ray == l.ray
  {
    var total := l.count + |span|;
    var buffer :=
      if l.buffer.None? then l.ray + seq(total + Capacity - |l.ray|, _ => zero)
      else if |l.buffer.value| <= total then l.buffer.value + seq(total + Capacity - |l.buffer.value|, _ => zero)
      else l.buffer.value;
    assert buffer[..l.count] == Items(l);
    var r := l.(buffer := Some(buffer[..l.count] + span + buffer[total..]), count := total);
    assert Items(r) == Items(l) + span;
    r
  }

  /** `Add(span)` with the inline copy placed after the existing items and
      taken only while there is no buffer. */
  function AddSpan<T>(l: TinyList<T>, span: seq<T>, zero: T): (r: TinyList<T>)
    requires Valid(l)
    ensures Valid(r) && Items(r) == Items(l) + span
  {
    if l.buffer.None? && l.count + |span| < Capacity then
      var r := l.(ray := l.ray[..l.count] + span + l.ray[l.count + |span|..], count := l.count + |span|);
      assert Items(r) == Items(l) + span;
      r
    else AppendToBuffer(l, span, zero)
  }

  /** Adding `[2]` to the inline list `[1]`: as written the list reads `[2, 0]`. */
  lemma AddSpanAsWrittenOverwrites()
    ensures var l := TinyList(1, None, [1, 0, 0, 0, 0, 0, 0, 0]);
            && Valid(l)
            && Items(AddSpanAsWritten(l, [2], 0)) == [2, 0]
            && Items(AddSpan(l, [2], 0)) == [1, 2]
  {
  }

  /** `Pop` as written: on the inline path it indexes a span of the already
      decremented length, so it throws after decrementing. */
  function PopAsWritten<T>(l: TinyList<T>): (r: (TinyList<T>, Result<T>))
    requires Valid(l)
    ensures l.count == 0 ==> r == (l, Err(IndexOutOfRange))
    ensures l.count > 0 && l.buffer.None? ==> r == (l.(count := l.count - 1), Err(IndexOutOfRange))
    ensures l.count > 0 && l.buffer.Some? ==> r == (l.(count := l.count - 1), Ok(Items(l)[l.count - 1]))
  {
    var index := l.count - 1;
    if index >= 0 then
      // the inline span has length `index`, so reading at `index` throws
      if l.buffer.None? then (l.(count := index), Err(IndexOutOfRange))
      else (l.(count := index), Ok(l.buffer.value[index]))
    else (l.(count := 0), Err(IndexOutOfRange))
  }

  /** `Pop`: the last item is removed and returned; an empty list throws. */
  function Pop<T>(l: TinyList<T>): (r: (TinyList<T>, Result<T>))
    requires Valid(l)
    ensures Valid(r.0)
    ensures l.count == 0 <==> r.1 == Err(IndexOutOfRange)
    ensures l.count == 0 ==> r.0 == l
    ensures l.count > 0 ==> r.1 == Ok(Items(l)[l.count - 1]) && Items(r.0) == Items(l)[..l.count - 1]
  {
    var index := l.count - 1;
    if index >= 0 then (l.(count := index), Ok(Items(l)[index]))
    else (l.(count := 0), Err(IndexOutOfRange))
  }

  /** Popping undoes adding. */
  lemma PopAfterAdd<T>(l: TinyList<T>, item: T, zero: T)
    requires Valid(l)
    ensures Pop(Add(l, item, zero)).1 == Ok(item)
    ensures Items(Pop(Add(l, item, zero)).0) == Items(l)
  {
    var a := Add(l, item, zero);
    assert Items(a)[..l.count] == Items(l);
  }

  /** The inline list `[5]`: popping as written throws, `Pop` returns 5. */
  lemma PopAsWrittenThrowsInline()
    ensures var l := TinyList(1, None, [5, 0, 0, 0, 0, 0, 0, 0]);
            && Valid(l)
            && PopAsWritten(l) == (l.(count := 0), Err(IndexOutOfRange))
            && Pop(l).1 == Ok(5)
  {
  }

  /** `Deflate`: the count drops by one; below zero it throws and stays at -1. */
  function Deflate<T>(l: TinyList<T>): (r: (TinyList<T>, Result<()>))
    requires Valid(l)
    ensures r.0 == l.(count := l.count - 1)
    ensures r.1.Err? <==> l.count == 0
    ensures r.1.Ok? ==> Valid(r.0) && Items(r.0) == Items(l)[..l.count - 1]
  {
    var l' := l.(count := l.count - 1);
    if l'.count < 0 then (l', Err(IndexOutOfRange)) else (l', Ok(()))
  }

  /** `Clear`: the count is zeroed; storage is left as it is. */
  function Clear<T>(l: TinyList<T>): (r: TinyList<T>)
    ensures Valid(l) ==> Valid(r) && Items(r) == []
    ensures r.ray == l.ray && r.buffer == l.buffer
  {
    l.(count := 0)
  }

  /** `IsEmpty`. */
  function IsEmpty<T>(l: TinyList<T>): (r: bool)
    requires Valid(l)
    ensures r <==> Items(l) == []
  {
    l.count == 0
  }

  /** The indexer: a negative index counts from the end. */
  function At<T>(l: TinyList<T>, index: int): (r: Result<T>)
    requires Valid(l)
    ensures r.Ok? <==> -l.count <= index < l.count
    ensures 0 <= index < l.count ==> r == Ok(Items(l)[index])
    ensures -l.count <= index < 0 ==> r == Ok(Items(l)[l.count + index])
    ensures r.Err? ==> r.error == IndexOutOfRange
  {
    var i := if index < 0 then index + l.count else index;
    if i >= l.count then Err(IndexOutOfRange)
    else if i < 0 then Err(IndexOutOfRange)
    else if l.buffer.None? then Ok(l.ray[i])
    else Ok(l.buffer.value[i])
  }

  /** `First`. */
  function First<T>(l: TinyList<T>): (r: Result<T>)
    requires Valid(l)
    ensures l.count < 1 <==> r == Err(IndexOutOfRange)
    ensures l.count >= 1 ==> r == Ok(Items(l)[0])
  {
    if l.count < 1 then Err(IndexOutOfRange)
    else if l.buffer.None? then Ok(l.ray[0])
    else Ok(l.buffer.value[0])
  }

  /** `Last`. */
  function Last<T>(l: TinyList<T>): (r: Result<T>)
    requires Valid(l)
    ensures l.count < 1 <==> r == Err(IndexOutOfRange)
    ensures l.count >= 1 ==> r == Ok(Items(l)[l.count - 1])
  {
    var index := l.count - 1;
    if index < 0 then Err(IndexOutOfRange)
    else if l.buffer.None? then Ok(l.ray[index])
    else Ok(l.buffer.value[index])
  }

  /** Enumeration: `this[i]` for `i` from 0 below `Count`. */
  function Enumerate<T>(l: TinyList<T>): (r: seq<T>)
    requires Valid(l)
    ensures r == Items(l)
  {
    seq(l.count, i requires 0 <= i < l.count => At(l, i).value)
  }
}

=== FILE: trash_bin.dfy ===
/** The free-index bitmap of src/Collections/InlinedTrashBin.cs: a `uint Count`
    followed by bit words, where bit `i` set means slot `i` is free.

    The memory after `Count` is modelled as one `seq<bool>` whose length is a
    multiple of 32: bit word `w` (memory word `1 + w` counted from `Count`) is
    `bits[32 * w .. 32 * w + 32]`, and bit position `b` of that word is its
    element `b` (position 31 is the most significant bit). */
module InlinedTrashBin {

  const WordBits: nat := 32

  datatype TrashBin = TrashBin(count: nat, bits: seq<bool>)

  /** Number of set bits. */
  function PopCount(bits: seq<bool>): nat {
    if |bits| == 0 then 0
    else PopCount(bits[..|bits| - 1]) + (if bits[|bits| - 1] then 1 else 0)
  }

  /** The free slots the bitmap denotes. */
  function FreeSet(bits: seq<bool>): set<nat> {
    set i: nat | i < |bits| && bits[i]
  }

  /** The invariant every operation keeps: `Count` is the number of set bits. */
  predicate Valid(t: TrashBin) {
    |t.bits| % WordBits == 0 && t.count == PopCount(t.bits)
  }

  function CeilDiv(a: nat, b: nat): nat
    requires b > 0
  {
    (a + b - 1) / b
  }

  /** Bits a bitmap sized for `capacity` slots holds. */
  function BinBits(capacity: nat): (r: nat)
    ensures capacity <= r < capacity + WordBits && r % WordBits == 0
  {
    WordBits * CeilDiv(capacity, WordBits)
  }

  /** Bit word `w` (memory word `1 + w`). */
  function Word(bits: seq<bool>, w: nat): seq<bool>
    requires WordBits * w + WordBits <= |bits|
  {
    bits[WordBits * w .. WordBits * w + WordBits]
  }

  /** Memory word of slot `index`, counted in `uint`s from `Count`. */
  function WordIndex(index: nat): nat {
    1 + index / WordBits
  }

  /** Bit position of slot `index` inside its word. */
  function BitIndex(index: nat): nat {
    index % WordBits
  }

  /** The indexer's getter: bit `BitIndex(index)` of memory word `WordIndex(index)`. */
  function Get(t: TrashBin, index: nat): (r: bool)
    requires |t.bits| % WordBits == 0 && index < |t.bits|
    ensures r == Word(t.bits, WordIndex(index) - 1)[BitIndex(index)]
    ensures r <==> index in FreeSet(t.bits)
  {
    t.bits[index]
  }

  /** The indexer's setter. Setting a bit to the value it has changes nothing;
      otherwise the bit flips and `Count` moves by one in the same direction. */
  function Set(t: TrashBin, index: nat, value: bool): (r: TrashBin)
    requires Valid(t) && index < |t.bits|
    ensures Valid(r)
    ensures r.bits == t.bits[index := value]
    ensures FreeSet(r.bits) == if value then FreeSet(t.bits) + {index} else FreeSet(t.bits) - {index}
    ensures t.bits[index] == value ==> r == t
    ensures t.bits[index] != value ==> r.count == if value then t.count + 1 else t.count - 1
  {
    PopCountUpdate(t.bits, index, value);
    if value then
      if t.bits[index] then t else TrashBin(t.count + 1, t.bits[index := true])
    else
      if !t.bits[index] then t else TrashBin(t.count - 1, t.bits[index := false])
  }

  /** `Restore(ordinal)`: clears the mark at `ordinal` and reports whether it was set. */
  function Restore(t: TrashBin, ordinal: int): (r: (bool, TrashBin))
    requires Valid(t) && 0 <= ordinal < |t.bits|
    ensures Valid(r.1)
    ensures r.0 == t.bits[ordinal]
    ensures r.1.bits == t.bits[ordinal := false]
    ensures r.1.count == if r.0 then t.count - 1 else t.count
  {
    var stored := t.bits[ordinal];
    if !stored then (false, t)
    else
      PopCountUpdate(t.bits, ordinal, false);
      (true, TrashBin(t.count - 1, t.bits[ordinal := false]))
  }

  /** `uint.LeadingZeroCount` of a word: the number of clear bits above its highest set bit. */
  function LeadingZeroCount(word: seq<bool>): (r: nat)
    ensures r <= |word|
    ensures forall k :: |word| - r <= k < |word| ==> !word[k]
    ensures r < |word| ==> word[|word| - 1 - r]
  {
    if |word| == 0 then 0
    else if word[|word| - 1] then 0
    else 1 + LeadingZeroCount(word[..|word| - 1])
  }

  /** The loop of `TryRestore`: from word `w` on, find the first non-zero word and
      return `index = 31 + 32 * w - LeadingZeroCount(word)`. */
  function ScanWords(bits: seq<bool>, w: nat): (index: nat)
    requires |bits| % WordBits == 0 && WordBits * w <= |bits|
    requires true in bits[WordBits * w..]
    ensures WordBits * w <= index < |bits| && bits[index]
    ensures forall j :: WordBits * w <= j < WordBits * (index / WordBits) ==> !bits[j]
    ensures forall j :: index < j < WordBits * (index / WordBits) + WordBits ==> !bits[j]
    decreases |bits| - WordBits * w
  {
    WordRoom(bits, w);
    if true in Word(bits, w) then
      WordHit(bits, w);
      WordBits * w + 31 - LeadingZeroCount(Word(bits, w))
    else
      WordMiss(bits, w);
      ScanWords(bits, w + 1)
  }

  /** A set bit at or after word `w` means word `w` is a whole word of the map. */
  lemma WordRoom(bits: seq<bool>, w: nat)
    requires |bits| % WordBits == 0 && WordBits * w <= |bits|
    requires true in bits[WordBits * w..]
    ensures WordBits * w + WordBits <= |bits|
  {
    var k :| 0 <= k < |bits[WordBits * w..]| && bits[WordBits * w..][k];
    assert WordBits * w < |bits|;
    assert |bits| == WordBits * (|bits| / WordBits);
  }

  /** A non-zero word: the slot `31 + 32 * w - LeadingZeroCount` is its highest set bit. */
  lemma WordHit(bits: seq<bool>, w: nat)
    requires WordBits * w + WordBits <= |bits| && true in Word(bits, w)
    ensures var index := WordBits * w + 31 - LeadingZeroCount(Word(bits, w));
            && WordBits * w <= index < WordBits * w + WordBits && index / WordBits == w && bits[index]
            && forall j :: index < j < WordBits * w + WordBits ==> !bits[j]
  {
    var word := Word(bits, w);
    var lzc := LeadingZeroCount(word);
    assert lzc < WordBits by {
      var k :| 0 <= k < |word| && word[k];
    }
    var index := WordBits * w + 31 - lzc;
    assert bits[index] == word[|word| - 1 - lzc];
    forall j | index < j < WordBits * w + WordBits
      ensures !bits[j]
    {
      assert bits[j] == word[j - WordBits * w];
    }
  }

  /** A zero word: its slots are clear and the set bit lies beyond it. */
  lemma WordMiss(bits: seq<bool>, w: nat)
    requires WordBits * w + WordBits <= |bits| && true !in Word(bits, w)
    requires true in bits[WordBits * w..]
    ensures forall j :: WordBits * w <= j < WordBits * w + WordBits ==> !bits[j]
    ensures true in bits[WordBits * (w + 1)..]
  {
    var word := Word(bits, w);
    forall j | WordBits * w <= j < WordBits * w + WordBits
      ensures !bits[j]
    {
      assert bits[j] == word[j - WordBits * w];
    }
    var k :| 0 <= k < |bits[WordBits * w..]| && bits[WordBits * w..][k];
    assert bits[WordBits * w + k];
    assert bits[WordBits * (w + 1)..][k - WordBits];
  }

  /** Slot `index` is the highest set bit of the lowest non-zero word. */
  predicate HighestOfLowestWord(bits: seq<bool>, index: nat) {
    && index < |bits| && bits[index]
    && (forall j :: 0 <= j < WordBits * (index / WordBits) ==> !bits[j])
    && (forall j :: index < j < WordBits * (index / WordBits) + WordBits && j < |bits| ==> !bits[j])
  }

  /** `TryRestore(out index)`: with no free slot, fails with index 0 and no change;
      otherwise takes the highest free bit of the lowest non-zero word. */
  function TryRestore(t: TrashBin): (r: (bool, nat, TrashBin))
    requires Valid(t)
    ensures t.count == 0 ==> r == (false, 0, t)
    ensures t.count > 0 ==> && r.0
                            && HighestOfLowestWord(t.bits, r.1)
                            && r.2.bits == t.bits[r.1 := false]
                            && r.2.count == t.count - 1
    ensures Valid(r.2)
    ensures r.0 <==> FreeSet(t.bits) != {}
    ensures r.0 ==> FreeSet(r.2.bits) == FreeSet(t.bits) - {r.1}
  {
    if t.count == 0 then
      PopCountZero(t.bits);
      assert FreeSet(t.bits) == {};
      (false, 0, t)
    else
      PopCountZero(t.bits);
      assert true in t.bits[0..] by {
        var i :| 0 <= i < |t.bits| && t.bits[i];
        assert t.bits[0..][i];
      }
      var index := ScanWords(t.bits, 0);
      assert index in FreeSet(t.bits);
      (true, index, Set(t, index, false))
  }

  /** `IntsFor(capacity)`. */
  function IntsFor(capacity: nat): (r: nat)
    ensures r == 2 * (1 + CeilDiv(capacity, WordBits))
  {
    (if capacity % 32 == 0 then capacity / 32 + 1 else capacity / 32 + 2) * 2
  }

  /** `BytesFor(capacity)`: the count word plus enough bit words for `capacity` slots. */
  function BytesFor(capacity: nat): (r: nat)
    ensures r == 4 * (1 + CeilDiv(capacity, WordBits))
    ensures r == 4 + BinBits(capacity) / 8
    ensures 8 * (r - 4) >= capacity
  {
    (if capacity % 32 == 0 then capacity / 32 + 1 else capacity / 32 + 2) * 4
  }

  /** `Clear(byteLength)`: zero-fills `byteLength` bytes from `Count`. Bytes 0..3 are
      `Count` (little-endian); bit `i` lives in byte `4 + i / 8`. */
  function Clear(t: TrashBin, byteLength: nat): (r: TrashBin)
    requires byteLength <= 4 + |t.bits| / 8
    ensures |r.bits| == |t.bits|
    ensures byteLength >= 4 ==> r.count == 0
    ensures byteLength < 4 ==> r.count <= t.count < r.count + LowBytes(byteLength)
    ensures forall i :: 0 <= i < |t.bits| ==> r.bits[i] == (t.bits[i] && i >= 8 * (byteLength - 4))
  {
    var r := TrashBin(if byteLength >= 4 then 0 else ZeroLowBytes(t.count, byteLength),
                      seq(|t.bits|, i requires 0 <= i < |t.bits| => t.bits[i] && 4 + i / 8 >= byteLength));
    assert forall i :: 0 <= i < |t.bits| ==> r.bits[i] == (t.bits[i] && i >= 8 * (byteLength - 4)) by {
      forall i | 0 <= i < |t.bits|
        ensures r.bits[i] == (t.bits[i] && i >= 8 * (byteLength - 4))
      {
        ByteOfBit(i, byteLength);
      }
    }
    r
  }

  /** Bit `i` sits in a byte at or after `byteLength` exactly when `i >= 8 * (byteLength - 4)`. */
  lemma ByteOfBit(i: nat, byteLength: nat)
    ensures (4 + i / 8 >= byteLength) == (i >= 8 * (byteLength - 4))
  {
  }

  /** `2^(8n)` for the byte counts below the width of `Count`. */
  function LowBytes(n: nat): nat
    requires n < 4
  {
    if n == 0 then 1 else if n == 1 then 0x100 else if n == 2 then 0x1_0000 else 0x100_0000
  }

  /** `value` with its `n` least significant bytes zeroed. */
  function ZeroLowBytes(value: nat, n: nat): (r: nat)
    requires n < 4
    ensures r <= value < r + LowBytes(n)
  {
    value - value % LowBytes(n)
  }

  /** A bitmap for `capacity` slots with every slot in use. */
  function Empty(capacity: nat): (r: TrashBin)
    ensures Valid(r) && |r.bits| == BinBits(capacity) && r.count == 0
    ensures FreeSet(r.bits) == {}
  {
    var r := TrashBin(0, seq(BinBits(capacity), _ => false));
    PopCountZero(r.bits);
    r
  }

  /** `Clear(BytesFor(capacity))` re-establishes the invariant with no free slot,
      whatever the memory held. */
  lemma ClearBytesFor(t: TrashBin, capacity: nat)
    requires |t.bits| == BinBits(capacity)
    ensures Clear(t, BytesFor(capacity)) == Empty(capacity)
  {
    var r := Clear(t, BytesFor(capacity));
    assert r.bits == Empty(capacity).bits;
  }

  lemma {:induction false} PopCountUpdate(bits: seq<bool>, i: nat, v: bool)
    requires i < |bits|
    ensures PopCount(bits[i := v]) == PopCount(bits) - (if bits[i] then 1 else 0) + (if v then 1 else 0)
  {
    var n := |bits|;
    var b := bits[i := v];
    if i < n - 1 {
      assert b[..n - 1] == bits[..n - 1][i := v];
      PopCountUpdate(bits[..n - 1], i, v);
    } else {
      assert b[..n - 1] == bits[..n - 1];
    }
  }

  lemma {:induction false} PopCountZero(bits: seq<bool>)
    ensures PopCount(bits) == 0 <==> forall i :: 0 <= i < |bits| ==> !bits[i]
  {
    if |bits| > 0 {
      var n := |bits|;
      PopCountZero(bits[..n - 1]);
      assert forall i :: 0 <= i < n - 1 ==> bits[..n - 1][i] == bits[i];
    }
  }

  lemma {:induction false} PopCountBound(bits: seq<bool>)
    ensures PopCount(bits) <= |bits|
  {
    if |bits| > 0 {
      PopCountBound(bits[..|bits| - 1]);
    }
  }

  /** The free set of a bitmap is that of all but its last bit, plus the
      last position when that bit is set. */
  lemma FreeSetStep(bits: seq<bool>)
    requires |bits| > 0
    ensures var n := |bits|;
            && (n - 1) !in FreeSet(bits[..n - 1])
            && FreeSet(bits) == FreeSet(bits[..n - 1]) + (if bits[n - 1] then {n - 1} else {})
  {
    var n := |bits|;
    var prefix := bits[..n - 1];
    forall i | i in FreeSet(bits)
      ensures i in FreeSet(prefix) + (if bits[n - 1] then {n - 1} else {})
    {
      if i < n - 1 { assert prefix[i] == bits[i]; }
    }
  }

  /** The popcount is the size of the free set the bitmap refines. */
  lemma {:induction false} PopCountIsCardinality(bits: seq<bool>)
    ensures PopCount(bits) == |FreeSet(bits)|
  {
    var n := |bits|;
    if n > 0 {
      var prefix := bits[..n - 1];
      PopCountIsCardinality(prefix);
      FreeSetStep(bits);
    } else {
      assert FreeSet(bits) == {};
    }
  }
}

=== FILE: unmanaged_map.dfy ===
/** The off-heap buffer of src/Collections/Generic/UnmanagedMap.cs: one block
    holding the ordinal region, the key region and an inlined free-map, plus a
    managed value array with a cursor. The regions are modelled by their
    contents (`capacity` ordinals, `capacity` keys, a free-map) together with
    the byte offsets the buffer records; blank blocks read as zeros. */
module UnmanagedMap {
  import opened Outcomes
  import TB = InlinedTrashBin

  const WordRange: nat := 0x1_0000_0000

  /** `Buffer`. `live` is a non-zero handle. */
  datatype Buffer<K, V> = Buffer(
    capacity: u32, keyOffset: nat, trashOffset: nat,
    ordinals: seq<u32>, keys: seq<K>, trash: TB.TrashBin,
    values: seq<V>, cursor: u32, live: bool)

  /** `Bytes(capacity)`: the byte sizes of the ordinal, key and free-map regions,
      computed in `uint`. */
  function Bytes(capacity: u32, keySize: nat): (r: (nat, nat, nat))
    ensures capacity < 0x2000_0000 ==> r.0 == 8 * capacity
    ensures capacity * keySize < WordRange ==> r.1 == capacity * keySize
    ensures r.0 < WordRange && r.1 < WordRange
    ensures r.2 == TB.BytesFor(capacity) && 8 * (r.2 - 4) >= capacity
  {
    var ordinals := capacity * 8;
    var keys := capacity * keySize;
    Unwrapped(ordinals);
    Unwrapped(keys);
    (ordinals % WordRange, keys % WordRange, TB.BytesFor(capacity))
  }

  /** A value below 2^32 is its own `uint` image. */
  lemma Unwrapped(x: nat)
    ensures x < WordRange ==> x % WordRange == x
    ensures x % WordRange < WordRange
  {
  }

  /** The key offset, the free-map offset and the allocation size, added in `uint`. */
  function Offsets(capacity: u32, keySize: nat): (r: (nat, nat, nat))
    ensures var (ordinals, keys, trash) := Bytes(capacity, keySize);
            ordinals + keys + trash < WordRange ==>
              && r.0 == ordinals && r.1 == ordinals + keys && r.2 == r.1 + trash
  {
    var (ordinals, keys, trash) := Bytes(capacity, keySize);
    Unwrapped(ordinals + keys);
    var trashOffset := (ordinals + keys) % WordRange;
    Unwrapped(trashOffset + trash);
    (ordinals, trashOffset, (trashOffset + trash) % WordRange)
  }

  /** Without wrap-around the three regions lie one after another inside the
      allocation, the ordinal region has room for `capacity` 4-byte ordinals
      and the free-map region for its count word and one bit per slot. */
  lemma OffsetsLayout(capacity: u32, keySize: nat)
    requires 8 * capacity + capacity * keySize + TB.BytesFor(capacity) < WordRange
    ensures var (keyOffset, trashOffset, total) := Offsets(capacity, keySize);
            && 4 * capacity <= keyOffset
            && trashOffset - keyOffset == capacity * keySize
            && total - trashOffset == TB.BytesFor(capacity)
            && 8 * (total - trashOffset - 4) >= capacity
  {
    var (ordinals, keys, trash) := Bytes(capacity, keySize);
    assert capacity < 0x2000_0000;
  }

  /** The buffer's bookkeeping agrees with its capacity. */
  predicate Valid<K, V>(b: Buffer<K, V>, keySize: nat) {
    && |b.ordinals| == b.capacity && |b.keys| == b.capacity
    && (b.keyOffset, b.trashOffset) == (Offsets(b.capacity, keySize).0, Offsets(b.capacity, keySize).1)
    && TB.Valid(b.trash) && |b.trash.bits| == TB.BinBits(b.capacity)
  }

  /** The constructor and `Buffer(capacity)`: capacity 0 is rejected, and the
      value array `new TValue[capacity]` refuses a length past `int.MaxValue`;
      otherwise zeroed regions, `capacity` default values, cursor 0 and a
      free-map with no free slot. */
  function Create<K, V>(capacity: u32, keySize: nat, zeroKey: K, defaultValue: V): (r: Result<Buffer<K, V>>)
    ensures capacity < 1 <==> r == Err(ArgumentOutOfRange)
    ensures capacity > MaxArrayLength <==> r == Err(Overflow)
    ensures r.Ok? ==> && Valid(r.value, keySize) && r.value.live
                      && r.value.capacity == capacity
                      && |r.value.values| == capacity && r.value.cursor == 0
                      && r.value.trash == TB.Empty(capacity)
  {
    if capacity < 1 then Err(ArgumentOutOfRange)
    else if capacity > MaxArrayLength then Err(Overflow)
    else
      var offsets := Offsets(capacity, keySize);
      var blank := TB.TrashBin(0, seq(TB.BinBits(capacity), _ => false));
      TB.ClearBytesFor(blank, capacity);
      Ok(Buffer(capacity, offsets.0, offsets.1,
                seq(capacity, _ => 0), seq(capacity, _ => zeroKey), TB.Clear(blank, TB.BytesFor(capacity)),
                seq(capacity, _ => defaultValue), 0, true))
  }

  /** The byte sizes of a block of `capacity` slots no longer fit in `uint`,
      so the offsets computed by `Offsets` wrap and the regions overlap. */
  predicate LayoutWraps(capacity: u32, keySize: nat) {
    8 * capacity + capacity * keySize + TB.BytesFor(capacity) >= WordRange
  }

  /** `Expand`: the capacity doubles, the old ordinals and keys are copied to
      the front of the new block, the free-map is cleared and the values are
      left alone. A doubling past `uint`, or one whose regions no longer fit
      in `uint` byte offsets, is refused. */
  function Expand<K, V>(b: Buffer<K, V>, keySize: nat, zeroKey: K): (r: Result<Buffer<K, V>>)
    requires Valid(b, keySize) && b.live
    ensures 2 * b.capacity > MaxU32 || LayoutWraps(2 * b.capacity, keySize) <==> r == Err(Overflow)
    ensures r.Ok? ==> !LayoutWraps(r.value.capacity, keySize)
    ensures r.Ok? ==> && Valid(r.value, keySize) && r.value.live
                      && r.value.capacity == 2 * b.capacity
                      && r.value.ordinals[..b.capacity] == b.ordinals
                      && r.value.keys[..b.capacity] == b.keys
                      && r.value.trash == TB.Empty(r.value.capacity)
                      && r.value.values == b.values && r.value.cursor == b.cursor
  {
    if 2 * b.capacity > MaxU32 || LayoutWraps(2 * b.capacity, keySize) then Err(Overflow)
    else
      var capacity := 2 * b.capacity;
      var offsets := Offsets(capacity, keySize);
      var ordinals := b.ordinals + seq(b.capacity, _ => 0);
      var keys := b.keys + seq(b.capacity, _ => zeroKey);
      var blank := TB.TrashBin(0, seq(TB.BinBits(capacity), _ => false));
      TB.ClearBytesFor(blank, capacity);
      assert ordinals[..b.capacity] == b.ordinals && keys[..b.capacity] == b.keys;
      Ok(b.(capacity := capacity, keyOffset := offsets.0, trashOffset := offsets.1,
            ordinals := ordinals, keys := keys, trash := TB.Clear(blank, TB.BytesFor(capacity))))
  }

  /** Doubling 2^28 slots, as written: `(2^29) << 3` wraps to 0, so the new key
      region starts at offset 0, on top of the ordinal region; the model
      refuses that doubling. */
  lemma ExpandLayoutAsWrittenWraps<K, V>(b: Buffer<K, V>, keySize: nat, zeroKey: K)
    requires Valid(b, keySize) && b.live && b.capacity == 0x1000_0000
    ensures Offsets(2 * b.capacity, keySize).0 == 0
    ensures LayoutWraps(2 * b.capacity, keySize) && Expand(b, keySize, zeroKey) == Err(Overflow)
  {
    assert Bytes(0x2000_0000, keySize).0 == (0x2000_0000 * 8) % WordRange;
    assert (0x2000_0000 * 8) % WordRange == 0;
  }

  /** Expanding keeps every entry at its slot and frees nothing. */
  lemma ExpandKeepsEntries<K, V>(b: Buffer<K, V>, keySize: nat, zeroKey: K, i: nat)
    requires Valid(b, keySize) && b.live && i < b.capacity
    ensures Expand(b, keySize, zeroKey).Ok? <==> 2 * b.capacity <= MaxU32 && !LayoutWraps(2 * b.capacity, keySize)
    ensures Expand(b, keySize, zeroKey).Ok? ==>
              && Expand(b, keySize, zeroKey).value.ordinals[i] == b.ordinals[i]
              && Expand(b, keySize, zeroKey).value.keys[i] == b.keys[i]
              && TB.FreeSet(Expand(b, keySize, zeroKey).value.trash.bits) == {}
  {
    if Expand(b, keySize, zeroKey).Ok? {
      var r := Expand(b, keySize, zeroKey).value;
      assert r.ordinals[..b.capacity][i] == r.ordinals[i];
      assert r.keys[..b.capacity][i] == r.keys[i];
    }
  }

  /** `Clear(defaultify)`: with `defaultify` the values below the cursor are
      reset first (a cursor past the array fails the span); then the cursor
      is 0 and the free-map is empty. */
  function Clear<K, V>(b: Buffer<K, V>, keySize: nat, defaultify: bool, defaultValue: V): (r: Result<Buffer<K, V>>)
    requires Valid(b, keySize)
    ensures r.Err? <==> defaultify && b.cursor > |b.values|
    ensures r.Ok? ==> && Valid(r.value, keySize) && r.value.cursor == 0
                      && r.value.trash == TB.Empty(b.capacity)
                      && TB.FreeSet(r.value.trash.bits) == {}
                      && |r.value.values| == |b.values|
                      && r.value == b.(values := r.value.values, cursor := 0, trash := r.value.trash)
    ensures r.Ok? ==> forall k :: 0 <= k < |b.values| ==>
              r.value.values[k] == if defaultify && k < b.cursor then defaultValue else b.values[k]
  {
    if defaultify && b.cursor > |b.values| then Err(ArgumentOutOfRange)
    else
      var values := if defaultify then seq(b.cursor, _ => defaultValue) + b.values[b.cursor..] else b.values;
      TB.ClearBytesFor(b.trash, b.capacity);
      Ok(b.(values := values, cursor := 0, trash := TB.Clear(b.trash, TB.BytesFor(b.capacity))))
  }

  /** `Dispose`: frees the block when the handle is live and zeroes it;
      reports whether it freed. */
  function Dispose<K, V>(b: Buffer<K, V>): (r: (Buffer<K, V>, bool))
    ensures r.1 == b.live && !r.0.live
    ensures r.0 == b.(live := false)
  {
    (b.(live := false), b.live)
  }

  /** A second `Dispose` frees nothing and changes nothing. */
  lemma DisposeOnce<K, V>(b: Buffer<K, V>)
    ensures Dispose(Dispose(b).0) == (Dispose(b).0, false)
  {
  }
}

=== FILE: uuid.dfy ===
/** The 16-byte identifier of src/Uuid.cs. `Lo` is bytes 0..7 and `Hi` bytes
    8..15, both little-endian. The SSE2 paths are selected by the parameter
    `vectorSupported`; the vector path is the byte-wise function it computes. */
module Uuid {
  import opened Outcomes
  import LE = LittleEndian

  type byte = LE.byte

  const Size: nat := 16
  const HalfRange: nat := 0x1_0000_0000_0000_0000

  datatype Uuid = Uuid(bytes: seq<byte>)

  predicate Valid(u: Uuid) {
    |u.bytes| == Size
  }

  function Lo(u: Uuid): (r: u64)
    requires Valid(u)
  {
    LE.ValueBound(u.bytes[..8]);
    LE.Value(u.bytes[..8])
  }

  function Hi(u: Uuid): (r: u64)
    requires Valid(u)
  {
    LE.ValueBound(u.bytes[8..]);
    LE.Value(u.bytes[8..])
  }

  /** `implicit operator Uuid((ulong lo, ulong hi))`. */
  function FromHalves(lo: u64, hi: u64): (r: Uuid)
    ensures Valid(r) && Lo(r) == lo && Hi(r) == hi
  {
    var r := Uuid(LE.Bytes(lo, 8) + LE.Bytes(hi, 8));
    assert r.bytes[..8] == LE.Bytes(lo, 8) && r.bytes[8..] == LE.Bytes(hi, 8);
    LE.BytesValue(lo, 8);
    LE.BytesValue(hi, 8);
    r
  }

  /** `Deconstruct` undoes the tuple conversion: the halves determine the value. */
  lemma HalvesRoundTrip(u: Uuid)
    requires Valid(u)
    ensures FromHalves(Lo(u), Hi(u)) == u
  {
    LE.ValueBytes(u.bytes[..8]);
    LE.ValueBytes(u.bytes[8..]);
    assert u.bytes == u.bytes[..8] + u.bytes[8..];
  }

  lemma HalvesInjective(a: Uuid, b: Uuid)
    requires Valid(a) && Valid(b)
    ensures a == b <==> Lo(a) == Lo(b) && Hi(a) == Hi(b)
  {
    if Lo(a) == Lo(b) && Hi(a) == Hi(b) {
      HalvesRoundTrip(a);
      HalvesRoundTrip(b);
    }
  }

  /** `IsEmpty`: both halves zero, that is every byte zero. */
  function IsEmpty(u: Uuid): (r: bool)
    requires Valid(u)
    ensures r <==> forall k :: 0 <= k < Size ==> u.bytes[k] == 0
  {
    LE.ValueZero(u.bytes[..8]);
    LE.ValueZero(u.bytes[8..]);
    assert forall k :: 0 <= k < 8 ==> u.bytes[..8][k] == u.bytes[k];
    assert forall k :: 8 <= k < Size ==> u.bytes[8..][k - 8] == u.bytes[k];
    Lo(u) == 0 && Hi(u) == 0
  }

  /** The indexer: byte `index & 0xF`, the non-negative remainder by 16. */
  function At(u: Uuid, index: int): (r: byte)
    requires Valid(u)
    ensures 0 <= index < Size ==> r == u.bytes[index]
  {
    u.bytes[index % Size]
  }

  /** Indices that differ by 16 read the same byte. */
  lemma AtWraps(u: Uuid, index: int)
    requires Valid(u)
    ensures At(u, index) == At(u, index + Size)
  {
  }

  /** The lowest byte index from `k` on where the values differ, 16 if none:
      `TrailingZeroCount(~matches)` of the byte-equality mask. */
  function FirstDifference(a: Uuid, b: Uuid, k: nat): (r: nat)
    requires Valid(a) && Valid(b) && k <= Size
    ensures k <= r <= Size
    ensures forall j :: k <= j < r ==> a.bytes[j] == b.bytes[j]
    ensures r < Size ==> a.bytes[r] != b.bytes[r]
    decreases Size - k
  {
    if k == Size || a.bytes[k] != b.bytes[k] then k else FirstDifference(a, b, k + 1)
  }

  lemma FirstDifferenceEqual(a: Uuid, b: Uuid)
    requires Valid(a) && Valid(b)
    ensures FirstDifference(a, b, 0) == Size <==> a == b
  {
    if FirstDifference(a, b, 0) == Size {
      assert a.bytes == b.bytes;
    }
  }

  /** `Equals` and `==`. */
  function Equals(a: Uuid, b: Uuid, vectorSupported: bool): (r: bool)
    requires Valid(a) && Valid(b)
    ensures r <==> a == b
  {
    FirstDifferenceEqual(a, b);
    HalvesInjective(a, b);
    if vectorSupported then FirstDifference(a, b, 0) == Size
    else Lo(a) == Lo(b) && Hi(a) == Hi(b)
  }

  /** `!=`. */
  function NotEquals(a: Uuid, b: Uuid, vectorSupported: bool): (r: bool)
    requires Valid(a) && Valid(b)
    ensures r <==> a != b
    ensures r == !Equals(a, b, vectorSupported)
  {
    FirstDifferenceEqual(a, b);
    HalvesInjective(a, b);
    if vectorSupported then FirstDifference(a, b, 0) != Size
    else Lo(a) != Lo(b) || Hi(a) != Hi(b)
  }

  /** `ulong.CompareTo`. */
  function CompareU64(x: u64, y: u64): (r: int)
    ensures r == 0 <==> x == y
    ensures r < 0 <==> x < y
    ensures -1 <= r <= 1
  {
    if x < y then -1 else if x > y then 1 else 0
  }

  /** `CompareTo`. The vector path returns the difference of the first unequal
      bytes; the scalar path compares `Lo` and then `Hi`. */
  function CompareTo(a: Uuid, b: Uuid, vectorSupported: bool): (r: int)
    requires Valid(a) && Valid(b)
    ensures r == 0 <==> a == b
    ensures vectorSupported && a != b ==>
              var k := FirstDifference(a, b, 0);
              k < Size && r == a.bytes[k] as int - b.bytes[k] as int
    ensures !vectorSupported ==> -1 <= r <= 1
    ensures !vectorSupported ==> (r < 0 <==> Lo(a) < Lo(b) || (Lo(a) == Lo(b) && Hi(a) < Hi(b)))
  {
    FirstDifferenceEqual(a, b);
    HalvesInjective(a, b);
    if vectorSupported then
      var k := FirstDifference(a, b, 0);
      if k == Size then 0 else At(a, k) - At(b, k)
    else if Lo(a) == Lo(b) then CompareU64(Hi(a), Hi(b))
    else if Lo(a) > Lo(b) then 1 else -1
  }

  /** `<`. */
  function Less(a: Uuid, b: Uuid, vectorSupported: bool): (r: bool)
    requires Valid(a) && Valid(b)
    ensures r <==> CompareTo(a, b, vectorSupported) < 0
    ensures a == b ==> !r
  {
    if vectorSupported then
      var k := FirstDifference(a, b, 0);
      k != Size && At(a, k) < At(b, k)
    else Lo(a) < Lo(b) || (Hi(a) < Hi(b) && Lo(a) == Lo(b))
  }

  /** `>`. */
  function Greater(a: Uuid, b: Uuid, vectorSupported: bool): (r: bool)
    requires Valid(a) && Valid(b)
    ensures r <==> CompareTo(a, b, vectorSupported) > 0
    ensures a == b ==> !r
  {
    FirstDifferenceEqual(a, b);
    HalvesInjective(a, b);
    if vectorSupported then
      var k := FirstDifference(a, b, 0);
      k != Size && At(a, k) > At(b, k)
    else Lo(a) > Lo(b) || (Hi(a) > Hi(b) && Lo(a) == Lo(b))
  }

  lemma FirstDifferenceSymmetric(a: Uuid, b: Uuid, k: nat)
    requires Valid(a) && Valid(b) && k <= Size
    ensures FirstDifference(a, b, k) == FirstDifference(b, a, k)
    decreases Size - k
  {
    if k < Size && a.bytes[k] == b.bytes[k] {
      FirstDifferenceSymmetric(a, b, k + 1);
    }
  }

  /** On either path `CompareTo` is antisymmetric in sign. */
  lemma CompareToAntisymmetric(a: Uuid, b: Uuid, vectorSupported: bool)
    requires Valid(a) && Valid(b)
    ensures CompareTo(a, b, vectorSupported) < 0 <==> CompareTo(b, a, vectorSupported) > 0
  {
    FirstDifferenceSymmetric(a, b, 0);
  }

  /** On either path `<` is transitive. */
  lemma LessTransitive(a: Uuid, b: Uuid, c: Uuid, vectorSupported: bool)
    requires Valid(a) && Valid(b) && Valid(c)
    requires Less(a, b, vectorSupported) && Less(b, c, vectorSupported)
    ensures Less(a, c, vectorSupported)
  {
    if vectorSupported {
      var i := FirstDifference(a, b, 0);
      var j := FirstDifference(b, c, 0);
      assert i < Size && a.bytes[i] < b.bytes[i];
      assert j < Size && b.bytes[j] < c.bytes[j];
      var k := if i < j then i else j;
      assert forall x :: 0 <= x < k ==> a.bytes[x] == b.bytes[x] == c.bytes[x];
      assert a.bytes[k] < c.bytes[k];
      FirstDifferencePrefix(a, c, k);
    }
  }

  lemma FirstDifferencePrefix(a: Uuid, c: Uuid, k: nat)
    requires Valid(a) && Valid(c) && k < Size
    requires forall x :: 0 <= x < k ==> a.bytes[x] == c.bytes[x]
    requires a.bytes[k] != c.bytes[k]
    ensures FirstDifference(a, c, 0) == k
  {
  }

  /** The two paths order values differently: `(1, 0)` comes after `(256, 0)` on
      the vector path (byte 0 decides) and before it on the scalar path. */
  lemma PathsOrderDifferently()
    ensures CompareTo(FromHalves(1, 0), FromHalves(256, 0), true) > 0
    ensures CompareTo(FromHalves(1, 0), FromHalves(256, 0), false) < 0
  {
    var a := FromHalves(1, 0);
    var b := FromHalves(256, 0);
    assert a.bytes[0] == 1 && b.bytes[0] == 0;
    assert FirstDifference(a, b, 0) == 0;
  }

  // ---- searching an array of (Lo, Hi) pairs ----

  /** The values `BinarySearch` sees: element `k` is `uuids[2k]`, `uuids[2k + 1]`. */
  function Pairs(uuids: seq<u64>): (r: seq<Uuid>)
    ensures |r| == |uuids| / 2
    ensures forall k :: 0 <= k < |r| ==> Valid(r[k]) && Lo(r[k]) == uuids[2 * k] && Hi(r[k]) == uuids[2 * k + 1]
  {
    seq(|uuids| / 2, k requires 0 <= k < |uuids| / 2 => FromHalves(uuids[2 * k], uuids[2 * k + 1]))
  }

  /** The values `UnsafeBinarySearch<ulong>` sees: `CastThis<Uuid>(k)` steps `k`
      ulongs, so element `k` is `uuids[k]`, `uuids[k + 1]`. */
  function OverlappingPairs(uuids: seq<u64>): (r: seq<Uuid>)
    ensures |r| == |uuids| / 2
    ensures forall k {:trigger r[k]} :: 0 <= k < |r| ==> k + 1 < |uuids| && r[k] == FromHalves(uuids[k], uuids[k + 1])
    ensures forall k :: 0 <= k < |r| ==> Valid(r[k]) && Lo(r[k]) == uuids[k] && Hi(r[k]) == uuids[k + 1]
  {
    var half := |uuids| / 2;
    HalfFits(|uuids|);
    seq(half, k requires 0 <= k < half => FromHalves(uuids[k], uuids[k + 1]))
  }

  /** Two halves of a length fit in it. */
  lemma HalfFits(n: nat)
    ensures n / 2 + n / 2 <= n
  {
  }

  predicate AllValid(elems: seq<Uuid>) {
    forall k :: 0 <= k < |elems| ==> Valid(elems[k])
  }

  /** The order `BinarySearch` assumes: by `Hi`, then by `Lo`. */
  function Rank(u: Uuid): (r: nat)
    requires Valid(u)
  {
    Hi(u) * HalfRange + Lo(u)
  }

  lemma RankOrder(a: Uuid, b: Uuid)
    requires Valid(a) && Valid(b)
    ensures Rank(a) < Rank(b) <==> Hi(a) < Hi(b) || (Hi(a) == Hi(b) && Lo(a) < Lo(b))
    ensures Rank(a) == Rank(b) <==> a == b
  {
    HalvesInjective(a, b);
    if Hi(a) < Hi(b) {
      assert Hi(a) * HalfRange + HalfRange <= Hi(b) * HalfRange;
    } else if Hi(a) > Hi(b) {
      assert Hi(b) * HalfRange + HalfRange <= Hi(a) * HalfRange;
    }
  }

  /** Non-decreasing `(Hi, Lo)` order. */
  predicate Sorted(elems: seq<Uuid>)
    requires AllValid(elems)
  {
    forall i, j :: 0 <= i < j < |elems| ==> Rank(elems[i]) <= Rank(elems[j])
  }

  /** In sorted order, everything up to an element below `value` is below it. */
  lemma SortedBelow(elems: seq<Uuid>, value: Uuid, m: nat)
    requires AllValid(elems) && Valid(value) && m < |elems|
    requires Rank(elems[m]) < Rank(value)
    ensures Sorted(elems) ==> forall k :: 0 <= k <= m ==> Rank(elems[k]) < Rank(value)
  {
    if Sorted(elems) {
      forall k | 0 <= k <= m
        ensures Rank(elems[k]) < Rank(value)
      {
        if k < m {
          assert Rank(elems[k]) <= Rank(elems[m]);
        }
      }
    }
  }

  /** In sorted order, everything from an element above `value` on is above it. */
  lemma SortedAbove(elems: seq<Uuid>, value: Uuid, m: nat)
    requires AllValid(elems) && Valid(value) && m < |elems|
    requires Rank(elems[m]) > Rank(value)
    ensures Sorted(elems) ==> forall k :: m <= k < |elems| ==> Rank(elems[k]) > Rank(value)
  {
    if Sorted(elems) {
      forall k | m <= k < |elems|
        ensures Rank(elems[k]) > Rank(value)
      {
        if k > m {
          assert Rank(elems[m]) <= Rank(elems[k]);
        }
      }
    }
  }

  /** The halving loop of both searches over elements `lo..hi`: midpoint
      `(hi + lo) >> 1` in unsigned arithmetic, `Hi` compared before `Lo`,
      `~lo` when the range empties. */
  function Halving(elems: seq<Uuid>, value: Uuid, lo: int, hi: int): (r: int)
    requires AllValid(elems) && Valid(value)
    requires 0 <= lo && hi < |elems| && lo <= hi + 1
    ensures r >= 0 ==> lo <= r <= hi && elems[r] == value
    ensures r < 0 ==> lo <= Complement(r) <= hi + 1
    ensures r < 0 && Sorted(elems) ==>
              forall k :: lo <= k < Complement(r) ==> Rank(elems[k]) < Rank(value)
    ensures r < 0 && Sorted(elems) ==>
              forall k :: Complement(r) <= k <= hi ==> Rank(elems[k]) > Rank(value)
    decreases hi - lo + 1
  {
    if lo > hi then Complement(lo)
    else
      var offset := (hi + lo) / 2;
      MidpointWithin(lo, hi);
      var c := elems[offset];
      RankOrder(value, c);
      RankOrder(c, value);
      if Hi(value) == Hi(c) && Lo(value) == Lo(c) then offset
      else if Hi(value) > Hi(c) || (Hi(value) == Hi(c) && Lo(value) > Lo(c)) then
        SortedBelow(elems, value, offset);
        Halving(elems, value, offset + 1, hi)
      else
        SortedAbove(elems, value, offset);
        Halving(elems, value, lo, offset - 1)
  }

  /** The midpoint of a non-empty range lies inside it. */
  lemma MidpointWithin(lo: int, hi: int)
    requires 0 <= lo <= hi
    ensures lo <= (hi + lo) / 2 <= hi
  {
  }

  /** `BinarySearch(ulong[] uuids, value)`: a match, or the complement of the
      insertion point. */
  function BinarySearch(uuids: seq<u64>, value: Uuid): (r: int)
    requires Valid(value)
    ensures var elems := Pairs(uuids);
            && (r >= 0 ==> r < |elems| && elems[r] == value)
            && (r < 0 ==> Complement(r) <= |elems|)
            && (r < 0 && Sorted(elems) ==>
                  && (forall k :: 0 <= k < Complement(r) ==> Rank(elems[k]) < Rank(value))
                  && (forall k :: Complement(r) <= k < |elems| ==> Rank(elems[k]) > Rank(value)))
    ensures Sorted(Pairs(uuids)) ==> (r >= 0 <==> value in Pairs(uuids))
  {
    var elems := Pairs(uuids);
    var r := Halving(elems, value, 0, |uuids| / 2 - 1);
    if r < 0 && Sorted(elems) then
      AbsentWhenBetween(elems, value, Complement(r));
      r
    else r
  }

  /** Nothing strictly below and strictly above `value` on either side of `p`
      means `value` is not among the elements. */
  lemma AbsentWhenBetween(elems: seq<Uuid>, value: Uuid, p: nat)
    requires AllValid(elems) && Valid(value)
    requires forall k :: 0 <= k < p && k < |elems| ==> Rank(elems[k]) < Rank(value)
    requires forall k :: p <= k < |elems| ==> Rank(elems[k]) > Rank(value)
    ensures value !in elems
  {
  }

  /** `UnsafeBinarySearch<ulong>` as written: the halving runs over `Length >> 1`
      elements read at a one-ulong stride. */
  function UnsafeBinarySearchAsWritten(uuids: seq<u64>, value: Uuid): (r: int)
    requires Valid(value)
    ensures r >= 0 ==> r < |uuids| / 2 && OverlappingPairs(uuids)[r] == value
    ensures r < 0 ==> Complement(r) <= |uuids| / 2
  {
    Halving(OverlappingPairs(uuids), value, 0, |uuids| / 2 - 1)
  }

  /** The pairs `(5, 1)` and `(7, 2)` are sorted by `Hi`; the unsafe search does
      not find `(7, 2)`, which `BinarySearch` finds at element 1. */
  lemma UnsafeBinarySearchAsWrittenMisses()
    ensures Sorted(Pairs([5, 1, 7, 2]))
    ensures BinarySearch([5, 1, 7, 2], FromHalves(7, 2)) == 1
    ensures UnsafeBinarySearchAsWritten([5, 1, 7, 2], FromHalves(7, 2)) == -2
  {
    var v := FromHalves(7, 2);
    ExamplePairs([5, 1, 7, 2], v);
    ExampleOverlapping([5, 1, 7, 2], v);
  }

  /** `UnsafeBinarySearch<Uuid>` as written: elements are read at the right
      stride, but the halving covers only the first `Length >> 1` of them. */
  function UnsafeBinarySearchOfUuids(elems: seq<Uuid>, value: Uuid): (r: int)
    requires AllValid(elems) && Valid(value)
    ensures r >= 0 ==> r < |elems| / 2 && elems[r] == value
    ensures r < 0 ==> Complement(r) <= |elems| / 2
  {
    Halving(elems, value, 0, |elems| / 2 - 1)
  }

  /** Over the two sorted elements `(5, 1)` and `(7, 2)` the search as written
      looks at element 0 only and misses `(7, 2)`, which `BinarySearch` finds. */
  lemma UnsafeBinarySearchOfUuidsMisses()
    ensures var u: seq<u64> := [5, 1, 7, 2];
            && Sorted(Pairs(u)) && BinarySearch(u, FromHalves(7, 2)) == 1
            && UnsafeBinarySearchOfUuids(Pairs(u), FromHalves(7, 2)) == -2
  {
    var u: seq<u64> := [5, 1, 7, 2];
    var v := FromHalves(7, 2);
    ExamplePairs(u, v);
    ExampleShape(u);
    FirstHalfOnly(Pairs(u), v);
  }

  /** Over two elements the halving as written probes element 0 only. */
  lemma FirstHalfOnly(e: seq<Uuid>, v: Uuid)
    requires |e| == 2 && AllValid(e) && Valid(v) && Hi(e[0]) < Hi(v)
    ensures UnsafeBinarySearchOfUuids(e, v) == -2
  {
    RankOrder(e[0], v);
    assert Halving(e, v, 0, 0) == Halving(e, v, 1, 0);
  }

  lemma ExamplePairs(u: seq<u64>, v: Uuid)
    requires u == [5, 1, 7, 2] && Valid(v) && Lo(v) == 7 && Hi(v) == 2
    ensures Sorted(Pairs(u)) && BinarySearch(u, v) == 1
  {
    var e := Pairs(u);
    ExampleShape(u);
    TwoSorted(e);
    TwoFound(e, v);
    assert BinarySearch(u, v) == Halving(e, v, 0, 1);
  }

  /** The two identifiers `[5, 1, 7, 2]` holds. */
  lemma ExampleShape(u: seq<u64>)
    requires u == [5, 1, 7, 2]
    ensures |Pairs(u)| == 2 && |u| / 2 - 1 == 1 && AllValid(Pairs(u))
    ensures Lo(Pairs(u)[0]) == 5 && Hi(Pairs(u)[0]) == 1 && Lo(Pairs(u)[1]) == 7 && Hi(Pairs(u)[1]) == 2
  {
  }

  lemma TwoSorted(e: seq<Uuid>)
    requires |e| == 2 && AllValid(e) && Hi(e[0]) < Hi(e[1])
    ensures Sorted(e)
  {
    RankOrder(e[0], e[1]);
  }

  lemma TwoFound(e: seq<Uuid>, v: Uuid)
    requires |e| == 2 && AllValid(e) && Valid(v) && Hi(e[0]) < Hi(v) && Lo(e[1]) == Lo(v) && Hi(e[1]) == Hi(v)
    ensures Halving(e, v, 0, 1) == 1
  {
    assert Halving(e, v, 1, 1) == 1;
  }

  lemma ExampleOverlapping(u: seq<u64>, v: Uuid)
    requires u == [5, 1, 7, 2] && Valid(v) && Lo(v) == 7 && Hi(v) == 2
    ensures UnsafeBinarySearchAsWritten(u, v) == -2
  {
    var o := OverlappingPairs(u);
    assert Hi(o[1]) == 7 && Lo(o[1]) == 1 && Hi(o[0]) == 1;
    assert Halving(o, v, 1, 1) == Halving(o, v, 1, 0);
    assert Halving(o, v, 0, 1) == Halving(o, v, 1, 1);
  }

  // ---- text ----

  /** An uppercase hex digit: `(v > 9 ? 55 : 48) + v`. */
  function HexDigit(v: nat): (r: char)
    requires v < 16
    ensures r in "0123456789ABCDEF" && DigitValue(r) == v
  {
    ((if v > 9 then 55 else 48) + v) as char
  }

  /** Every character is an uppercase hex digit. */
  predicate UpperHex(cs: seq<char>) {
    forall k :: 0 <= k < |cs| ==> cs[k] in "0123456789ABCDEF"
  }

  function DigitValue(c: char): nat {
    if '0' <= c <= '9' then c as nat - 48
    else if 'A' <= c <= 'F' then c as nat - 55
    else 0
  }

  /** The two digits of one byte, high nibble first. */
  function HexByte(b: byte): (r: seq<char>)
    ensures |r| == 2 && UpperHex(r)
  {
    [HexDigit(b / 16), HexDigit(b % 16)]
  }

  /** The bytes of `s` from the last down to the first, two digits each. */
  function HexDescending(s: seq<byte>): (r: seq<char>)
    ensures |r| == 2 * |s| && UpperHex(r)
  {
    if |s| == 0 then []
    else
      var x, d := HexDescending(s[1..]), HexByte(s[0]);
      assert forall k :: |x| <= k < |x + d| ==> (x + d)[k] == d[k - |x|];
      x + d
  }

  /** The number an uppercase hex string denotes, most significant digit first. */
  function HexValue(cs: seq<char>): nat {
    if |cs| == 0 then 0 else HexValue(cs[..|cs| - 1]) * 16 + DigitValue(cs[|cs| - 1])
  }

  /** Printing the bytes from the last down is printing their little-endian value. */
  lemma {:induction false} HexDescendingValue(s: seq<byte>)
    ensures HexValue(HexDescending(s)) == LE.Value(s)
  {
    if |s| > 0 {
      HexDescendingValue(s[1..]);
      HexByteValue(HexDescending(s[1..]), s[0]);
    }
  }

  /** Two more digits shift the value up by a byte and add that byte. */
  lemma HexByteValue(x: seq<char>, b: byte)
    ensures HexValue(x + HexByte(b)) == HexValue(x) * 256 + b
  {
    var d := HexByte(b);
    var hi, lo := b / 16, b % 16;
    assert (x + d)[..|x + d| - 1] == x + [d[0]];
    assert (x + [d[0]])[..|x|] == x;
    assert HexValue(x + [d[0]]) == HexValue(x) * 16 + hi;
    assert HexValue(x + d) == (HexValue(x) * 16 + hi) * 16 + lo;
    assert b == hi * 16 + lo;
  }

  /** The five pieces of a concatenation, read back by position. */
  lemma Pieces(a: seq<char>, x: seq<char>, b: seq<char>, y: seq<char>, c: seq<char>)
    ensures var s := a + x + b + y + c;
            var i, j, k, l := |a|, |a| + |x|, |a| + |x| + |b|, |a| + |x| + |b| + |y|;
            && s[..i] == a && s[i..j] == x && s[j..k] == b && s[k..l] == y && s[l..] == c
  {
  }

  /** `(0x`, the low half in hex, `mid`, the high half in hex, then `tail`:
      the shape shared by both printers. */
  function Framed(u: Uuid, mid: seq<char>, tail: seq<char>): (r: seq<char>)
    requires Valid(u)
    ensures |r| == 35 + |mid| + |tail|
    ensures r[..3] == "(0x" && r[19..19 + |mid|] == mid && r[35 + |mid|..] == tail
    ensures HexValue(r[3..19]) == Lo(u) && HexValue(r[19 + |mid|..35 + |mid|]) == Hi(u)
    ensures UpperHex(r[3..19]) && UpperHex(r[19 + |mid|..35 + |mid|])
  {
    var lo := HexDescending(u.bytes[..8]);
    var hi := HexDescending(u.bytes[8..]);
    Pieces("(0x", lo, mid, hi, tail);
    HexDescendingValue(u.bytes[..8]);
    HexDescendingValue(u.bytes[8..]);
    "(0x" + lo + mid + hi + tail
  }

  /** `ToString(simple)`: `(0x` + `Lo` in hex + `UL, 0x` + `Hi` in hex + `UL)`;
      `simple` drops the first and the last character. */
  function ToString(u: Uuid, simple: bool): (r: seq<char>)
    requires Valid(u)
    ensures |r| == if simple then 42 else 44
    ensures !simple ==> r[..3] == "(0x" && r[19..25] == "UL, 0x" && r[41..] == "UL)"
    ensures !simple ==> HexValue(r[3..19]) == Lo(u) && HexValue(r[25..41]) == Hi(u)
    ensures !simple ==> UpperHex(r[3..19]) && UpperHex(r[25..41])
    ensures simple ==> r == ToString(u, false)[1..43]
  {
    var full := Framed(u, "UL, 0x", "UL)");
    if simple then full[1..|full| - 1] else full
  }

  /** `ToJavaScriptString(simple)`: the same with `n` suffixes, 42 characters. */
  function ToJavaScriptString(u: Uuid, simple: bool): (r: seq<char>)
    requires Valid(u)
    ensures |r| == if simple then 40 else 42
    ensures !simple ==> r[..3] == "(0x" && r[19..24] == "n, 0x" && r[40..] == "n)"
    ensures !simple ==> HexValue(r[3..19]) == Lo(u) && HexValue(r[24..40]) == Hi(u)
    ensures !simple ==> UpperHex(r[3..19]) && UpperHex(r[24..40])
    ensures simple ==> r == ToJavaScriptString(u, false)[1..41]
  {
    var full := Framed(u, "n, 0x", "n)");
    if simple then full[1..|full| - 1] else full
  }
}
